=== FILE: README.md ===
# Invoice2Excel parsing and sheet writing, modelled in Dafny

Invoice2Excel reads staffing-agency invoices (PDF) and appends one row per
invoice to a per-employee sheet of an Excel workbook. This project models
the core of that pipeline as pure Dafny functions over values and proves
properties about them:

- the text helpers of `parsing/_text_utils.py` (`num`, `clean_spaces`,
  `normalize_newlines`, `collapse_spaces_keep_newlines`, `to_first_last`,
  `norm_date`, `norm_period`);
- the text extractor of `parsing/_regex_rows.py`: line normalisation, the
  header search, the row-line search, and the two row patterns `ROW_RE`
  and `BACKSTOP_RE` modelled at the character level. Each pattern has a
  declarative "this placement of the groups matches" predicate and a
  computed matcher. Soundness and completeness lemmas connect the two,
  including the lazy `(?P<candidate>.+?)`, which picks the shortest
  candidate;
- the geometric extractor of `parsing/_banner.py`: the fixed crop box,
  label columns, the stable sort by centre, line binning with Python's
  round-half-even, the densest line, nearest-column assignment, and the
  renamed dictionary;
- `parse_invoice` of `parsing/parse.py`: the choice between the two
  extractors and the assembly of the `InvoiceRow` record of
  `core/models.py`;
- `excel/writer.py`: `row_to_dict`, `_ensure_employee_sheet`,
  `_invoice_exists` and `save_employee_row` over workbooks held as values
  in a map from path to workbook.

Modules: `Wrappers` (Option/Result), `Strings` (the Python `str`
primitives the code relies on: `isspace`, `strip`, `split`, `join`, and
whitespace-run replacement), `TextUtils`, `RegexRows`, `Banner`, `Models`,
`Parse` and `Writer`.

Where the code and its documentation differ, the model follows the code.
`norm_period` returns the dated form `a–b` whenever both normalised
halves are non-empty (`if a and b`). It does not require both halves to
parse as dates. A half that fails to parse comes back as its cleaned
text.

## Model

| member | source | states |
|---|---|---|
| Strings.Strip | parsing/_text_utils.py:12 | `str.strip()`: the result has no leading or trailing whitespace, already-stripped text comes back unchanged, and the result is empty exactly when the input is all whitespace |
| Strings.StripKeeps | parsing/_text_utils.py:12 | stripping keeps only characters of the input and creates no run of a character class that the input lacked |
| Strings.Squeeze | parsing/_text_utils.py:12 | `re.sub(r"\s+", " ", s)` (and `[ \t]+` for lines): no two neighbouring characters of the class remain, every class character left is a plain space, every character is a space or comes from the input, and the first character is kept or replaced by a space |
| Strings.SqueezeFixed | parsing/_text_utils.py:12 | text with no runs and only plain spaces is left unchanged by the replacement |
| Strings.Split | parsing/_text_utils.py:19 | `s.split("\n")`: one more piece than separators, no piece holds the separator, and joining the pieces with it gives back `s` |
| Strings.SplitJoin | parsing/_text_utils.py:19 | splitting a join of separator-free pieces gives back the pieces (round trip) |
| Strings.WordsSqueeze | parsing/_text_utils.py:12 | replacing whitespace runs by single spaces keeps the words of `str.split()` |
| Strings.WordsStrip | parsing/_text_utils.py:24 | stripping keeps the words |
| TextUtils.CleanSpaces | parsing/_text_utils.py:11-12 | `clean_spaces` output is clean (single inner spaces, stripped), and clean input is returned unchanged, so it is idempotent |
| TextUtils.CleanSpacesIsJoinedWords | parsing/_text_utils.py:11-12 | `clean_spaces(s)` has the same words as `s` and is exactly those words joined by single spaces |
| TextUtils.JoinWordsOfClean | parsing/_text_utils.py:11-12 | a clean string is its own words joined by single spaces |
| TextUtils.NormalizeNewlines | parsing/_text_utils.py:14-15 | no CR remains, the number of LFs equals the number of line breaks (CRLF, lone CR or LF), and CR-free text is unchanged |
| TextUtils.ReplaceCr | parsing/_text_utils.py:15 | replacing CR by LF removes every CR and adds one LF per CR |
| TextUtils.CleanLine | parsing/_text_utils.py:19 | a line after `[ \t]+` replacement and strip has no tab, no blank run and no outer whitespace; a clean line is unchanged; only spaces are introduced |
| TextUtils.CleanedLines | parsing/_regex_rows.py:27-30 | `_normalize_lines`: one line per line break plus one, each clean and free of CR and LF |
| TextUtils.CollapseSpacesKeepNewlines | parsing/_text_utils.py:17-19 | the output keeps one LF per line break of the input, and its lines are exactly the normalised lines of the input |
| TextUtils.CollapseIdempotent | parsing/_text_utils.py:17-19 | collapsing twice is collapsing once |
| TextUtils.CleanedLinesOfCollapsed | parsing/_text_utils.py:17-19 | the normalised lines of collapsed text are those of the original text |
| TextUtils.DropCommasAndDollars | parsing/_text_utils.py:7 | the result has no comma and no dollar sign, and text without them is unchanged |
| TextUtils.Num | parsing/_text_utils.py:4-5 | `num(None)` is 0.0 |
| TextUtils.NumOfBlank | parsing/_text_utils.py:7-9 | a string of whitespace only (the empty string included) reads as 0.0 |
| TextUtils.NumIgnoresCommasAndDollars | parsing/_text_utils.py:7 | inserting a comma or dollar sign anywhere never changes the value |
| TextUtils.NumOfDecimal | parsing/_text_utils.py:7-8 | a plain decimal literal `d+` or `d+.d*` reads back as its exact value |
| TextUtils.NumRejectsForeign | parsing/_text_utils.py:8-9 | a character that is not a digit, sign, point, comma, dollar or whitespace makes the value 0.0 (the `except` branch) |
| TextUtils.ParseDecimalChars | parsing/_text_utils.py:8 | an accepted literal holds only digits, signs and points |
| TextUtils.SplitAtNameSeps | parsing/_text_utils.py:28 | `re.split(r"([-’'])", w)`: an odd number of pieces, the odd-indexed ones single separators, the even-indexed ones separator-free, and their concatenation is `w` |
| TextUtils.CaseFrom | parsing/_text_utils.py:28-29 | character-level reference for the capitalisation: separators kept, the first letter of each piece upper-cased, the others lower-cased |
| TextUtils.PiecesAgreeWithCaseFrom | parsing/_text_utils.py:28-29 | capitalising the split pieces and re-joining them equals the character-level reference |
| TextUtils.CapitalizeWord | parsing/_text_utils.py:28-29 | a capitalised word keeps its length and separators, upper-cases each letter that opens a piece, and lower-cases the rest |
| TextUtils.ToFirstLastWords | parsing/_text_utils.py:21-30 | `to_first_last` output is clean and its words are the name's words, reordered and capitalised |
| TextUtils.ToFirstLastOrder | parsing/_text_utils.py:22-27 | with a comma, the words after the first comma come first, then the words before it; otherwise the words keep their order |
| TextUtils.JoinOfWordsIsClean | parsing/_text_utils.py:30 | words joined by single spaces form a clean string |
| TextUtils.PadDigits | parsing/_text_utils.py:39 | zero-padding a number gives a digit string of the requested width whose value is the number |
| TextUtils.PadDigitsOfValue | parsing/_text_utils.py:39 | a digit string is the zero-padded rendering of its own value |
| TextUtils.IsoFormat | parsing/_text_utils.py:39 | `date.isoformat()` is ten characters with dashes at positions 4 and 7 |
| TextUtils.IsoRoundTrip | parsing/_text_utils.py:39 | reading back an ISO date gives the date |
| TextUtils.IsoRoundTripBack | parsing/_text_utils.py:39 | an ISO date that reads back is re-rendered to the same text |
| TextUtils.NormDate | parsing/_text_utils.py:36-40 | `norm_date` is empty exactly for blank input; it is the ISO rendering of the parsed date when parsing succeeds, and the cleaned text when parsing fails |
| TextUtils.NormDateStrip | parsing/_text_utils.py:37 | stripping before `norm_date` changes nothing |
| TextUtils.UnifyDashes | parsing/_text_utils.py:45 | each of `–`, `—` and `−` becomes `-`, and every other character is kept |
| TextUtils.FindSeparator | parsing/_text_utils.py:46 | the split point is the leftmost stand-alone `to` (any case) or `-` |
| TextUtils.NormPeriod | parsing/_text_utils.py:42-44 | `norm_period` is empty exactly when the cleaned input is empty |
| TextUtils.NormPeriodSplits | parsing/_text_utils.py:46-49 | with both halves non-empty around the leftmost separator, the result is the two normalised dates joined by `–` |
| TextUtils.NormPeriodNoSeparator | parsing/_text_utils.py:46-50 | without a separator the result is the cleaned text with its dashes unified |
| TextUtils.NormPeriodBlankHalf | parsing/_text_utils.py:47-50 | with a blank half the result is the cleaned text with its dashes unified |
| TextUtils.NormPeriodOfTo | parsing/_text_utils.py:46-49 | `A to B` normalises as `norm_date(A)–norm_date(B)` |
| TextUtils.NormPeriodOfHyphen | parsing/_text_utils.py:46-49 | `A-B` normalises as `norm_date(A)–norm_date(B)` |
| TextUtils.NormPeriodToMatchesHyphen | parsing/_text_utils.py:46 | `A to B` and `A-B` give the same period |
| TextUtils.ToIsLeftmost | parsing/_text_utils.py:46 | in `A to B`, where `A` has no separator, the `to` is the leftmost separator |
| RegexRows.IsHeaderLineMatches | parsing/_regex_rows.py:3 | the computed header test holds exactly when some position holds a stand-alone `Amount` (any case) followed only by whitespace |
| RegexRows.MoneyIsSolid | parsing/_regex_rows.py:13-14 | a money token has no whitespace |
| RegexRows.TailOf | parsing/_regex_rows.py:10-14 | the closing tokens read from the right form a valid end of a row |
| RegexRows.TailOfComplete | parsing/_regex_rows.py:10-14 | every valid placement of type, units, rate and amount is the one read from the right, so the end of a row is determined by the line |
| RegexRows.PeriodBefore | parsing/_regex_rows.py:10 | a period found before a position is a valid period match |
| RegexRows.PeriodBeforeComplete | parsing/_regex_rows.py:10 | every valid period ending at a position is the one found |
| RegexRows.FrontAt | parsing/_regex_rows.py:7-8 | the front read from a candidate end is a valid candidate, whitespace and work-order placement |
| RegexRows.FrontAtComplete | parsing/_regex_rows.py:7-8 | every valid front placement is the one read |
| RegexRows.IsPoPartMatches | parsing/_regex_rows.py:9 | the computed test for the optional `PO[:\s]*\S+\s+` holds exactly when the declarative one does |
| RegexRows.RowAtSound | parsing/_regex_rows.py:5-17 | a row found at a candidate end is a match of the whole row pattern |
| RegexRows.RowAtComplete | parsing/_regex_rows.py:5-17 | every match of the row pattern is found at its candidate end |
| RegexRows.FirstRow | parsing/_regex_rows.py:7 | the lazy candidate search returns a row found at its own candidate end |
| RegexRows.FirstRowLeast | parsing/_regex_rows.py:7 | no candidate end with a match lies before the one returned, and one is returned whenever one exists |
| RegexRows.MatchRowSound | parsing/_regex_rows.py:47 | what `ROW_RE.match` returns is a match |
| RegexRows.MatchRowLeast | parsing/_regex_rows.py:47 | `ROW_RE.match` returns the match with the shortest candidate |
| RegexRows.MatchRowNone | parsing/_regex_rows.py:47 | `ROW_RE.match` fails exactly when no placement matches |
| RegexRows.RowMatchUnique | parsing/_regex_rows.py:5-17 | two matches with the same candidate are the same match |
| RegexRows.RowGroups | parsing/_regex_rows.py:48-49 | the stripped groups: each field is its own group's slice of the line (the candidate stripped), the period is the matched text, and type, units, rate and amount keep their grammars; the work order has six or more digits |
| RegexRows.TailUnstripped | parsing/_regex_rows.py:49 | stripping leaves the type, units, rate and amount groups unchanged |
| RegexRows.FrontUnstripped | parsing/_regex_rows.py:49 | stripping leaves the work order and period unchanged |
| RegexRows.RowDict | parsing/_regex_rows.py:49 | the group dictionary has exactly the seven group names as keys, each holding its group |
| RegexRows.BackstopAt | parsing/_regex_rows.py:18-25 | a backstop found at a candidate end is a valid backstop match |
| RegexRows.BackstopAtComplete | parsing/_regex_rows.py:18-25 | every valid backstop placement is the one found |
| RegexRows.FirstBackstop | parsing/_regex_rows.py:20 | the lazy search returns the first candidate end with a backstop match, and no earlier end matches |
| RegexRows.MatchBackstopIsLeast | parsing/_regex_rows.py:51 | `BACKSTOP_RE.match` returns the match with the shortest candidate |
| RegexRows.RestWords | parsing/_regex_rows.py:22 | the words of the lazy `rest` group are the words after the work order |
| RegexRows.LastFourSplit | parsing/_regex_rows.py:58-64 | with five or more words, the period words followed by type, units, rate and amount are all the words |
| RegexRows.BackstopRow | parsing/_regex_rows.py:54-74 | the backstop gives a row exactly when the rest has at least five words; the period's words followed by the last four tokens are the rest's words; the period is the front words joined by single spaces and is clean; the candidate is the stripped text before the work order, and the work order is its run of six or more digits |
| RegexRows.FindHeader | parsing/_regex_rows.py:35 | the first header line: it matches, no earlier line does, and none means no line matches |
| RegexRows.FirstNonEmpty | parsing/_regex_rows.py:40-43 | the first non-empty line of a range, or none when all are empty |
| RegexRows.RowLineIndex | parsing/_regex_rows.py:39-45 | the row line is the first non-empty line among the five after the header |
| RegexRows.RowOfLine | parsing/_regex_rows.py:47-74 | when the row pattern matches, the row is the stripped groups of its (shortest-candidate) match; only when it fails is the backstop tried, and then the row is the backstop's last-four split; no row when neither pattern matches |
| RegexRows.ExtractRow | parsing/_regex_rows.py:32-45 | a row is read only from the first non-empty line of the five below the first header line; without a header line there is none |
| RegexRows.ReadRow | parsing/_regex_rows.py:35-45 | the same over the normalised lines: a row comes from the first header line's row line |
| RegexRows.ReadRowOfFirstHeader | parsing/_regex_rows.py:35-45 | given the first header line, the row is the one read from its first non-empty window line, and a blank window gives none even when a later header would give a row |
| RegexRows.ExtractRowOfFirstHeader | parsing/_regex_rows.py:32-45 | the same statement on the raw text |
| RegexRows.ExtractRowFromText | parsing/_regex_rows.py:32-74 | a returned dictionary has the seven keys, and none is returned exactly when no row is read |
| RegexRows.ExtractRowIgnoresCollapse | parsing/_regex_rows.py:27-30 | collapsing the text's spacing first does not change the extracted row |
| Banner.FixedBannerBox | parsing/_banner.py:33-40 | the crop is (30, 258, min(width, 570), min(height, 318)) |
| Banner.Rank | parsing/_banner.py:9-18 | each label has a position in the label list |
| Banner.KeyIsRenamedName | parsing/_banner.py:20-31 | each column's key is its display name renamed through the column map |
| Banner.KeyInjective | parsing/_banner.py:20-31 | different labels have different keys |
| Banner.Matching | parsing/_banner.py:50 | exactly the words whose text is one of the label's tokens |
| Banner.MinX0 | parsing/_banner.py:53 | the least left edge of the words |
| Banner.MaxX1 | parsing/_banner.py:53 | the greatest right edge of the words: no word reaches further right, and some word reaches that far |
| Banner.MinTop | parsing/_banner.py:53 | the least top of the words: no word lies higher, and some word has that top |
| Banner.LabelColumn | parsing/_banner.py:49-60 | a label has a column exactly when some word carries one of its tokens |
| Banner.LabelColumnTop | parsing/_banner.py:53-60 | a label's column top is the least top of its matching words: no matching word lies higher, and one has that top |
| Banner.LabelColumnCentre | parsing/_banner.py:53-60 | a label's centre is `(min x0 + max x1) / 2` over its matching words: the midpoint between a matching word's left edge that no matching word passes on the left and one's right edge that none passes on the right |
| Banner.Columns | parsing/_banner.py:55-60 | the columns are exactly those of the labels that match, at most one per label |
| Banner.ColumnsInOrder | parsing/_banner.py:56-60 | the columns follow the label list's order |
| Banner.InsertBy | parsing/_banner.py:65 | one insertion step of the stable sort: the result is one longer and holds the input's elements plus the new one, as a multiset |
| Banner.SortBy | parsing/_banner.py:65 | the sort is a permutation of its input |
| Banner.SortBySorted | parsing/_banner.py:65 | the sort's output is ordered by key |
| Banner.SortColumnsStable | parsing/_banner.py:65 | columns are ordered by centre, and equal centres keep label order (a stable sort) |
| Banner.MinColumnTop | parsing/_banner.py:66 | `header_y` is the least top of the columns |
| Banner.Below | parsing/_banner.py:69-71 | exactly the words lying more than the limit below the top |
| Banner.RoundHalfEven | parsing/_banner.py:72 | Python's `round`: within one half of the value, and even at a tie |
| Banner.AddWordKeys | parsing/_banner.py:72-73 | `setdefault(...).append`: an existing line gets the word appended, and a new key opens a new line at the end |
| Banner.BinWordsGroups | parsing/_banner.py:68-73 | the lines have distinct keys, each line holds exactly the words with its key in order, and every word's line is present |
| Banner.Densest | parsing/_banner.py:78 | `max(..., key=len)`: a line with the most words, and the first of equally full ones |
| Banner.RowLine | parsing/_banner.py:68-78 | the row line is the line of some word below the labels, and no word's line has more words |
| Banner.FirstOn | parsing/_banner.py:68-73 | the position of the first word on a line, or the word count when the line has none |
| Banner.FirstOnLeast | parsing/_banner.py:68-73 | no word before that position is on the line |
| Banner.BinWordsOrder | parsing/_banner.py:68-73 | the lines come in the order of their first words, as a dict filled by `setdefault` keeps its keys |
| Banner.RowLineFirst | parsing/_banner.py:68-78 | `max` keeps the first of equally full lines: no line with as many words starts earlier than the row line |
| Banner.ExtractBannerRowSize | parsing/_banner.py:42-93 | a banner with a row gives a dictionary with at least four keys |
| Banner.Nearest | parsing/_banner.py:83 | `min(range, key=distance)`: the nearest column, and the first of equally near ones |
| Banner.Fill | parsing/_banner.py:80-84 | `cells` has one entry per column, whatever the words |
| Banner.FillJoins | parsing/_banner.py:80-84 | each cell is the texts of the words assigned to its column, joined by single spaces |
| Banner.LineUnderInBand | parsing/_banner.py:70-81 | the row line's words come from the band, lie below the header line, and are ordered by left edge |
| Banner.RowMapKeys | parsing/_banner.py:86-93 | the dictionary's keys are the keys of the columns |
| Banner.RowMapCell | parsing/_banner.py:86-93 | with distinct headings, each column's key holds its own stripped cell |
| Banner.RowMapSize | parsing/_banner.py:86-93 | with distinct headings, the dictionary has one entry per column |
| Banner.SortedColumnsDistinct | parsing/_banner.py:55-65 | the sorted columns have distinct headings |
| Banner.BannerRowNone | parsing/_banner.py:46-76 | there is no row exactly when there are no words, fewer than four labels match, or no word lies more than two points below the top of any label |
| Banner.BannerRowKeys | parsing/_banner.py:86-93 | the row's keys are the renamed names of the labels that match |
| Banner.BannerRowSize | parsing/_banner.py:62-93 | a row has at least four keys |
| Banner.BannerRowCells | parsing/_banner.py:80-93 | each key holds the texts of the row-line words nearest its column, left to right, joined by single spaces |
| Parse.Get | parsing/parse.py:34-38 | `dict.get`: a value exactly for a present key, and it is that key's value |
| Parse.ChosenRow | parsing/parse.py:23-32 | the text extractor's row when it is non-empty, else the geometric extractor's when that is loaded and non-empty, else none |
| Parse.ParseInvoice | parsing/parse.py:15-32 | parsing fails exactly when no row is chosen, and then with the fixed message |
| Parse.ParseIgnoresBannerAfterTextRow | parsing/parse.py:23-26 | when the text yields a row, the result does not depend on the geometric extractor |
| Parse.TextRowPresent | parsing/parse.py:23-28 | the text extractor's row counts exactly when one is read |
| Parse.ParseFailsWithoutRow | parsing/parse.py:6-32 | parsing fails exactly when the text yields no row and the geometric extractor is unavailable or yields nothing |
| Parse.ParseFromRow | parsing/parse.py:23-34 | with no text row, a non-empty fallback row is used and supplies the employee |
| Parse.ParseFromBanner | parsing/parse.py:23-34 | with no text row and a banner that has a row, parsing succeeds and the employee comes from the banner's candidate cell |
| Parse.HeaderFieldsIgnoreRow | parsing/parse.py:40-47 | invoice number, dates, HST and total do not depend on which extractor supplied the row |
| Parse.AssembleDefaults | parsing/parse.py:34-38 | missing row keys give an empty employee and period and zero amounts |
| Parse.AssembleEmployeeAndPeriod | parsing/parse.py:34-35 | the employee is the candidate's capitalised name words in display order; the period is empty exactly when the row's period is blank |
| Parse.AssembleTotal | parsing/parse.py:44-47 | the total is the `Total (CAD)` amount when found, and the bare `Total` amount otherwise; 0.0 when neither search finds an amount |
| Parse.AssembleHst | parsing/parse.py:43 | the HST is the number read from the `ONHST` search, and 0.0 when that search finds nothing |
| Parse.ParseOfCollapsed | parsing/parse.py:21 | parsing already-collapsed text gives the same result |
| Writer.RowToDict | excel/writer.py:26-35 | the dictionary has the seven headers as keys, the invoice number under `Invoice #`, an empty payment column, and numbers in the numeric columns |
| Writer.HeaderRow | excel/writer.py:6-14 | the header row holds the seven headers in order |
| Writer.EnsureSheet | excel/writer.py:38-48 | the sheet exists afterwards; a new sheet holds only the header row; an existing sheet and all other sheets are unchanged |
| Writer.MaxRow | excel/writer.py:53 | `max_row` is at least 1 and is the number of rows of a non-empty sheet |
| Writer.Key | excel/writer.py:57-58 | an empty cell has no key, and any other cell's key is stripped |
| Writer.ExistsFromMeans | excel/writer.py:55-59 | the scan from a row finds the number exactly when some later row holds it |
| Writer.InvoiceExistsMeans | excel/writer.py:51-60 | `_invoice_exists` holds exactly when some row below the header holds the stripped number |
| Writer.TextCell | excel/writer.py:93-98 | a string is stored as text, except the empty string, which the saved file keeps as an empty cell |
| Writer.RowCells | excel/writer.py:83-95 | the written cells in header order: invoice number, period, hours, rate, amount, HST, and an empty payment cell; an empty invoice number or period is stored as an empty cell |
| Writer.WrittenKey | excel/writer.py:57-58 | a written record's column-A key is its stripped invoice number, and there is none when the number is empty |
| Writer.AppendRow | excel/writer.py:84-95 | the row is written at `max_row + 1`, and the earlier rows are kept |
| Writer.SaveEmployeeRow | excel/writer.py:73-81 | a missing workbook is a file-not-found error naming the path; a duplicate fails with the fixed message |
| Writer.SaveCells | excel/writer.py:73-99 | the save of laid-out cells: a missing workbook is a file-not-found error naming the path, and a refused duplicate carries the fixed message |
| Writer.SaveRefusesDuplicate | excel/writer.py:78-81 | a save is refused exactly when the employee's sheet exists and holds the invoice number below its header |
| Writer.SaveAppendsOneRow | excel/writer.py:83-98 | a save adds one row with the record's cells at `max_row + 1`, and every other row, sheet and workbook is unchanged |
| Writer.AppendKeepsUnique | excel/writer.py:80-95 | appending a number that is not yet present keeps the sheet's invoice numbers distinct |
| Writer.SaveKeepsUnique | excel/writer.py:80-98 | saving keeps the invoice numbers distinct in every sheet |

## Left out

- PDF reading (`pdfplumber`): the page's text and its word boxes are parameters. `parse_invoice` takes the extracted text, and the geometric extractor takes a word-extraction function over a crop box.
- `dateutil`'s fuzzy parser is a parameter `string -> Option<Date>`. Dates are triples with a year from 1 to 9999, a month from 1 to 12 and a day from 1 to 31, without calendar validity.
- `find` in `parse.py` (a case-insensitive multi-line regular-expression search) is a parameter over the pattern and text, not interpreted. The record's searched fields are stated only in terms of it.
- `re`'s `\d`, `\w` and `\b` are modelled over ASCII digits and letters. Python's Unicode digit and letter classes are wider.
- `str.capitalize`, `lower` and the case-insensitive `to` use ASCII case mapping. Unicode case mapping is not modelled.
- TextUtils.Num: reads only plain decimal literals (optional sign, digits, optional point and fraction). Python's `float` also accepts exponents, `inf`, `nan`, underscores and every Unicode decimal digit (fullwidth `３`, Arabic-Indic `٣`, and so on); those strings give 0.0 here instead of their value, because the model's digits are the ASCII `0`-`9`. The `int`/`float` argument branch is not modelled, because every call site passes a string or `None`.
- TextUtils.NumRejectsForeign: Python's `float` also accepts the letters of an exponent (`1e5`), `inf`, `nan`, digit underscores and non-ASCII Unicode decimal digits (`３`, `٣`), so for those inputs the source returns a number where the model returns 0.0.
- Floating point: hours, rates and amounts are exact reals, and `(x0 + x1) / 2` is exact. Rounding to binary floats is not modelled.
- Python's `str` of a number found in column A of a sheet is a parameter (`numText`).
- `openpyxl`: a workbook is a map from sheet name to rows of cells, as it reads back after a save. An empty string is stored as an empty cell, because the saved file keeps no value for it (`Writer.TextCell`). Column widths and `_apply_cell_formats` (number formats) are not modelled. Loading, saving and closing the file are the map update.
- Writer.EnsureSheet: the sheet is taken to be named after the employee. `create_sheet` gives a sheet with an empty title the default title `Sheet` (deduplicated as `Sheet1`, `Sheet2`, …), renames a title that clashes case-insensitively with an existing one by appending a number, and raises an error for a title holding one of the characters `[ ] : * ? / \`. So for an empty employee name, or one differing only in case from an existing sheet, the source writes to a new sheet on every save, which the model does not show.
- Writer.SaveRefusesDuplicate: states the refusal for the sheet named after the employee. For an empty employee name, or one differing only in case from an existing sheet, the source never refuses, because every save goes to a new sheet (see `Writer.EnsureSheet` above).
- `pandas`: the DataFrame round trip in `extract_banner_row` is modelled as the dictionary it yields. Column order is not represented, because a dictionary's order does not affect lookups.
- The `try`/`except` around importing the geometric extractor becomes the `Unavailable` case of a parameter.
- `app.py` and `parsing/randstad_parser.py` (the UI and an older parser) are not part of this model.

=== FILE: banner.dfy ===
/** The geometric fallback: the words of a fixed band of the first page,
    the column labels found among them, the line of words with the most
    members below the labels, and each of its words placed in the column
    whose centre is nearest. Coordinates are reals. */
module Banner {
  import opened Wrappers
  import opened Strings

  /** A positioned word: its text, horizontal extent and top edge. */
  datatype Word = Word(text: string, x0: real, x1: real, top: real)

  datatype Page = Page(width: real, height: real)

  /** A crop rectangle: left, top, right, bottom. */
  datatype Box = Box(left: real, top: real, right: real, bottom: real)

  const BoxLeft: real := 30.0
  const BoxRight: real := 570.0
  const BoxTop: real := 258.0
  const BoxBottom: real := 318.0

  /** Rows are grouped by the top edge divided by this, rounded. */
  const LineBin: real := 3.0

  /** `_fixed_banner_bbox`: the fixed band, its right and bottom edges
      clamped to the page. */
  function FixedBannerBox(page: Page): (b: Box)
    ensures b.left == BoxLeft && b.top == BoxTop
    ensures b.right <= BoxRight && b.right <= page.width
    ensures b.right == BoxRight || b.right == page.width
    ensures b.bottom <= BoxBottom && b.bottom <= page.height
    ensures b.bottom == BoxBottom || b.bottom == page.height
  {
    Box(if 0.0 < BoxLeft then BoxLeft else 0.0,
        if 0.0 < BoxTop then BoxTop else 0.0,
        if page.width <= BoxRight then page.width else BoxRight,
        if page.height <= BoxBottom then page.height else BoxBottom)
  }

  // ------------------------------------------------------------------
  // Column labels

  /** The column labels in their canonical order. */
  datatype Label = Candidate | WorkOrder | PurchaseOrder | Period | Type | Units | Rate | Amount

  const Labels: seq<Label> := [Candidate, WorkOrder, PurchaseOrder, Period, Type, Units, Rate, Amount]

  /** The position of a label in the canonical order. */
  function Rank(l: Label): (r: nat)
    ensures r < |Labels| && Labels[r] == l
  {
    match l
    case Candidate => 0
    case WorkOrder => 1
    case PurchaseOrder => 2
    case Period => 3
    case Type => 4
    case Units => 5
    case Rate => 6
    case Amount => 7
  }

  /** The canonical order is the order of ranks. */
  lemma LabelsInOrder()
    ensures forall i, j | 0 <= i < j < |Labels| :: Rank(Labels[i]) < Rank(Labels[j])
  {
  }

  /** The column name of a label. */
  function Name(l: Label): string {
    match l
    case Candidate => "Candidate"
    case WorkOrder => "Work Order"
    case PurchaseOrder => "Purchase Order"
    case Period => "Period"
    case Type => "Type"
    case Units => "Unit(s)"
    case Rate => "Rate"
    case Amount => "Amount"
  }

  /** The word texts that identify a label. */
  function Tokens(l: Label): seq<string> {
    match l
    case Candidate => ["Candidate"]
    case WorkOrder => ["Work", "Order"]
    case PurchaseOrder => ["Purchase", "Order"]
    case Period => ["Period"]
    case Type => ["Type"]
    case Units => ["Unit(s)", "Unit", "Units"]
    case Rate => ["Rate"]
    case Amount => ["Amount"]
  }

  /** The renaming of column names to row keys. */
  const ColMap: map<string, string> := map[
    "Candidate" := "candidate", "Work Order" := "work_order", "Purchase Order" := "purchase_order",
    "Period" := "period", "Type" := "type", "Unit(s)" := "units", "Units" := "units",
    "Unit" := "units", "Rate" := "rate", "Amount" := "amount"]

  /** The row key of a label. */
  function Key(l: Label): string {
    match l
    case Candidate => "candidate"
    case WorkOrder => "work_order"
    case PurchaseOrder => "purchase_order"
    case Period => "period"
    case Type => "type"
    case Units => "units"
    case Rate => "rate"
    case Amount => "amount"
  }

  /** A label's key is its column name renamed, or the name itself where
      the renaming does not mention it. */
  lemma KeyIsRenamedName(l: Label)
    ensures Key(l) == (if Name(l) in ColMap then ColMap[Name(l)] else Name(l))
    ensures Name(l) in ColMap
  {
  }

  /** Different labels give different row keys. */
  lemma KeyInjective(l: Label, m: Label)
    ensures Key(l) == Key(m) ==> l == m
  {
  }

  // ------------------------------------------------------------------
  // Matching labels

  /** The words whose text is one of `tokens`, in order. */
  function Matching(words: seq<Word>, tokens: seq<string>): (r: seq<Word>)
    ensures forall w | w in r :: w in words && w.text in tokens
    ensures forall w | w in words && w.text in tokens :: w in r
    decreases |words|
  {
    if |words| == 0 then []
    else if words[0].text in tokens then [words[0]] + Matching(words[1..], tokens)
    else Matching(words[1..], tokens)
  }

  function MinX0(ws: seq<Word>): (m: real)
    requires |ws| > 0
    ensures forall w | w in ws :: m <= w.x0
    ensures exists w | w in ws :: w.x0 == m
  {
    if |ws| == 1 then ws[0].x0
    else
      var rest := MinX0(ws[1..]);
      assert forall w | w in ws[1..] :: w in ws;
      if ws[0].x0 <= rest then ws[0].x0 else rest
  }

  function MaxX1(ws: seq<Word>): (m: real)
    requires |ws| > 0
    ensures forall w | w in ws :: w.x1 <= m
    ensures exists w | w in ws :: w.x1 == m
  {
    if |ws| == 1 then ws[0].x1
    else
      var rest := MaxX1(ws[1..]);
      assert forall w | w in ws[1..] :: w in ws;
      if ws[0].x1 >= rest then ws[0].x1 else rest
  }

  function MinTop(ws: seq<Word>): (m: real)
    requires |ws| > 0
    ensures forall w | w in ws :: m <= w.top
    ensures exists w | w in ws :: w.top == m
  {
    if |ws| == 1 then ws[0].top
    else
      var rest := MinTop(ws[1..]);
      assert forall w | w in ws[1..] :: w in ws;
      if ws[0].top <= rest then ws[0].top else rest
  }

  /** A matched column: its label, horizontal centre and top. */
  datatype Column = Column(heading: Label, centre: real, top: real)

  /** The column of a label: the centre of the span from the leftmost
      left edge to the rightmost right edge of its matching words, and
      their highest top; none when no word matches. */
  function LabelColumn(words: seq<Word>, l: Label): (r: Option<Column>)
    ensures r.None? <==> forall w | w in words :: w.text !in Tokens(l)
    ensures r.Some? ==> r.value.heading == l
  {
    var ws := Matching(words, Tokens(l));
    if |ws| == 0 then
      None
    else
      Some(Column(l, (MinX0(ws) + MaxX1(ws)) / 2.0, MinTop(ws)))
  }

  /** A label's column lies at the highest top of its matching words. */
  lemma LabelColumnTop(words: seq<Word>, l: Label)
    requires LabelColumn(words, l).Some?
    ensures forall w | w in words && w.text in Tokens(l) :: LabelColumn(words, l).value.top <= w.top
    ensures exists w | w in words && w.text in Tokens(l) :: w.top == LabelColumn(words, l).value.top
  {
    var ws := Matching(words, Tokens(l));
    var t := MinTop(ws);
    var a :| a in ws && a.top == t;
    assert a in words && a.text in Tokens(l);
    forall w | w in words && w.text in Tokens(l)
      ensures t <= w.top
    {
      assert w in ws;
    }
  }

  /** A label's centre is the midpoint between the leftmost left edge and
      the rightmost right edge of its matching words. */
  lemma LabelColumnCentre(words: seq<Word>, l: Label)
    requires LabelColumn(words, l).Some?
    ensures exists a, b | a in words && a.text in Tokens(l) && b in words && b.text in Tokens(l) ::
      LabelColumn(words, l).value.centre == (a.x0 + b.x1) / 2.0
      && forall w | w in words && w.text in Tokens(l) :: a.x0 <= w.x0 && w.x1 <= b.x1
  {
    var ws := Matching(words, Tokens(l));
    var lo := MinX0(ws);
    var hi := MaxX1(ws);
    var a :| a in ws && a.x0 == lo;
    var b :| b in ws && b.x1 == hi;
    forall w | w in words && w.text in Tokens(l)
      ensures a.x0 <= w.x0 && w.x1 <= b.x1
    {
      assert w in ws;
    }
    assert LabelColumn(words, l).value.centre == (a.x0 + b.x1) / 2.0;
  }

  /** The columns of the labels in `labels` that match some word, in the
      order of `labels`. */
  function Columns(words: seq<Word>, labels: seq<Label>): (r: seq<Column>)
    ensures forall c | c in r :: c.heading in labels && LabelColumn(words, c.heading) == Some(c)
    ensures forall l | l in labels && LabelColumn(words, l).Some? :: LabelColumn(words, l).value in r
    ensures |r| <= |labels|
    decreases |labels|
  {
    if |labels| == 0 then
      []
    else
      var rest := Columns(words, labels[1..]);
      match LabelColumn(words, labels[0])
      case Some(c) => [c] + rest
      case None => rest
  }

  /** Ranks strictly increase along the sequence. */
  predicate RankIncreasing(cs: seq<Column>) {
    forall i, j | 0 <= i < j < |cs| :: Rank(cs[i].heading) < Rank(cs[j].heading)
  }

  /** Columns taken in canonical order come out in canonical order. */
  lemma {:induction false} ColumnsInOrder(words: seq<Word>, labels: seq<Label>)
    requires forall i, j | 0 <= i < j < |labels| :: Rank(labels[i]) < Rank(labels[j])
    ensures RankIncreasing(Columns(words, labels))
    decreases |labels|
  {
    if |labels| > 0 {
      var tail := labels[1..];
      ColumnsInOrder(words, tail);
      var rest := Columns(words, tail);
      forall c | c in rest
        ensures Rank(labels[0]) < Rank(c.heading)
      {
        var k :| 0 <= k < |tail| && tail[k] == c.heading;
        assert labels[k + 1] == c.heading;
      }
      if LabelColumn(words, labels[0]).Some? {
        ConsRankIncreasing(LabelColumn(words, labels[0]).value, rest);
      }
    }
  }

  lemma ConsRankIncreasing(c: Column, rest: seq<Column>)
    requires RankIncreasing(rest)
    requires forall d | d in rest :: Rank(c.heading) < Rank(d.heading)
    ensures RankIncreasing([c] + rest)
  {
    var cs := [c] + rest;
    forall i, j | 0 <= i < j < |cs|
      ensures Rank(cs[i].heading) < Rank(cs[j].heading)
    {
      assert cs[j] == rest[j - 1];
      if i > 0 {
        assert cs[i] == rest[i - 1];
      }
    }
  }

  // ------------------------------------------------------------------
  // Stable sorting

  predicate SortedBy<T>(key: T -> real, s: seq<T>) {
    forall i, j | 0 <= i < j < |s| :: key(s[i]) <= key(s[j])
  }

  /** Inserts `x` into `s` before the first element with a larger key,
      so that `x` follows every element whose key equals its own. */
  function InsertBy<T>(key: T -> real, x: T, s: seq<T>): (r: seq<T>)
    ensures multiset(r) == multiset(s) + multiset{x}
    ensures |r| == |s| + 1
    decreases |s|
  {
    if |s| == 0 then [x]
    else if key(x) < key(s[0]) then [x] + s
    else
      assert s == [s[0]] + s[1..];
      [s[0]] + InsertBy(key, x, s[1..])
  }

  lemma {:induction false} InsertBySorted<T>(key: T -> real, x: T, s: seq<T>)
    requires SortedBy(key, s)
    ensures SortedBy(key, InsertBy(key, x, s))
    decreases |s|
  {
    if |s| > 0 {
      SortedHeadLeast(key, s);
      if key(s[0]) <= key(x) {
        InsertBySorted(key, x, s[1..]);
        TailSorted(key, s);
        InsertByBound(key, x, s[1..], key(s[0]));
        ConsSorted(key, s[0], InsertBy(key, x, s[1..]));
      } else {
        ConsSorted(key, x, s);
      }
    }
  }

  /** The head of a sorted sequence has the least key. */
  lemma SortedHeadLeast<T>(key: T -> real, s: seq<T>)
    requires SortedBy(key, s) && |s| > 0
    ensures forall y | y in s :: key(s[0]) <= key(y)
    ensures forall y | y in s[1..] :: key(s[0]) <= key(y)
  {
    assert forall y | y in s[1..] :: y in s;
  }

  lemma TailSorted<T>(key: T -> real, s: seq<T>)
    requires SortedBy(key, s) && |s| > 0
    ensures SortedBy(key, s[1..])
  {
    assert forall i | 0 <= i < |s| - 1 :: s[1..][i] == s[i + 1];
  }

  /** A lower bound on the keys of `s` and of `x` bounds the keys after
      insertion. */
  lemma InsertByBound<T>(key: T -> real, x: T, s: seq<T>, b: real)
    requires b <= key(x) && forall y | y in s :: b <= key(y)
    ensures forall y | y in InsertBy(key, x, s) :: b <= key(y)
  {
    var r := InsertBy(key, x, s);
    forall y | y in r
      ensures b <= key(y)
    {
      assert y in multiset(r);
      assert y == x || y in multiset(s);
    }
  }

  /** A sorted sequence stays sorted under a head with the least key. */
  lemma ConsSorted<T>(key: T -> real, h: T, rest: seq<T>)
    requires SortedBy(key, rest) && forall y | y in rest :: key(h) <= key(y)
    ensures SortedBy(key, [h] + rest)
  {
    var r := [h] + rest;
    forall i, j | 0 <= i < j < |r|
      ensures key(r[i]) <= key(r[j])
    {
      assert r[j] == rest[j - 1];
      if i > 0 {
        assert r[i] == rest[i - 1];
      }
    }
  }

  /** Python's `sorted(s, key=key)`: a stable sort, modelled as
      insertion of each element in turn. */
  function SortBy<T>(key: T -> real, s: seq<T>): (r: seq<T>)
    ensures multiset(r) == multiset(s)
    ensures |r| == |s|
    decreases |s|
  {
    if |s| == 0 then []
    else
      assert s == s[..|s| - 1] + [s[|s| - 1]];
      InsertBy(key, s[|s| - 1], SortBy(key, s[..|s| - 1]))
  }

  lemma {:induction false} SortBySorted<T>(key: T -> real, s: seq<T>)
    ensures SortedBy(key, SortBy(key, s))
    decreases |s|
  {
    if |s| > 0 {
      SortBySorted(key, s[..|s| - 1]);
      InsertBySorted(key, s[|s| - 1], SortBy(key, s[..|s| - 1]));
    }
  }

  function Centre(c: Column): real {
    c.centre
  }

  /** `a` comes before `b` by centre, then by canonical rank. */
  predicate Before(a: Column, b: Column) {
    a.centre < b.centre || (a.centre == b.centre && Rank(a.heading) < Rank(b.heading))
  }

  /** Ordered by centre, and by canonical rank among equal centres. */
  predicate CentreThenRank(cs: seq<Column>) {
    forall i, j | 0 <= i < j < |cs| :: Before(cs[i], cs[j])
  }

  lemma ConsCentreThenRank(x: Column, s: seq<Column>)
    requires CentreThenRank(s)
    requires forall c | c in s :: Before(x, c)
    ensures CentreThenRank([x] + s)
  {
    var r := [x] + s;
    forall i, j | 0 <= i < j < |r|
      ensures Before(r[i], r[j])
    {
      assert r[j] == s[j - 1];
      if i > 0 {
        assert r[i] == s[i - 1];
      }
    }
  }

  lemma {:induction false} InsertCentreThenRank(x: Column, s: seq<Column>)
    requires CentreThenRank(s)
    requires forall c | c in s :: Rank(c.heading) < Rank(x.heading)
    ensures CentreThenRank(InsertBy(Centre, x, s))
    decreases |s|
  {
    if |s| > 0 && s[0].centre <= x.centre {
      assert forall c | c in s[1..] :: c in s;
      assert CentreThenRank(s[1..]) by {
        forall i, j | 0 <= i < j < |s[1..]|
          ensures Before(s[1..][i], s[1..][j])
        {
          assert s[1..][i] == s[i + 1] && s[1..][j] == s[j + 1];
        }
      }
      InsertCentreThenRank(x, s[1..]);
      var rest := InsertBy(Centre, x, s[1..]);
      forall y | y in rest
        ensures Before(s[0], y)
      {
        assert y in multiset(rest);
        if y != x {
          assert y in multiset(s[1..]);
          var k :| 0 <= k < |s[1..]| && s[1..][k] == y;
          assert s[k + 1] == y;
          assert Before(s[0], s[k + 1]);
        }
      }
      ConsCentreThenRank(s[0], rest);
    } else if |s| > 0 {
      forall c | c in s
        ensures Before(x, c)
      {
        var k :| 0 <= k < |s| && s[k] == c;
        if k > 0 {
          assert Before(s[0], s[k]);
        }
      }
      ConsCentreThenRank(x, s);
    }
  }

  /** Sorting columns taken in canonical order by centre alone keeps
      canonical order among equal centres: the stable sort is the sort by
      centre, then rank. */
  lemma {:induction false} SortColumnsStable(cs: seq<Column>)
    requires RankIncreasing(cs)
    ensures CentreThenRank(SortBy(Centre, cs))
    decreases |cs|
  {
    if |cs| > 0 {
      var init := cs[..|cs| - 1];
      var x := cs[|cs| - 1];
      SortColumnsStable(init);
      var sorted := SortBy(Centre, init);
      forall c | c in sorted
        ensures Rank(c.heading) < Rank(x.heading)
      {
        assert c in multiset(sorted);
        assert c in multiset(init);
        var k :| 0 <= k < |init| && init[k] == c;
        assert cs[k] == c;
      }
      InsertCentreThenRank(x, sorted);
    }
  }

  // ------------------------------------------------------------------
  // Lines of words below the labels

  /** The words whose top lies strictly below `limit`, in order. */
  function Below(words: seq<Word>, limit: real): (r: seq<Word>)
    ensures forall w | w in r :: w in words && w.top > limit
    ensures forall w | w in words && w.top > limit :: w in r
    decreases |words|
  {
    if |words| == 0 then []
    else if words[0].top > limit then [words[0]] + Below(words[1..], limit)
    else Below(words[1..], limit)
  }

  /** Python's `round` on a real: the nearest integer, and the even one
      of two equally near. */
  function RoundHalfEven(x: real): (r: int)
    ensures x - 0.5 <= r as real <= x + 0.5
    ensures (r as real == x - 0.5 || r as real == x + 0.5) ==> r % 2 == 0
  {
    var f := x.Floor;
    var d := x - f as real;
    if d < 0.5 then f
    else if d > 0.5 then f + 1
    else if f % 2 == 0 then f
    else f + 1
  }

  /** The line a word belongs to. */
  function LineKey(w: Word): int {
    RoundHalfEven(w.top / LineBin)
  }

  /** A line: its key and its words in reading order. */
  datatype Bin = Bin(key: int, members: seq<Word>)

  /** The words of `ws` on line `k`, in order. */
  function OnLine(ws: seq<Word>, k: int): (r: seq<Word>)
    ensures forall w | w in r :: w in ws && LineKey(w) == k
    decreases |ws|
  {
    if |ws| == 0 then []
    else
      var init := OnLine(ws[..|ws| - 1], k);
      assert forall w | w in ws[..|ws| - 1] :: w in ws;
      if LineKey(ws[|ws| - 1]) == k then init + [ws[|ws| - 1]] else init
  }

  /** The index of the first word of `ws` on line `k`, or `|ws|` when
      there is none. */
  function FirstOn(ws: seq<Word>, k: int): (q: nat)
    ensures q <= |ws|
    ensures q < |ws| ==> LineKey(ws[q]) == k
    decreases |ws|
  {
    if |ws| == 0 then 0
    else
      var n := |ws| - 1;
      var f := FirstOn(ws[..n], k);
      if f < n then f else if LineKey(ws[n]) == k then n else n + 1
  }

  /** No word before `FirstOn(ws, k)` is on line `k`. */
  lemma {:induction false} FirstOnLeast(ws: seq<Word>, k: int, p: nat)
    requires p < |ws| && LineKey(ws[p]) == k
    ensures FirstOn(ws, k) <= p
    decreases |ws|
  {
    var n := |ws| - 1;
    if p < n {
      assert ws[..n][p] == ws[p];
      FirstOnLeast(ws[..n], k, p);
    }
  }

  /** Adds a word to its line, opening a new line at the end when its key
      is new. */
  function AddWord(bins: seq<Bin>, w: Word): (r: seq<Bin>)
    decreases |bins|
  {
    if |bins| == 0 then [Bin(LineKey(w), [w])]
    else if bins[0].key == LineKey(w) then [Bin(bins[0].key, bins[0].members + [w])] + bins[1..]
    else [bins[0]] + AddWord(bins[1..], w)
  }

  /** The lines of `ws`, in order of first appearance. */
  function BinWords(ws: seq<Word>): seq<Bin>
    decreases |ws|
  {
    if |ws| == 0 then [] else AddWord(BinWords(ws[..|ws| - 1]), ws[|ws| - 1])
  }

  predicate DistinctKeys(bins: seq<Bin>) {
    forall i, j | 0 <= i < j < |bins| :: bins[i].key != bins[j].key
  }

  /** `bins` groups `ws` by line: distinct keys, every line holds exactly
      the words of `ws` with its key in their order, and every word's line
      is present. */
  predicate GroupsOf(bins: seq<Bin>, ws: seq<Word>) {
    && DistinctKeys(bins)
    && (forall i | 0 <= i < |bins| :: bins[i].members == OnLine(ws, bins[i].key) && |bins[i].members| > 0)
    && (forall w | w in ws :: exists i | 0 <= i < |bins| :: bins[i].key == LineKey(w))
  }

  lemma OnLineSnoc(ws: seq<Word>, w: Word, k: int)
    ensures OnLine(ws + [w], k) == OnLine(ws, k) + (if LineKey(w) == k then [w] else [])
  {
    assert (ws + [w])[..|ws|] == ws;
  }

  lemma {:induction false} AddWordKeys(bins: seq<Bin>, w: Word)
    requires DistinctKeys(bins)
    ensures |AddWord(bins, w)| == |bins| || |AddWord(bins, w)| == |bins| + 1
    ensures forall i | 0 <= i < |bins| :: AddWord(bins, w)[i].key == bins[i].key
    ensures forall i | 0 <= i < |bins| && bins[i].key != LineKey(w) :: AddWord(bins, w)[i] == bins[i]
    ensures forall i | 0 <= i < |bins| && bins[i].key == LineKey(w) :: AddWord(bins, w)[i].members == bins[i].members + [w]
    ensures |AddWord(bins, w)| == |bins| + 1 <==> (forall i | 0 <= i < |bins| :: bins[i].key != LineKey(w))
    ensures |AddWord(bins, w)| == |bins| + 1 ==> AddWord(bins, w)[|bins|] == Bin(LineKey(w), [w])
    decreases |bins|
  {
    if |bins| > 0 && bins[0].key != LineKey(w) {
      assert DistinctKeys(bins[1..]) by {
        forall i, j | 0 <= i < j < |bins| - 1
          ensures bins[1..][i].key != bins[1..][j].key
        {
          assert bins[1..][i] == bins[i + 1] && bins[1..][j] == bins[j + 1];
        }
      }
      AddWordKeys(bins[1..], w);
      var r := AddWord(bins, w);
      assert forall i | 1 <= i < |bins| :: bins[1..][i - 1] == bins[i];
      assert forall i | 1 <= i < |r| :: r[i] == AddWord(bins[1..], w)[i - 1];
    }
  }

  lemma AddWordMembers(bins: seq<Bin>, ws: seq<Word>, w: Word)
    requires GroupsOf(bins, ws)
    ensures var r := AddWord(bins, w);
      forall i | 0 <= i < |r| :: r[i].members == OnLine(ws + [w], r[i].key) && |r[i].members| > 0
  {
    AddWordKeys(bins, w);
    var r := AddWord(bins, w);
    forall i | 0 <= i < |r|
      ensures r[i].members == OnLine(ws + [w], r[i].key) && |r[i].members| > 0
    {
      OnLineSnoc(ws, w, r[i].key);
      if i == |bins| {
        NoBinNoLine(bins, ws, LineKey(w));
      }
    }
  }

  lemma FirstIsMember<T>(s: seq<T>)
    ensures |s| > 0 ==> s[0] in s
  {
  }

  /** A key no line of a grouping carries has no words. */
  lemma NoBinNoLine(bins: seq<Bin>, ws: seq<Word>, k: int)
    requires GroupsOf(bins, ws)
    requires forall i | 0 <= i < |bins| :: bins[i].key != k
    ensures OnLine(ws, k) == []
  {
    var line := OnLine(ws, k);
    assert forall v | v in line :: v in ws && LineKey(v) != k;
    FirstIsMember(line);
  }

  lemma AddWordCovers(bins: seq<Bin>, ws: seq<Word>, w: Word)
    requires GroupsOf(bins, ws)
    ensures DistinctKeys(AddWord(bins, w))
    ensures var r := AddWord(bins, w);
      forall v | v in ws + [w] :: exists i | 0 <= i < |r| :: r[i].key == LineKey(v)
  {
    AddWordKeys(bins, w);
    var r := AddWord(bins, w);
    forall v | v in ws + [w]
      ensures exists i | 0 <= i < |r| :: r[i].key == LineKey(v)
    {
      if v in ws {
        var i :| 0 <= i < |bins| && bins[i].key == LineKey(v);
        assert r[i].key == LineKey(v);
      } else if |r| == |bins| {
        var i :| 0 <= i < |bins| && bins[i].key == LineKey(w);
        assert r[i].key == LineKey(v);
      } else {
        assert r[|bins|].key == LineKey(v);
      }
    }
  }

  /** Adding a word keeps the grouping. */
  lemma AddWordGroups(bins: seq<Bin>, ws: seq<Word>, w: Word)
    requires GroupsOf(bins, ws)
    ensures GroupsOf(AddWord(bins, w), ws + [w])
  {
    AddWordMembers(bins, ws, w);
    AddWordCovers(bins, ws, w);
  }

  /** The lines of `ws` group it exactly by line key. */
  lemma {:induction false} BinWordsGroups(ws: seq<Word>)
    ensures GroupsOf(BinWords(ws), ws)
    decreases |ws|
  {
    if |ws| > 0 {
      var init := ws[..|ws| - 1];
      BinWordsGroups(init);
      AddWordGroups(BinWords(init), init, ws[|ws| - 1]);
      SnocLast(ws);
    }
  }

  /** The lines appear in the order of the first word on each line, as a
      dictionary filled by `setdefault` keeps its keys. */
  predicate InFirstOrder(bins: seq<Bin>, ws: seq<Word>) {
    forall i, j | 0 <= i < j < |bins| :: FirstOn(ws, bins[i].key) < FirstOn(ws, bins[j].key)
  }

  /** A word extends the first-occurrence index of no line that already
      has a word. */
  lemma FirstOnSnoc(ws: seq<Word>, w: Word, k: int)
    ensures FirstOn(ws, k) < |ws| ==> FirstOn(ws + [w], k) == FirstOn(ws, k)
    ensures FirstOn(ws, k) == |ws| && LineKey(w) == k ==> FirstOn(ws + [w], k) == |ws|
  {
    assert (ws + [w])[..|ws|] == ws;
  }

  /** Every line of a grouping starts within the words. */
  lemma GroupStartsWithin(bins: seq<Bin>, ws: seq<Word>, i: nat)
    requires GroupsOf(bins, ws) && i < |bins|
    ensures FirstOn(ws, bins[i].key) < |ws|
  {
    var v := bins[i].members[0];
    assert v in OnLine(ws, bins[i].key);
    var p :| 0 <= p < |ws| && ws[p] == v;
    FirstOnLeast(ws, bins[i].key, p);
  }

  /** A key that no line of a grouping carries is on no word. */
  lemma NewKeyAbsent(bins: seq<Bin>, ws: seq<Word>, k: int)
    requires GroupsOf(bins, ws)
    requires forall i | 0 <= i < |bins| :: bins[i].key != k
    ensures FirstOn(ws, k) == |ws|
  {
  }

  /** Adding a word keeps the lines in first-occurrence order. */
  lemma AddWordOrder(bins: seq<Bin>, ws: seq<Word>, w: Word)
    requires GroupsOf(bins, ws) && InFirstOrder(bins, ws)
    ensures InFirstOrder(AddWord(bins, w), ws + [w])
  {
    AddWordKeys(bins, w);
    var r := AddWord(bins, w);
    forall i | 0 <= i < |bins|
      ensures FirstOn(ws + [w], r[i].key) == FirstOn(ws, bins[i].key) < |ws|
    {
      GroupStartsWithin(bins, ws, i);
      FirstOnSnoc(ws, w, bins[i].key);
    }
    if |r| == |bins| + 1 {
      NewKeyAbsent(bins, ws, LineKey(w));
      FirstOnSnoc(ws, w, LineKey(w));
    }
    var before := k => FirstOn(ws, k);
    var after := k => FirstOn(ws + [w], k);
    assert StartsIncreasing(bins, before);
    OrderOfExtension(bins, r, before, after, |ws|);
    assert StartsIncreasing(r, after);
  }

  /** The lines' keys are increasing under `start`. */
  predicate StartsIncreasing(bins: seq<Bin>, start: int -> int) {
    forall i, j | 0 <= i < j < |bins| :: start(bins[i].key) < start(bins[j].key)
  }

  /** Lines that keep their starts, followed at most by one line starting
      after all of them, keep the order. */
  lemma OrderOfExtension(bins: seq<Bin>, r: seq<Bin>, before: int -> int, after: int -> int, n: int)
    requires StartsIncreasing(bins, before)
    requires |r| == |bins| || |r| == |bins| + 1
    requires forall i | 0 <= i < |bins| :: after(r[i].key) == before(bins[i].key) < n
    requires |r| == |bins| + 1 ==> after(r[|bins|].key) == n
    ensures StartsIncreasing(r, after)
  {
  }

  /** The lines of `ws` come in the order of their first words. */
  lemma {:induction false} BinWordsOrder(ws: seq<Word>)
    ensures InFirstOrder(BinWords(ws), ws)
    decreases |ws|
  {
    if |ws| > 0 {
      var init := ws[..|ws| - 1];
      BinWordsOrder(init);
      BinWordsGroups(init);
      AddWordOrder(BinWords(init), init, ws[|ws| - 1]);
      SnocLast(ws);
    }
  }

  /** The first line with the most words. */
  function Densest(bins: seq<Bin>): (i: nat)
    requires |bins| > 0
    ensures i < |bins|
    ensures forall k | 0 <= k < |bins| :: |bins[k].members| <= |bins[i].members|
    ensures forall k | 0 <= k < i :: |bins[k].members| < |bins[i].members|
    decreases |bins|
  {
    if |bins| == 1 then 0
    else
      var j := Densest(bins[..|bins| - 1]);
      assert forall k | 0 <= k < |bins| - 1 :: bins[..|bins| - 1][k] == bins[k];
      if |bins[|bins| - 1].members| > |bins[j].members| then |bins| - 1 else j
  }

  // ------------------------------------------------------------------
  // Cells

  function Mid(w: Word): real {
    (w.x0 + w.x1) / 2.0
  }

  function Dist(x: real, c: Column): real {
    if x >= c.centre then x - c.centre else c.centre - x
  }

  /** The column whose centre is nearest `x`; the first of equally near
      ones. */
  function Nearest(cols: seq<Column>, x: real): (i: nat)
    requires |cols| > 0
    ensures i < |cols|
    ensures forall k | 0 <= k < |cols| :: Dist(x, cols[i]) <= Dist(x, cols[k])
    ensures forall k | 0 <= k < i :: Dist(x, cols[i]) < Dist(x, cols[k])
    decreases |cols|
  {
    if |cols| == 1 then 0
    else
      var j := Nearest(cols[..|cols| - 1], x);
      assert forall k | 0 <= k < |cols| - 1 :: cols[..|cols| - 1][k] == cols[k];
      if Dist(x, cols[|cols| - 1]) < Dist(x, cols[j]) then |cols| - 1 else j
  }

  /** The cell texts after placing the words of `ws` in order: each word
      is added, after a space, to the cell of its nearest column, and the
      cell is stripped. */
  function Fill(cols: seq<Column>, ws: seq<Word>): (r: seq<string>)
    requires |cols| > 0
    ensures |r| == |cols|
    decreases |ws|
  {
    if |ws| == 0 then
      seq(|cols|, _ => "")
    else
      var prev := Fill(cols, ws[..|ws| - 1]);
      var w := ws[|ws| - 1];
      var i := Nearest(cols, Mid(w));
      prev[i := Strip(prev[i] + " " + w.text)]
  }

  /** The texts of the words of `ws` whose nearest column is `i`, in
      order. */
  function Assigned(cols: seq<Column>, ws: seq<Word>, i: nat): seq<string>
    requires |cols| > 0
    decreases |ws|
  {
    if |ws| == 0 then []
    else
      var init := Assigned(cols, ws[..|ws| - 1], i);
      var w := ws[|ws| - 1];
      if Nearest(cols, Mid(w)) == i then init + [w.text] else init
  }

  /** Adding a stripped word to a cell that is a space-joined sequence of
      stripped words joins one more. */
  lemma AppendToCell(before: seq<string>, t: string)
    requires forall m | 0 <= m < |before| :: |before[m]| > 0 && Stripped(before[m])
    requires |t| > 0 && Stripped(t)
    ensures Strip(Join(before, " ") + " " + t) == Join(before + [t], " ")
  {
    if |before| == 0 {
      StripSpaceThen(t);
      assert before + [t] == [t];
      assert Join(before, " ") + " " + t == " " + t;
    } else {
      JoinSnoc(before, " ", t);
      JoinStripped(before);
      var x := Join(before, " ");
      var s := x + " " + t;
      assert Stripped(s) by {
        assert |x| > 0 && Stripped(x);
        assert s[0] == x[0];
        assert s[|s| - 1] == t[|t| - 1];
      }
      assert Strip(s) == s;
    }
  }

  /** When word texts are non-empty and carry no outer whitespace, each
      cell is the texts of the words placed in its column joined by single
      spaces. */
  lemma {:induction false} FillJoins(cols: seq<Column>, ws: seq<Word>, i: nat)
    requires |cols| > 0 && i < |cols|
    requires forall w | w in ws :: |w.text| > 0 && Stripped(w.text)
    ensures Fill(cols, ws)[i] == Join(Assigned(cols, ws, i), " ")
    ensures forall m | 0 <= m < |Assigned(cols, ws, i)| :: |Assigned(cols, ws, i)[m]| > 0 && Stripped(Assigned(cols, ws, i)[m])
    decreases |ws|
  {
    if |ws| > 0 {
      var init := ws[..|ws| - 1];
      var w := ws[|ws| - 1];
      assert forall v | v in init :: v in ws;
      FillJoins(cols, init, i);
      var before := Assigned(cols, init, i);
      if Nearest(cols, Mid(w)) == i {
        AppendToCell(before, w.text);
        assert Assigned(cols, ws, i) == before + [w.text];
        assert forall m | 0 <= m < |before| :: (before + [w.text])[m] == before[m];
      }
    }
  }

  // ------------------------------------------------------------------
  // The row

  function X0(w: Word): real {
    w.x0
  }

  /** The top of the highest column label. */
  function MinColumnTop(cols: seq<Column>): (m: real)
    requires |cols| > 0
    ensures forall c | c in cols :: m <= c.top
    ensures exists c | c in cols :: c.top == m
    decreases |cols|
  {
    if |cols| == 1 then cols[0].top
    else
      var rest := MinColumnTop(cols[1..]);
      assert forall c | c in cols[1..] :: c in cols;
      if cols[0].top <= rest then cols[0].top else rest
  }

  predicate DistinctHeadings(cols: seq<Column>) {
    forall i, j | 0 <= i < j < |cols| :: cols[i].heading != cols[j].heading
  }

  /** The row as a dictionary: each column's key maps to its stripped
      cell. */
  function RowMap(cols: seq<Column>, cells: seq<string>): map<string, string>
    requires |cells| == |cols|
    decreases |cols|
  {
    if |cols| == 0 then map[]
    else
      var n := |cols| - 1;
      RowMap(cols[..n], cells[..n])[Key(cols[n].heading) := Strip(cells[n])]
  }

  /** The row's keys are the keys of its columns. */
  lemma {:induction false} RowMapKeys(cols: seq<Column>, cells: seq<string>)
    requires |cells| == |cols|
    ensures RowMap(cols, cells).Keys == set c | c in cols :: Key(c.heading)
    decreases |cols|
  {
    if |cols| > 0 {
      var n := |cols| - 1;
      RowMapKeys(cols[..n], cells[..n]);
      assert cols == cols[..n] + [cols[n]];
      KeysOfSnoc(cols[..n], cols[n]);
    }
  }

  lemma KeysOfSnoc(cs: seq<Column>, x: Column)
    ensures (set c | c in cs + [x] :: Key(c.heading)) == (set c | c in cs :: Key(c.heading)) + {Key(x.heading)}
  {
    assert forall c | c in cs + [x] :: c in cs || c == x;
  }

  lemma DistinctPrefix(cols: seq<Column>, n: nat)
    requires n <= |cols| && DistinctHeadings(cols)
    ensures DistinctHeadings(cols[..n])
  {
    forall a, b | 0 <= a < b < n
      ensures cols[..n][a].heading != cols[..n][b].heading
    {
      assert cols[..n][a] == cols[a] && cols[..n][b] == cols[b];
    }
  }

  lemma UpdateOther<K, V>(m: map<K, V>, k: K, v: V, j: K)
    requires j in m && j != k
    ensures j in m[k := v] && m[k := v][j] == m[j]
  {
  }

  /** With distinct headings, every column's key holds its own cell. */
  lemma {:induction false} RowMapCell(cols: seq<Column>, cells: seq<string>, i: nat)
    requires |cells| == |cols| && i < |cols|
    requires DistinctHeadings(cols)
    ensures Key(cols[i].heading) in RowMap(cols, cells)
    ensures RowMap(cols, cells)[Key(cols[i].heading)] == Strip(cells[i])
    decreases |cols|
  {
    var n := |cols| - 1;
    if i < n {
      DistinctPrefix(cols, n);
      RowMapCell(cols[..n], cells[..n], i);
      assert cols[..n][i] == cols[i] && cells[..n][i] == cells[i];
      assert cols[n].heading != cols[i].heading;
      KeyInjective(cols[n].heading, cols[i].heading);
      RowMapEarlier(cols, cells, Key(cols[i].heading));
    }
  }

  /** A key other than the last column's keeps its value from the prefix. */
  lemma RowMapEarlier(cols: seq<Column>, cells: seq<string>, k: string)
    requires |cells| == |cols| > 0
    requires k in RowMap(cols[..|cols| - 1], cells[..|cols| - 1])
    requires k != Key(cols[|cols| - 1].heading)
    ensures k in RowMap(cols, cells)
    ensures RowMap(cols, cells)[k] == RowMap(cols[..|cols| - 1], cells[..|cols| - 1])[k]
  {
    var n := |cols| - 1;
    UpdateOther(RowMap(cols[..n], cells[..n]), Key(cols[n].heading), Strip(cells[n]), k);
  }

  /** Every sorted column is the column of its own label. */
  lemma SortedColumnsAreLabelColumns(words: seq<Word>)
    ensures forall c | c in SortBy(Centre, Columns(words, Labels)) :: LabelColumn(words, c.heading) == Some(c)
  {
    var found := Columns(words, Labels);
    var cols := SortBy(Centre, found);
    forall c | c in cols
      ensures LabelColumn(words, c.heading) == Some(c)
    {
      assert c in multiset(cols);
      assert c in found;
    }
  }

  /** The columns found, sorted by centre, name each label at most once. */
  lemma SortedColumnsDistinct(words: seq<Word>)
    ensures DistinctHeadings(SortBy(Centre, Columns(words, Labels)))
  {
    LabelsInOrder();
    ColumnsInOrder(words, Labels);
    SortedHeadingsDistinct(Columns(words, Labels));
  }

  /** Sorting columns of increasing rank by centre never puts one label in
      two places. */
  lemma SortedHeadingsDistinct(cs: seq<Column>)
    requires RankIncreasing(cs)
    ensures DistinctHeadings(SortBy(Centre, cs))
  {
    var sorted := SortBy(Centre, cs);
    SortColumnsStable(cs);
    forall i, j | 0 <= i < j < |sorted|
      ensures sorted[i].heading != sorted[j].heading
    {
      assert Before(sorted[i], sorted[j]);
      assert sorted[i] in multiset(cs) && sorted[j] in multiset(cs);
      var a :| 0 <= a < |cs| && cs[a] == sorted[i];
      var b :| 0 <= b < |cs| && cs[b] == sorted[j];
      assert a != b ==> Rank(cs[a].heading) != Rank(cs[b].heading);
    }
  }

  /** The matched columns, left to right. */
  function SortedColumns(words: seq<Word>): seq<Column> {
    SortBy(Centre, Columns(words, Labels))
  }

  /** The line below the labels with the most words, the first of equally
      full ones. */
  function RowLine(body: seq<Word>): (r: seq<Word>)
    requires |body| > 0
    ensures |r| > 0
    ensures exists w | w in body :: r == OnLine(body, LineKey(w))
    ensures forall w | w in body :: |OnLine(body, LineKey(w))| <= |r|
  {
    var bins := BinWords(body);
    BinWordsGroups(body);
    var i := Densest(bins);
    assert bins[i].members[0] in body;
    forall w | w in body
      ensures |OnLine(body, LineKey(w))| <= |bins[i].members|
    {
      var k :| 0 <= k < |bins| && bins[k].key == LineKey(w);
    }
    bins[i].members
  }

  /** `max` keeps the first of equally full lines in insertion order: no
      line with as many words starts earlier in `body` than the row line. */
  lemma RowLineFirst(body: seq<Word>, w: Word)
    requires |body| > 0 && w in body
    requires |OnLine(body, LineKey(w))| == |RowLine(body)|
    ensures FirstOn(body, LineKey(RowLine(body)[0])) <= FirstOn(body, LineKey(w))
  {
    var bins := BinWords(body);
    BinWordsGroups(body);
    BinWordsOrder(body);
    var i := Densest(bins);
    assert RowLine(body) == bins[i].members;
    assert RowLine(body)[0] in OnLine(body, bins[i].key);
    var k :| 0 <= k < |bins| && bins[k].key == LineKey(w);
    assert i <= k;
  }

  /** The row of the words of the band, keyed by the renamed column
      names; none when there are no words, fewer than four labels, or no
      words below the labels. */
  function BannerRow(words: seq<Word>): Option<map<string, string>> {
    if HasRow(words) then Some(RowMap(SortedColumns(words), Fill(SortedColumns(words), RowWords(words))))
    else None
  }

  /** The band has words, at least four labels match, and some word lies
      below the labels. */
  predicate HasRow(words: seq<Word>) {
    |words| > 0 && RowBelow(words, SortedColumns(words))
  }

  /** At least four columns, and some word below the highest of them by
      more than two points. */
  predicate RowBelow(words: seq<Word>, cols: seq<Column>) {
    |cols| >= 4 && |Below(words, MinColumnTop(cols) + 2.0)| > 0
  }

  /** The words of the row line below `cols`, left to right. */
  function LineUnder(words: seq<Word>, cols: seq<Column>): seq<Word>
    requires RowBelow(words, cols)
  {
    SortBy(X0, RowLine(Below(words, MinColumnTop(cols) + 2.0)))
  }

  /** The words of the row line, left to right. */
  function RowWords(words: seq<Word>): seq<Word>
    requires HasRow(words)
  {
    LineUnder(words, SortedColumns(words))
  }

  /** The row line's words come from the band, lie more than two points
      below the highest column and are ordered by left edge. */
  lemma LineUnderInBand(words: seq<Word>, cols: seq<Column>)
    requires RowBelow(words, cols)
    ensures forall w | w in LineUnder(words, cols) :: w in words && w.top > MinColumnTop(cols) + 2.0
    ensures SortedBy(X0, LineUnder(words, cols))
  {
    var body := Below(words, MinColumnTop(cols) + 2.0);
    var line := RowLine(body);
    forall w | w in SortBy(X0, line)
      ensures w in words && w.top > MinColumnTop(cols) + 2.0
    {
      assert w in multiset(SortBy(X0, line));
      assert w in line;
    }
    SortBySorted(X0, line);
  }

  /** `extract_banner_row`: the row of the fixed band of the first page.
      `extract` stands for the PDF library's word extraction from a
      cropped region. */
  function ExtractBannerRow(page: Page, extract: Box -> seq<Word>): Option<map<string, string>>
  {
    BannerRow(extract(FixedBannerBox(page)))
  }

  /** A banner with a row gives a dictionary of at least four columns. */
  lemma ExtractBannerRowSize(page: Page, extract: Box -> seq<Word>)
    requires HasRow(extract(FixedBannerBox(page)))
    ensures ExtractBannerRow(page, extract).Some? && |ExtractBannerRow(page, extract).value| >= 4
  {
    BannerRowSize(extract(FixedBannerBox(page)));
  }

  /** Sorting keeps the matched columns and their tops. */
  lemma SortedColumnsSame(words: seq<Word>)
    ensures |SortedColumns(words)| == |Columns(words, Labels)|
    ensures forall c | c in Columns(words, Labels) :: c in SortedColumns(words)
    ensures forall c | c in SortedColumns(words) :: c in Columns(words, Labels)
  {
    var found := Columns(words, Labels);
    var cols := SortedColumns(words);
    assert forall c | c in found :: c in multiset(cols);
    assert forall c | c in cols :: c in multiset(found);
  }

  /** Some word lies below the top of the highest column plus `gap`
      exactly when some word lies more than `gap` below some column's
      top. */
  lemma BelowNonEmpty(words: seq<Word>, cols: seq<Column>, gap: real)
    requires |cols| > 0
    ensures |Below(words, MinColumnTop(cols) + gap)| > 0 <==>
      exists w, c | w in words && c in cols :: w.top > c.top + gap
  {
    var y := MinColumnTop(cols);
    var body := Below(words, y + gap);
    if |body| == 0 {
      forall w, c | w in words && c in cols
        ensures w.top <= c.top + gap
      {
        assert w !in body;
        assert y <= c.top;
      }
    } else {
      var w := body[0];
      assert w in words && w.top > y + gap;
      var c :| c in cols && c.top == y;
      assert w.top > c.top + gap;
    }
  }

  /** Whether some word lies more than `gap` below a column's top depends
      only on which columns there are. */
  lemma SameColumnsBelow(words: seq<Word>, cols: seq<Column>, found: seq<Column>, gap: real)
    requires forall c | c in cols :: c in found
    requires forall c | c in found :: c in cols
    ensures (exists w, c | w in words && c in cols :: w.top > c.top + gap) <==>
      (exists w, c | w in words && c in found :: w.top > c.top + gap)
  {
  }

  lemma RowBelowOf(words: seq<Word>, cols: seq<Column>)
    ensures RowBelow(words, cols) <==>
      (|cols| >= 4 && exists w, c | w in words && c in cols :: w.top > c.top + 2.0)
  {
    if |cols| > 0 {
      BelowNonEmpty(words, cols, 2.0);
    }
  }

  /** `HasRow` spelled out in terms of the matched columns. */
  lemma HasRowOfColumns(words: seq<Word>)
    ensures HasRow(words) <==>
      (|words| > 0 && |Columns(words, Labels)| >= 4 &&
       exists w, c | w in words && c in Columns(words, Labels) :: w.top > c.top + 2.0)
  {
    RowBelowOf(words, SortedColumns(words));
    SortedColumnsSame(words);
    SameColumnsBelow(words, SortedColumns(words), Columns(words, Labels), 2.0);
  }

  /** There is no row exactly when there are no words, fewer than four
      labels match, or no word lies more than two points below the top of
      any label. */
  lemma BannerRowNone(words: seq<Word>)
    ensures var found := Columns(words, Labels);
      BannerRow(words).None? <==>
        (|words| == 0 || |found| < 4 || forall w, c | w in words && c in found :: w.top <= c.top + 2.0)
  {
    HasRowOfColumns(words);
  }

  /** The keys of a row map of columns with distinct headings number as
      many as the columns. */
  lemma {:induction false} RowMapSize(cols: seq<Column>, cells: seq<string>)
    requires |cells| == |cols|
    requires DistinctHeadings(cols)
    ensures |RowMap(cols, cells)| == |cols|
    decreases |cols|
  {
    if |cols| > 0 {
      var n := |cols| - 1;
      DistinctPrefix(cols, n);
      RowMapSize(cols[..n], cells[..n]);
      RowMapKeys(cols[..n], cells[..n]);
      var init := RowMap(cols[..n], cells[..n]);
      assert Key(cols[n].heading) !in init by {
        forall c | c in cols[..n]
          ensures Key(c.heading) != Key(cols[n].heading)
        {
          var a :| 0 <= a < n && cols[..n][a] == c;
          assert cols[a] == c;
          KeyInjective(c.heading, cols[n].heading);
        }
      }
    }
  }

  /** Some word of the band is one of the label's tokens. */
  predicate Matched(words: seq<Word>, l: Label) {
    exists w | w in words :: w.text in Tokens(l)
  }

  /** The keys of the sorted columns are the keys of the matched labels. */
  lemma SortedColumnKeys(words: seq<Word>)
    ensures (set c | c in SortedColumns(words) :: Key(c.heading)) ==
      set l | l in Labels && Matched(words, l) :: Key(l)
  {
    SortKeepsKeys(Columns(words, Labels));
    FoundKeys(words, Labels);
  }

  /** Sorting keeps the set of keys. */
  lemma SortKeepsKeys(cs: seq<Column>)
    ensures (set c | c in SortBy(Centre, cs) :: Key(c.heading)) == set c | c in cs :: Key(c.heading)
  {
    var sorted := SortBy(Centre, cs);
    assert forall c | c in cs :: c in multiset(sorted);
    assert forall c | c in sorted :: c in multiset(cs);
  }

  /** The keys of the columns found are the keys of the matched labels. */
  lemma FoundKeys(words: seq<Word>, labels: seq<Label>)
    ensures (set c | c in Columns(words, labels) :: Key(c.heading)) ==
      set l | l in labels && Matched(words, l) :: Key(l)
  {
    var found := Columns(words, labels);
    var have := set c | c in found :: Key(c.heading);
    var want := set l | l in labels && Matched(words, l) :: Key(l);
    forall k | k in want
      ensures k in have
    {
      var l :| l in labels && Matched(words, l) && k == Key(l);
      assert LabelColumn(words, l).value in found;
    }
    forall k | k in have
      ensures k in want
    {
      var c :| c in found && k == Key(c.heading);
      assert LabelColumn(words, c.heading) == Some(c);
    }
  }

  /** A row's keys are the keys of the labels some word matches. */
  lemma BannerRowKeys(words: seq<Word>)
    requires HasRow(words)
    ensures BannerRow(words).value.Keys == set l | l in Labels && Matched(words, l) :: Key(l)
  {
    var cols := SortedColumns(words);
    RowMapKeys(cols, Fill(cols, RowWords(words)));
    SortedColumnKeys(words);
  }

  /** A row has at least four keys, one per column found. */
  lemma BannerRowSize(words: seq<Word>)
    requires HasRow(words)
    ensures |BannerRow(words).value| >= 4
  {
    var cols := SortedColumns(words);
    SortedColumnsDistinct(words);
    RowMapSize(cols, Fill(cols, RowWords(words)));
  }

  /** With distinct headings and clean word texts, each column's key maps
      to the space-joined texts of the words placed in it. */
  lemma RowMapJoins(cols: seq<Column>, line: seq<Word>, i: nat)
    requires |cols| > 0 && i < |cols|
    requires DistinctHeadings(cols)
    requires forall w | w in line :: |w.text| > 0 && Stripped(w.text)
    ensures Key(cols[i].heading) in RowMap(cols, Fill(cols, line))
    ensures RowMap(cols, Fill(cols, line))[Key(cols[i].heading)] == Join(Assigned(cols, line, i), " ")
  {
    var cells := Fill(cols, line);
    var joined := Join(Assigned(cols, line, i), " ");
    RowMapCell(cols, cells, i);
    FillJoins(cols, line, i);
    JoinStripped(Assigned(cols, line, i));
    assert Strip(joined) == joined;
  }

  /** When word texts are non-empty with no outer whitespace, the value of
      each column's key is the texts of the row-line words nearest to that
      column, taken left to right and joined by single spaces. */
  lemma BannerRowCells(words: seq<Word>, i: nat)
    requires HasRow(words)
    requires forall w | w in words :: |w.text| > 0 && Stripped(w.text)
    requires i < |SortedColumns(words)|
    ensures Key(SortedColumns(words)[i].heading) in BannerRow(words).value
    ensures BannerRow(words).value[Key(SortedColumns(words)[i].heading)]
      == Join(Assigned(SortedColumns(words), RowWords(words), i), " ")
  {
    var cols := SortedColumns(words);
    var line := RowWords(words);
    LineUnderInBand(words, cols);
    SortedColumnsDistinct(words);
    RowMapJoins(cols, line, i);
  }
}

=== FILE: models.dfy ===
/** The invoice record the parser produces. */
module Models {
  /** One invoice: text fields as read or normalised, money and hours as
      exact reals. */
  datatype InvoiceRow = InvoiceRow(
    invoiceNo: string,
    invoiceDate: string,
    dueDate: string,
    employee: string,
    period: string,
    hours: real,
    rate: real,
    amount: real,
    hst: real,
    total: real)
}

=== FILE: parse.dfy ===
/** `parse_invoice`: the first page's text has its spacing collapsed, the
    row is read from the text and, failing that, from the page's word
    positions, and the record is assembled from the row and from searches
    of the whole text. */
module Parse {
  import opened Wrappers
  import opened Strings
  import opened TextUtils
  import opened RegexRows
  import opened Models
  import Banner

  /** The whole-text searches. */
  datatype Search = InvoiceNumber | InvoiceDate | DueDate | Hst | TotalCad | TotalBare

  /** The pattern each search uses; its first group is the value. */
  function Pattern(q: Search): string {
    match q
    case InvoiceNumber => "Invoice\\s*#\\s*([0-9]+)"
    case InvoiceDate => "Invoice\\s*Date[:\\s]*([A-Za-z0-9,/\\- ]+)"
    case DueDate => "(?:Payment\\s*Due\\s*Date|Due\\s*Date)[:\\s]*([A-Za-z0-9,/\\- ]+)"
    case Hst => "\\bONHST\\b[^\\$]*\\$?\\s*([0-9,]+\\.\\d{2})"
    case TotalCad => "Total\\s*\\(CAD\\)\\s*\\$?\\s*([0-9,]+\\.\\d{2})"
    case TotalBare => "\\bTotal\\b[^\\$]*\\$?\\s*([0-9,]+\\.\\d{2})"
  }

  /** The geometric extractor: absent when its module failed to load,
      otherwise the row it reads from the page. */
  datatype BannerSource = Unavailable | Available(row: Option<map<string, string>>)

  const NoRowMessage: string :=
    "Unable to locate the banner data row. Check that the header line ends with 'Amount' and the next line contains the row."

  /** A row dictionary counts only when it is present and not empty. */
  predicate Present(r: Option<map<string, string>>) {
    r.Some? && |r.value| > 0
  }

  /** `d.get(k)`. */
  function Get(d: map<string, string>, k: string): (r: Option<string>)
    ensures r.Some? <==> k in d
    ensures r.Some? ==> r.value == d[k]
  {
    if k in d then Some(d[k]) else None
  }

  /** The row used: the text extractor's when it has one, the geometric
      extractor's otherwise, and none when neither has one. */
  function ChosenRow(text: string, banner: BannerSource): (r: Option<map<string, string>>)
    ensures Present(ExtractRowFromText(text)) ==> r == ExtractRowFromText(text)
    ensures !Present(ExtractRowFromText(text)) && banner.Available? && Present(banner.row) ==> r == banner.row
    ensures r.None? <==> !Present(ExtractRowFromText(text)) && (banner.Unavailable? || !Present(banner.row))
    ensures r.Some? ==> Present(r)
  {
    var fromText := ExtractRowFromText(text);
    if Present(fromText) then fromText
    else if banner.Available? && Present(banner.row) then banner.row
    else None
  }

  /** `a or b` on the strings `find` returns. */
  function OrElse(a: string, b: string): string {
    if a != [] then a else b
  }

  /** The record assembled from a row and the page text. `find` stands
      for a case-insensitive, multi-line regular-expression search that
      returns the stripped first group or "" when nothing matches; `parse`
      for the date parser. */
  function Assemble(row: map<string, string>, text: string,
                    find: (string, string) -> string, parse: string -> Option<Date>): InvoiceRow
  {
    InvoiceRow(
      invoiceNo := find(Pattern(InvoiceNumber), text),
      invoiceDate := NormDate(parse, find(Pattern(InvoiceDate), text)),
      dueDate := NormDate(parse, find(Pattern(DueDate), text)),
      employee := ToFirstLast(Get(row, "candidate").GetOr("")),
      period := NormPeriod(parse, Get(row, "period").GetOr("")),
      hours := Num(Get(row, "units")),
      rate := Num(Get(row, "rate")),
      amount := Num(Get(row, "amount")),
      hst := Num(Some(find(Pattern(Hst), text))),
      total := Num(Some(OrElse(find(Pattern(TotalCad), text), find(Pattern(TotalBare), text)))))
  }

  /** `parse_invoice` on the first page's extracted text `rawText` (empty
      when the page has none). */
  function ParseInvoice(rawText: string, banner: BannerSource,
                        find: (string, string) -> string, parse: string -> Option<Date>): (r: Result<InvoiceRow, string>)
    ensures r.Failure? <==> ChosenRow(CollapseSpacesKeepNewlines(rawText), banner).None?
    ensures r.Failure? ==> r.error == NoRowMessage
  {
    var text := CollapseSpacesKeepNewlines(rawText);
    match ChosenRow(text, banner)
    case None => Failure(NoRowMessage)
    case Some(row) => Success(Assemble(row, text, find, parse))
  }

  /** When the text yields a row, the geometric extractor's result is
      irrelevant: it does not matter whether it loaded or what it would
      have read. */
  lemma ParseIgnoresBannerAfterTextRow(rawText: string, b1: BannerSource, b2: BannerSource,
                                       find: (string, string) -> string, parse: string -> Option<Date>)
    requires Present(ExtractRowFromText(CollapseSpacesKeepNewlines(rawText)))
    ensures ParseInvoice(rawText, b1, find, parse) == ParseInvoice(rawText, b2, find, parse)
    ensures ParseInvoice(rawText, b1, find, parse).Success?
  {
  }

  /** The text extractor's row always has its seven keys, so it counts
      whenever it is there. */
  lemma TextRowPresent(text: string)
    ensures Present(ExtractRowFromText(text)) <==> ExtractRow(text).Some?
  {
    if ExtractRow(text).Some? {
      PresentOfRowKeys(ExtractRowFromText(text));
    }
  }

  /** A dictionary with the row pattern's keys is not empty. */
  lemma PresentOfRowKeys(r: Option<map<string, string>>)
    requires r.Some? && r.value.Keys == RowKeys
    ensures Present(r)
  {
    assert "candidate" in r.value.Keys;
  }

  /** Parsing fails exactly when the text yields no row and the geometric
      extractor is unavailable or yields nothing. */
  lemma ParseFailsWithoutRow(rawText: string, banner: BannerSource,
                             find: (string, string) -> string, parse: string -> Option<Date>)
    ensures ParseInvoice(rawText, banner, find, parse).Failure? <==>
      ExtractRow(CollapseSpacesKeepNewlines(rawText)).None? && (banner.Unavailable? || !Present(banner.row))
  {
    TextRowPresent(CollapseSpacesKeepNewlines(rawText));
  }

  /** The fields found by searching the whole text do not depend on which
      extractor supplied the row. */
  lemma HeaderFieldsIgnoreRow(rawText: string, b1: BannerSource, b2: BannerSource,
                              find: (string, string) -> string, parse: string -> Option<Date>)
    requires ParseInvoice(rawText, b1, find, parse).Success?
    requires ParseInvoice(rawText, b2, find, parse).Success?
    ensures var x := ParseInvoice(rawText, b1, find, parse).value;
      var y := ParseInvoice(rawText, b2, find, parse).value;
      x.invoiceNo == y.invoiceNo && x.invoiceDate == y.invoiceDate && x.dueDate == y.dueDate
      && x.hst == y.hst && x.total == y.total
  {
  }

  /** Missing row keys give empty text and zero amounts. */
  lemma AssembleDefaults(row: map<string, string>, text: string,
                         find: (string, string) -> string, parse: string -> Option<Date>)
    ensures "candidate" !in row ==> Assemble(row, text, find, parse).employee == ""
    ensures "period" !in row ==> Assemble(row, text, find, parse).period == ""
    ensures "units" !in row ==> Assemble(row, text, find, parse).hours == 0.0
    ensures "rate" !in row ==> Assemble(row, text, find, parse).rate == 0.0
    ensures "amount" !in row ==> Assemble(row, text, find, parse).amount == 0.0
  {
    assert CleanSpaces("") == [];
    ToFirstLastWords("");
    assert NameWords("") == [] by {
      assert Reorder(CleanSpaces("")) == [];
    }
  }

  /** The employee is the candidate's name words, reordered and
      capitalised, separated by single spaces; the period is empty exactly
      when the row's period is blank. */
  lemma AssembleEmployeeAndPeriod(row: map<string, string>, text: string,
                                  find: (string, string) -> string, parse: string -> Option<Date>)
    ensures var e := Assemble(row, text, find, parse).employee;
      IsClean(e) && Words(e) == CapitalizeAll(NameWords(Get(row, "candidate").GetOr("")))
    ensures Assemble(row, text, find, parse).period == [] <==> CleanSpaces(Get(row, "period").GetOr("")) == []
  {
    ToFirstLastWords(Get(row, "candidate").GetOr(""));
  }

  /** The total is the "Total (CAD)" amount when that search finds one,
      and the bare "Total" amount otherwise. */
  lemma AssembleTotal(row: map<string, string>, text: string,
                      find: (string, string) -> string, parse: string -> Option<Date>)
    ensures find(Pattern(TotalCad), text) != [] ==>
      Assemble(row, text, find, parse).total == Num(Some(find(Pattern(TotalCad), text)))
    ensures find(Pattern(TotalCad), text) == [] ==>
      Assemble(row, text, find, parse).total == Num(Some(find(Pattern(TotalBare), text)))
    ensures find(Pattern(TotalCad), text) == [] && find(Pattern(TotalBare), text) == [] ==>
      Assemble(row, text, find, parse).total == 0.0
  {
    NumOfBlank("");
  }

  /** The HST is the amount the ONHST search finds, and 0.0 when it finds
      nothing. */
  lemma AssembleHst(row: map<string, string>, text: string,
                    find: (string, string) -> string, parse: string -> Option<Date>)
    ensures Assemble(row, text, find, parse).hst == Num(Some(find(Pattern(Hst), text)))
    ensures find(Pattern(Hst), text) == [] ==> Assemble(row, text, find, parse).hst == 0.0
  {
    NumOfBlank("");
  }

  /** Parsing sees only the collapsed text: collapsing beforehand changes
      nothing. */
  lemma ParseOfCollapsed(rawText: string, banner: BannerSource,
                         find: (string, string) -> string, parse: string -> Option<Date>)
    ensures ParseInvoice(CollapseSpacesKeepNewlines(rawText), banner, find, parse)
      == ParseInvoice(rawText, banner, find, parse)
  {
    CollapseIdempotent(rawText);
  }

  /** With the geometric extractor loaded and the text yielding no row,
      parsing succeeds whenever the page's banner has a row, and the
      employee comes from the banner's candidate cell. */
  lemma ParseFromBanner(rawText: string, page: Banner.Page, extract: Banner.Box -> seq<Banner.Word>,
                        find: (string, string) -> string, parse: string -> Option<Date>)
    requires !Present(ExtractRowFromText(CollapseSpacesKeepNewlines(rawText)))
    requires Banner.HasRow(extract(Banner.FixedBannerBox(page)))
    ensures Banner.ExtractBannerRow(page, extract).Some?
    ensures var r := ParseInvoice(rawText, Available(Banner.ExtractBannerRow(page, extract)), find, parse);
      r.Success? &&
      r.value.employee == ToFirstLast(Get(Banner.ExtractBannerRow(page, extract).value, "candidate").GetOr(""))
  {
    var b := Banner.ExtractBannerRow(page, extract);
    Banner.ExtractBannerRowSize(page, extract);
    ParseFromRow(rawText, b.value, find, parse);
  }

  /** A non-empty fallback row is used when the text yields none. */
  lemma ParseFromRow(rawText: string, row: map<string, string>,
                     find: (string, string) -> string, parse: string -> Option<Date>)
    requires !Present(ExtractRowFromText(CollapseSpacesKeepNewlines(rawText)))
    requires |row| > 0
    ensures var r := ParseInvoice(rawText, Available(Some(row)), find, parse);
      r.Success? && r.value.employee == ToFirstLast(Get(row, "candidate").GetOr(""))
  {
  }
}

=== FILE: regex_rows.dfy ===
/** The row extractor: the header line that ends in "Amount", the first
    non-empty line below it, and the two regular expressions that read
    that line (the full row pattern, then the looser backstop), each
    written out as scans over the characters of one cleaned line. */
module RegexRows {
  import opened Wrappers
  import opened Strings
  import opened TextUtils

  // ------------------------------------------------------------------
  // Positions and character runs

  /** Every character in [i, j) is of class `k`. */
  predicate AllIn(line: string, i: nat, j: nat, k: Class)
    requires i <= j <= |line|
  {
    forall m | i <= m < j :: In(k, line[m])
  }

  /** A non-empty whitespace run `\s+` occupies [i, j). */
  predicate Gap(line: string, i: nat, j: nat) {
    i < j <= |line| && AllIn(line, i, j, Space)
  }

  lemma DigitIsNotSpace(c: char)
    requires IsDigit(c)
    ensures !IsSpace(c)
  {
  }

  lemma LetterIsNotSpace(c: char)
    requires IsAsciiLetter(c)
    ensures !IsSpace(c)
  {
  }

  // ------------------------------------------------------------------
  // HEADER_RE: `^.*\bAmount\b\s*$`, ignoring case

  /** The word "amount", in any letter case, starts at `p` with no word
      character right before it. */
  predicate AmountAt(line: string, p: nat) {
    p + 6 <= |line|
    && Lower(line[p]) == 'a' && Lower(line[p + 1]) == 'm' && Lower(line[p + 2]) == 'o'
    && Lower(line[p + 3]) == 'u' && Lower(line[p + 4]) == 'n' && Lower(line[p + 5]) == 't'
    && (p == 0 || !IsWordChar(line[p - 1]))
  }

  /** The header pattern as written: some "amount" followed by nothing but
      whitespace. */
  ghost predicate HeaderMatches(line: string) {
    exists p: nat :: AmountAt(line, p) && p + 6 <= |line| && AllIn(line, p + 6, |line|, Space)
  }

  /** The header test as a scan: trailing whitespace skipped, the six
      characters before it are "amount". */
  predicate IsHeaderLine(line: string)
    requires '\n' !in line
  {
    var t := SkipBack(line, |line|, Space);
    t >= 6 && AmountAt(line, t - 6)
  }

  /** The scan accepts exactly the lines the header pattern matches. */
  lemma IsHeaderLineMatches(line: string)
    requires '\n' !in line
    ensures IsHeaderLine(line) <==> HeaderMatches(line)
  {
    var t := SkipBack(line, |line|, Space);
    if IsHeaderLine(line) {
      assert AmountAt(line, t - 6) && AllIn(line, t, |line|, Space);
    }
    if HeaderMatches(line) {
      var p: nat :| AmountAt(line, p) && p + 6 <= |line| && AllIn(line, p + 6, |line|, Space);
      assert !IsSpace(line[p + 5]);
      SkipBackUnique(line, |line|, Space, p + 6);
    }
  }

  // ------------------------------------------------------------------
  // The token grammars of ROW_RE

  /** `\d+(?:\.\d+)?` */
  predicate IsUnits(t: string) {
    var w := Skip(t, 0, Digit);
    0 < w && (w == |t| || (t[w] == '.' && w + 1 < |t| && AllDigits(t[w + 1..])))
  }

  /** `\d{1,3}(?:,\d{3})*` */
  predicate IsGrouped(g: string)
    decreases |g|
  {
    if |g| >= 4 && g[|g| - 4] == ',' && AllDigits(g[|g| - 3..]) then
      IsGrouped(g[..|g| - 4])
    else
      1 <= |g| <= 3 && AllDigits(g)
  }

  /** `\$?\d{1,3}(?:,\d{3})*(?:\.\d{2})?` */
  predicate IsMoney(t: string) {
    var u := if |t| > 0 && t[0] == '$' then t[1..] else t;
    var g := if |u| >= 3 && u[|u| - 3] == '.' && AllDigits(u[|u| - 2..]) then u[..|u| - 3] else u;
    IsGrouped(g)
  }

  /** `[A-Za-z]+` */
  predicate IsKind(t: string) {
    |t| > 0 && forall m | 0 <= m < |t| :: IsAsciiLetter(t[m])
  }

  /** No grammar admits whitespace; each ends in a non-space character. */
  predicate Solid(t: string) {
    |t| > 0 && forall m | 0 <= m < |t| :: !IsSpace(t[m])
  }

  lemma {:induction false} GroupedIsSolid(g: string)
    requires IsGrouped(g)
    ensures Solid(g)
    decreases |g|
  {
    if |g| >= 4 && g[|g| - 4] == ',' && AllDigits(g[|g| - 3..]) {
      GroupedIsSolid(g[..|g| - 4]);
      GroupStepSolid(g);
    } else {
      forall m | 0 <= m < |g|
        ensures !IsSpace(g[m])
      {
        DigitIsNotSpace(g[m]);
      }
    }
  }

  /** A solid prefix followed by `,ddd` is solid. */
  lemma GroupStepSolid(g: string)
    requires |g| >= 4 && g[|g| - 4] == ',' && AllDigits(g[|g| - 3..])
    requires Solid(g[..|g| - 4])
    ensures Solid(g)
  {
    var h := g[..|g| - 4];
    forall m | 0 <= m < |g|
      ensures !IsSpace(g[m])
    {
      if m < |h| {
        assert g[m] == h[m];
      } else if m > |g| - 4 {
        assert g[m] == g[|g| - 3..][m - (|g| - 3)];
        DigitIsNotSpace(g[m]);
      }
    }
  }

  lemma MoneyIsSolid(t: string)
    requires IsMoney(t)
    ensures Solid(t)
  {
    var u := if |t| > 0 && t[0] == '$' then t[1..] else t;
    var g := if |u| >= 3 && u[|u| - 3] == '.' && AllDigits(u[|u| - 2..]) then u[..|u| - 3] else u;
    GroupedIsSolid(g);
    assert Solid(u) by {
      if g != u {
        forall m | 0 <= m < |u|
          ensures !IsSpace(u[m])
        {
          if m < |g| {
            assert u[m] == g[m];
          } else if m > |g| {
            assert u[m] == u[|u| - 2..][m - (|u| - 2)];
            DigitIsNotSpace(u[m]);
          }
        }
      }
    }
    if |t| > 0 && t[0] == '$' {
      forall m | 0 <= m < |t|
        ensures !IsSpace(t[m])
      {
        if m > 0 {
          assert t[m] == u[m - 1];
        }
      }
    }
  }

  lemma UnitsIsSolid(t: string)
    requires IsUnits(t)
    ensures Solid(t)
  {
    var w := Skip(t, 0, Digit);
    forall m | 0 <= m < |t|
      ensures !IsSpace(t[m])
    {
      if m < w {
        DigitIsNotSpace(t[m]);
      } else if m > w {
        assert t[m] == t[w + 1..][m - w - 1];
        DigitIsNotSpace(t[m]);
      }
    }
  }

  lemma KindIsSolid(t: string)
    requires IsKind(t)
    ensures Solid(t)
  {
    forall m | 0 <= m < |t|
      ensures !IsSpace(t[m])
    {
      LetterIsNotSpace(t[m]);
    }
  }

  // ------------------------------------------------------------------
  // The end of ROW_RE: `\s+ type \s+ units \s+ rate \s+ amount \s*$`

  /** Where the four closing tokens of a row sit: the period ends at
      `periodEnd` and each token occupies [start, end). */
  datatype Tail = Tail(periodEnd: nat, kind0: nat, kind1: nat, units0: nat, units1: nat,
                       rate0: nat, rate1: nat, amount0: nat, amount1: nat)

  /** A token of the given grammar occupies [i, j). */
  predicate KindAt(line: string, i: nat, j: nat) { i < j <= |line| && IsKind(line[i..j]) }
  predicate UnitsAt(line: string, i: nat, j: nat) { i < j <= |line| && IsUnits(line[i..j]) }
  predicate MoneyAt(line: string, i: nat, j: nat) { i < j <= |line| && IsMoney(line[i..j]) }

  /** The closing part of the row pattern matches from `periodEnd` to the
      end of the line with these token positions. */
  predicate TailValid(line: string, t: Tail) {
    && Gap(line, t.periodEnd, t.kind0) && KindAt(line, t.kind0, t.kind1)
    && Gap(line, t.kind1, t.units0) && UnitsAt(line, t.units0, t.units1)
    && Gap(line, t.units1, t.rate0) && MoneyAt(line, t.rate0, t.rate1)
    && Gap(line, t.rate1, t.amount0) && MoneyAt(line, t.amount0, t.amount1)
    && t.amount1 <= |line| && AllIn(line, t.amount1, |line|, Space)
  }

  /** The token that ends at `j`, read backwards: its start, and the end
      of the whitespace run before it. */
  function TokenBefore(line: string, j: nat): (r: (nat, nat))
    requires j <= |line|
    ensures r.0 <= r.1 <= j
  {
    var i := SkipBack(line, j, NonSpace);
    (SkipBack(line, i, Space), i)
  }

  /** The closing tokens read from the right: the last four whitespace-free
      tokens, each checked against its grammar. */
  function TailOf(line: string): (r: Option<Tail>)
    ensures r.Some? ==> TailValid(line, r.value)
  {
    var a1 := SkipBack(line, |line|, Space);
    var (r1, a0) := TokenBefore(line, a1);
    var (u1, r0) := TokenBefore(line, r1);
    var (k1, u0) := TokenBefore(line, u1);
    var (pe, k0) := TokenBefore(line, k1);
    if pe < k0 < k1 < u0 < u1 < r0 < r1 < a0 < a1
       && IsKind(line[k0..k1]) && IsUnits(line[u0..u1])
       && IsMoney(line[r0..r1]) && IsMoney(line[a0..a1])
    then
      Some(Tail(pe, k0, k1, u0, u1, r0, r1, a0, a1))
    else
      None
  }

  /** A solid token at [i, j) after a gap ending at `i` is what the
      backward read finds from `j`. */
  lemma TokenBeforeUnique(line: string, g: nat, i: nat, j: nat)
    requires g < i < j <= |line|
    requires AllIn(line, g, i, Space) && Solid(line[i..j])
    requires 0 < g ==> !IsSpace(line[g - 1])
    ensures TokenBefore(line, j) == (g, i)
  {
    assert forall m | i <= m < j :: line[m] == line[i..j][m - i];
    SkipBackUnique(line, j, NonSpace, i);
    SkipBackUnique(line, i, Space, g);
  }

  /** The last character of a solid token is not whitespace. */
  lemma SolidLast(line: string, i: nat, j: nat)
    requires i < j <= |line| && Solid(line[i..j])
    ensures !IsSpace(line[j - 1])
  {
    assert line[j - 1] == line[i..j][j - 1 - i];
  }

  /** One step of the backward read: the token at [i, j) preceded by the
      gap [g, i), itself preceded by a solid token ending at `g`. */
  lemma TailStep(line: string, h: nat, g: nat, i: nat, j: nat)
    requires h < g < i < j <= |line|
    requires Solid(line[h..g]) && Gap(line, g, i) && Solid(line[i..j])
    ensures TokenBefore(line, j) == (g, i)
  {
    SolidLast(line, h, g);
    TokenBeforeUnique(line, g, i, j);
  }

  /** Every valid placement of the closing tokens is the one `TailOf`
      finds: the end of a row is determined by the line alone. */
  lemma TailOfComplete(line: string, t: Tail)
    requires TailValid(line, t)
    requires 0 < t.periodEnd && !IsSpace(line[t.periodEnd - 1])
    ensures TailOf(line) == Some(t)
  {
    TailLastTokens(line, t);
    TailFirstTokens(line, t);
  }

  /** Only whitespace follows a solid token ending at `j`: skipping back
      over the trailing whitespace stops at `j`. */
  lemma TrailingSpace(line: string, i: nat, j: nat)
    requires i < j <= |line| && Solid(line[i..j])
    requires AllIn(line, j, |line|, Space)
    ensures SkipBack(line, |line|, Space) == j
  {
    SolidLast(line, i, j);
    SkipBackUnique(line, |line|, Space, j);
  }

  /** The backward read finds the amount and the rate of a valid tail. */
  lemma TailLastTokens(line: string, t: Tail)
    requires TailValid(line, t)
    ensures SkipBack(line, |line|, Space) == t.amount1
    ensures TokenBefore(line, t.amount1) == (t.rate1, t.amount0)
    ensures TokenBefore(line, t.rate1) == (t.units1, t.rate0)
  {
    assert SkipBack(line, |line|, Space) == t.amount1 by {
      MoneyIsSolid(line[t.amount0..t.amount1]);
      TrailingSpace(line, t.amount0, t.amount1);
    }
    assert TokenBefore(line, t.amount1) == (t.rate1, t.amount0) by {
      MoneyIsSolid(line[t.amount0..t.amount1]);
      MoneyIsSolid(line[t.rate0..t.rate1]);
      TailStep(line, t.rate0, t.rate1, t.amount0, t.amount1);
    }
    assert TokenBefore(line, t.rate1) == (t.units1, t.rate0) by {
      MoneyIsSolid(line[t.rate0..t.rate1]);
      UnitsIsSolid(line[t.units0..t.units1]);
      TailStep(line, t.units0, t.units1, t.rate0, t.rate1);
    }
  }

  /** The backward read finds the units and the kind of a valid tail, and
      the period's end before them. */
  lemma TailFirstTokens(line: string, t: Tail)
    requires TailValid(line, t)
    requires 0 < t.periodEnd && !IsSpace(line[t.periodEnd - 1])
    ensures TokenBefore(line, t.units1) == (t.kind1, t.units0)
    ensures TokenBefore(line, t.kind1) == (t.periodEnd, t.kind0)
  {
    UnitsIsSolid(line[t.units0..t.units1]);
    KindIsSolid(line[t.kind0..t.kind1]);
    TailStep(line, t.kind0, t.kind1, t.units0, t.units1);
    TokenBeforeUnique(line, t.periodEnd, t.kind0, t.kind1);
  }

  // ------------------------------------------------------------------
  // The period: `\d{2}/\d{2}/\d{2}\s*[-–]\s*\d{2}/\d{2}/\d{2}`

  /** `\d{2}/\d{2}/\d{2}` at position `i`. */
  predicate DateAt(line: string, i: nat) {
    i + 8 <= |line|
    && IsDigit(line[i]) && IsDigit(line[i + 1]) && line[i + 2] == '/'
    && IsDigit(line[i + 3]) && IsDigit(line[i + 4]) && line[i + 5] == '/'
    && IsDigit(line[i + 6]) && IsDigit(line[i + 7])
  }

  /** The two dashes the row pattern accepts between the dates. */
  predicate IsRangeDash(c: char) {
    c == '-' || c == '\U{2013}'
  }

  /** The period occupies [start, end) with its dash at `dash`. */
  predicate PeriodValid(line: string, start: nat, dash: nat, end: nat) {
    && start + 8 <= dash && dash + 9 <= end <= |line|
    && DateAt(line, start) && AllIn(line, start + 8, dash, Space)
    && IsRangeDash(line[dash])
    && AllIn(line, dash + 1, end - 8, Space) && DateAt(line, end - 8)
  }

  /** The period that ends at `end`, read backwards: its start and its
      dash. */
  function PeriodBefore(line: string, end: nat): (r: Option<(nat, nat)>)
    ensures r.Some? ==> PeriodValid(line, r.value.0, r.value.1, end)
  {
    if end < 8 || end > |line| || !DateAt(line, end - 8) then
      None
    else
      var z := SkipBack(line, end - 8, Space);
      if z == 0 || !IsRangeDash(line[z - 1]) then
        None
      else
        var x := SkipBack(line, z - 1, Space);
        if x < 8 || !DateAt(line, x - 8) then None else Some((x - 8, z - 1))
  }

  /** A period is determined by where it ends. */
  lemma PeriodBeforeComplete(line: string, start: nat, dash: nat, end: nat)
    requires PeriodValid(line, start, dash, end)
    ensures PeriodBefore(line, end) == Some((start, dash))
  {
    DigitIsNotSpace(line[start + 7]);
    SkipBackUnique(line, end - 8, Space, dash + 1);
    SkipBackUnique(line, dash, Space, start + 8);
  }

  // ------------------------------------------------------------------
  // The front of both patterns: `^(?P<candidate>.+?)\s+(?P<work_order>\d{6,})\s+`

  /** With the candidate ending at `cand`, the work order occupies
      [start, end) between two whitespace runs, the second ending at
      `next`. */
  predicate FrontValid(line: string, cand: nat, start: nat, end: nat, next: nat) {
    && 1 <= cand && Gap(line, cand, start)
    && start + 6 <= end <= |line| && AllIn(line, start, end, Digit)
    && Gap(line, end, next)
  }

  /** The front read from a candidate end: the whitespace run and the
      digit run are taken whole, as the greedy `\s+` and `\d{6,}` do. */
  function FrontAt(line: string, cand: nat): (r: Option<(nat, nat, nat)>)
    ensures r.Some? ==> FrontValid(line, cand, r.value.0, r.value.1, r.value.2)
  {
    if cand < 1 || cand >= |line| || !IsSpace(line[cand]) then
      None
    else
      var a := Skip(line, cand, Space);
      var b := Skip(line, a, Digit);
      if b < a + 6 || b == |line| || !IsSpace(line[b]) then
        None
      else
        Some((a, b, Skip(line, b, Space)))
  }

  /** The front is determined by the candidate end, provided the second
      whitespace run is followed by something other than whitespace. */
  lemma FrontAtComplete(line: string, cand: nat, start: nat, end: nat, next: nat)
    requires FrontValid(line, cand, start, end, next)
    requires next < |line| && !IsSpace(line[next])
    ensures FrontAt(line, cand) == Some((start, end, next))
  {
    DigitIsNotSpace(line[start]);
    SkipUnique(line, cand, Space, start);
    SkipUnique(line, start, Digit, end);
    SkipUnique(line, end, Space, next);
  }

  // ------------------------------------------------------------------
  // The optional purchase-order part: `(?:PO[:\s]*\S+\s+)?`

  predicate ColonsOrSpaces(line: string, i: nat, j: nat)
    requires i <= j <= |line|
  {
    forall m | i <= m < j :: line[m] == ':' || IsSpace(line[m])
  }

  /** [from, to) is empty or is "PO", colons and whitespace, a
      whitespace-free run and a whitespace run. */
  ghost predicate PoValid(line: string, from: nat, to: nat) {
    from == to
    || (from + 4 <= to <= |line| && line[from] == 'P' && line[from + 1] == 'O'
        && exists s0: nat, w0: nat | from + 2 <= s0 < w0 < to ::
             ColonsOrSpaces(line, from + 2, s0) && AllIn(line, s0, w0, NonSpace) && AllIn(line, w0, to, Space))
  }

  /** The purchase-order test as a scan: the trailing whitespace run, the
      longest whitespace-free run before it (but not into "PO"), and only
      colons and whitespace between "PO" and that run. */
  predicate IsPoPart(line: string, from: nat, to: nat)
    requires from <= to <= |line|
  {
    from == to
    || (from + 4 <= to && line[from] == 'P' && line[from + 1] == 'O'
        && var w0 := SkipBack(line, to, Space);
           var back := SkipBack(line, w0, NonSpace);
           var s0 := if back < from + 2 then from + 2 else back;
           s0 < w0 < to && ColonsOrSpaces(line, from + 2, s0))
  }

  /** The scan accepts exactly the purchase-order parts the pattern
      matches. */
  lemma IsPoPartMatches(line: string, from: nat, to: nat)
    requires from <= to <= |line|
    ensures IsPoPart(line, from, to) <==> PoValid(line, from, to)
  {
    if from < to && from + 4 <= to && line[from] == 'P' && line[from + 1] == 'O' {
      var w0 := SkipBack(line, to, Space);
      var back := SkipBack(line, w0, NonSpace);
      var s0 := if back < from + 2 then from + 2 else back;
      if IsPoPart(line, from, to) {
        assert ColonsOrSpaces(line, from + 2, s0) && AllIn(line, s0, w0, NonSpace) && AllIn(line, w0, to, Space);
      }
      if PoValid(line, from, to) {
        var s1: nat, w1: nat :| from + 2 <= s1 < w1 < to
          && ColonsOrSpaces(line, from + 2, s1) && AllIn(line, s1, w1, NonSpace) && AllIn(line, w1, to, Space);
        SkipBackUnique(line, to, Space, w1);
        assert back <= s1;
      }
    }
  }

  // ------------------------------------------------------------------
  // ROW_RE as a whole

  /** Where every part of a row sits: the candidate is [0, cand), the
      work order [workStart, workEnd), an optional purchase-order part
      [poStart, periodStart), the period [periodStart, tail.periodEnd)
      with its dash at `dash`, then the closing tokens. */
  datatype Layout = Layout(cand: nat, workStart: nat, workEnd: nat, poStart: nat,
                           periodStart: nat, dash: nat, tail: Tail)

  /** The row pattern matches the line with these positions. */
  ghost predicate RowValid(line: string, y: Layout) {
    && FrontValid(line, y.cand, y.workStart, y.workEnd, y.poStart)
    && y.poStart <= y.periodStart
    && PoValid(line, y.poStart, y.periodStart)
    && PeriodValid(line, y.periodStart, y.dash, y.tail.periodEnd)
    && TailValid(line, y.tail)
  }

  /** The row pattern tried with the candidate ending at `cand`. */
  function RowAt(line: string, cand: nat): (r: Option<Layout>)
    ensures r.Some? ==> r.value.cand == cand
  {
    match (FrontAt(line, cand), TailOf(line))
    case (Some((a, b, c)), Some(t)) =>
      (match PeriodBefore(line, t.periodEnd)
       case Some((ps, d)) =>
         if c <= ps && IsPoPart(line, c, ps) then
           Some(Layout(cand, a, b, c, ps, d, t))
         else
           None
       case None => None)
    case _ => None
  }

  /** What `RowAt` finds is a match of the row pattern. */
  lemma RowAtSound(line: string, cand: nat)
    ensures RowAt(line, cand).Some? ==> RowValid(line, RowAt(line, cand).value)
  {
    if RowAt(line, cand).Some? {
      var y := RowAt(line, cand).value;
      IsPoPartMatches(line, y.poStart, y.periodStart);
    }
  }

  /** The period and the closing tokens are determined by the line. */
  lemma ClosingComplete(line: string, ps: nat, d: nat, t: Tail)
    requires PeriodValid(line, ps, d, t.periodEnd) && TailValid(line, t)
    ensures TailOf(line) == Some(t)
    ensures PeriodBefore(line, t.periodEnd) == Some((ps, d))
  {
    DigitIsNotSpace(line[t.periodEnd - 1]);
    TailOfComplete(line, t);
    PeriodBeforeComplete(line, ps, d, t.periodEnd);
  }

  /** The front and the purchase-order part are determined by the
      candidate end and the period start. */
  lemma OpeningComplete(line: string, cand: nat, a: nat, b: nat, c: nat, ps: nat)
    requires FrontValid(line, cand, a, b, c) && c <= ps && PoValid(line, c, ps) && DateAt(line, ps)
    ensures FrontAt(line, cand) == Some((a, b, c))
    ensures IsPoPart(line, c, ps)
  {
    if c == ps {
      DigitIsNotSpace(line[c]);
    }
    FrontAtComplete(line, cand, a, b, c);
    IsPoPartMatches(line, c, ps);
  }

  /** `RowAt` assembled from its parts. */
  lemma RowAtFromParts(line: string, cand: nat, a: nat, b: nat, c: nat, ps: nat, d: nat, t: Tail)
    requires TailOf(line) == Some(t)
    requires PeriodBefore(line, t.periodEnd) == Some((ps, d))
    requires FrontAt(line, cand) == Some((a, b, c))
    requires c <= ps && IsPoPart(line, c, ps)
    ensures RowAt(line, cand) == Some(Layout(cand, a, b, c, ps, d, t))
  {
  }

  /** Every match of the row pattern is the one `RowAt` finds for its
      candidate end: a candidate end fixes all other groups. */
  lemma RowAtComplete(line: string, y: Layout)
    requires RowValid(line, y)
    ensures RowAt(line, y.cand) == Some(y)
  {
    ClosingComplete(line, y.periodStart, y.dash, y.tail);
    OpeningComplete(line, y.cand, y.workStart, y.workEnd, y.poStart, y.periodStart);
    var t := y.tail;
    RowAtFromParts(line, y.cand, y.workStart, y.workEnd, y.poStart, y.periodStart, y.dash, t);
  }

  /** The row pattern tried at each candidate end, as one function. */
  function RowAtEach(line: string): nat -> Option<Layout> {
    (k: nat) => RowAt(line, k)
  }

  /** The lazy candidate: the first candidate end from `from` on at which
      the row pattern matches. */
  function FirstRow(line: string, from: nat): (r: Option<Layout>)
    requires from <= |line|
    ensures r.Some? ==> from <= r.value.cand < |line| && RowAt(line, r.value.cand) == r
  {
    match FirstFound(RowAtEach(line), from, |line|)
    case Some((c, y)) => assert RowAtEach(line)(c) == RowAt(line, c); Some(y)
    case None => None
  }

  /** No candidate end from `from` on at which the pattern matches lies
      before the one `FirstRow` returns, and it returns one whenever one
      exists. */
  lemma FirstRowLeast(line: string, from: nat, k: nat)
    requires from <= k < |line| && RowAt(line, k).Some?
    ensures FirstRow(line, from).Some? && FirstRow(line, from).value.cand <= k
  {
    var f := RowAtEach(line);
    assert f(k) == RowAt(line, k);
    var o := FirstFound(f, from, |line|);
    assert o.Some? && o.value.0 <= k;
    assert f(o.value.0) == RowAt(line, o.value.0);
  }

  /** The first position in `[from, stop)` at which `f` finds something,
      with what it finds there. */
  function FirstFound<T>(f: nat -> Option<T>, from: nat, stop: nat): (r: Option<(nat, T)>)
    requires from <= stop
    ensures r.Some? ==> from <= r.value.0 < stop && f(r.value.0) == Some(r.value.1)
    ensures r.Some? ==> forall k | from <= k < r.value.0 :: f(k).None?
    ensures r.None? ==> forall k | from <= k < stop :: f(k).None?
    decreases stop - from
  {
    if from == stop then
      None
    else
      match f(from)
      case Some(y) => Some((from, y))
      case None => FirstFound(f, from + 1, stop)
  }

  /** `ROW_RE.match(line)`: the candidate ends are tried from the
      shortest on. */
  function MatchRow(line: string): Option<Layout> {
    if |line| == 0 then None else FirstRow(line, 1)
  }

  /** What `ROW_RE.match` returns is a match of the row pattern. */
  lemma MatchRowSound(line: string)
    ensures MatchRow(line).Some? ==> RowValid(line, MatchRow(line).value)
  {
    if MatchRow(line).Some? {
      RowAtSound(line, MatchRow(line).value.cand);
    }
  }

  /** No match of the row pattern has a shorter candidate than the one
      `ROW_RE.match` returns, and some match is returned whenever one
      exists. */
  lemma MatchRowLeast(line: string, z: Layout)
    requires RowValid(line, z)
    ensures MatchRow(line).Some? && MatchRow(line).value.cand <= z.cand
  {
    assert 1 <= z.cand < |line|;
    RowAtComplete(line, z);
    FirstRowLeast(line, 1, z.cand);
  }

  /** `ROW_RE.match` fails exactly when no placement of the groups
      matches. */
  lemma MatchRowNone(line: string)
    ensures MatchRow(line).None? <==> forall z :: !RowValid(line, z)
  {
    if MatchRow(line).Some? {
      MatchRowSound(line);
    }
    forall z | RowValid(line, z)
      ensures MatchRow(line).Some?
    {
      MatchRowLeast(line, z);
    }
  }

  /** Two matches with the same candidate are the same match. */
  lemma RowMatchUnique(line: string, y: Layout, z: Layout)
    requires RowValid(line, y) && RowValid(line, z) && y.cand == z.cand
    ensures y == z
  {
    RowAtComplete(line, y);
    RowAtComplete(line, z);
  }

  // ------------------------------------------------------------------
  // The groups of a row

  /** The seven named groups both row patterns produce. */
  datatype RowFields = RowFields(candidate: string, workOrder: string, period: string,
                                 kind: string, units: string, rate: string, amount: string)

  /** The group values of a match of the row pattern, each stripped. */
  function RowGroups(line: string, y: Layout): (f: RowFields)
    requires RowValid(line, y)
    ensures f.period == line[y.periodStart..y.tail.periodEnd]
    ensures IsKind(f.kind) && IsUnits(f.units) && IsMoney(f.rate) && IsMoney(f.amount)
    ensures |f.workOrder| >= 6 && AllDigits(f.workOrder)
    ensures f.candidate == Strip(line[..y.cand]) && f.workOrder == line[y.workStart..y.workEnd]
    ensures f.kind == line[y.tail.kind0..y.tail.kind1] && f.units == line[y.tail.units0..y.tail.units1]
    ensures f.rate == line[y.tail.rate0..y.tail.rate1] && f.amount == line[y.tail.amount0..y.tail.amount1]
  {
    var t := y.tail;
    FrontUnstripped(line, y);
    TailUnstripped(line, t);
    RowFields(Strip(line[..y.cand]), Strip(line[y.workStart..y.workEnd]),
              Strip(line[y.periodStart..t.periodEnd]),
              Strip(line[t.kind0..t.kind1]), Strip(line[t.units0..t.units1]),
              Strip(line[t.rate0..t.rate1]), Strip(line[t.amount0..t.amount1]))
  }

  /** The work order and the period start and end with a digit, so
      stripping leaves them unchanged; the work order is six or more
      digits. */
  lemma FrontUnstripped(line: string, y: Layout)
    requires FrontValid(line, y.cand, y.workStart, y.workEnd, y.poStart)
    requires PeriodValid(line, y.periodStart, y.dash, y.tail.periodEnd)
    ensures var work := line[y.workStart..y.workEnd];
      Strip(work) == work && |work| >= 6 && AllDigits(work)
    ensures var period := line[y.periodStart..y.tail.periodEnd];
      Strip(period) == period
  {
    DigitRunUnstripped(line, y.workStart, y.workEnd);
    assert DateAt(line, y.periodStart) && DateAt(line, y.tail.periodEnd - 8);
    DigitEndsUnstripped(line, y.periodStart, y.tail.periodEnd);
  }

  /** A run of digits is all digits and has nothing to strip. */
  lemma DigitRunUnstripped(line: string, i: nat, j: nat)
    requires i < j <= |line| && AllIn(line, i, j, Digit)
    ensures AllDigits(line[i..j]) && Strip(line[i..j]) == line[i..j]
  {
    assert forall m | 0 <= m < j - i :: line[i..j][m] == line[i + m];
    DigitEndsUnstripped(line, i, j);
  }

  /** A slice that starts and ends with a digit has nothing to strip. */
  lemma DigitEndsUnstripped(line: string, i: nat, j: nat)
    requires i < j <= |line| && IsDigit(line[i]) && IsDigit(line[j - 1])
    ensures Strip(line[i..j]) == line[i..j]
  {
    DigitIsNotSpace(line[i]);
    DigitIsNotSpace(line[j - 1]);
    assert line[i..j][0] == line[i] && line[i..j][j - i - 1] == line[j - 1];
  }

  /** The four closing tokens admit no whitespace, so stripping leaves
      each unchanged. */
  lemma TailUnstripped(line: string, t: Tail)
    requires TailValid(line, t)
    ensures var k := line[t.kind0..t.kind1]; Strip(k) == k && IsKind(k)
    ensures var u := line[t.units0..t.units1]; Strip(u) == u && IsUnits(u)
    ensures var r := line[t.rate0..t.rate1]; Strip(r) == r && IsMoney(r)
    ensures var a := line[t.amount0..t.amount1]; Strip(a) == a && IsMoney(a)
  {
    SolidUnstripped(line[t.kind0..t.kind1]) by { KindIsSolid(line[t.kind0..t.kind1]); }
    SolidUnstripped(line[t.units0..t.units1]) by { UnitsIsSolid(line[t.units0..t.units1]); }
    SolidUnstripped(line[t.rate0..t.rate1]) by { MoneyIsSolid(line[t.rate0..t.rate1]); }
    SolidUnstripped(line[t.amount0..t.amount1]) by { MoneyIsSolid(line[t.amount0..t.amount1]); }
  }

  /** Stripping a solid token changes nothing. */
  lemma SolidUnstripped(x: string)
    requires Solid(x)
    ensures Strip(x) == x
  {
  }

  /** The dictionary keys of a row. */
  const RowKeys: set<string> := {"candidate", "work_order", "period", "type", "units", "rate", "amount"}

  /** The row as the dictionary the extractor returns. */
  function RowDict(f: RowFields): (d: map<string, string>)
    ensures d.Keys == RowKeys
    ensures d["candidate"] == f.candidate && d["work_order"] == f.workOrder
    ensures d["period"] == f.period && d["type"] == f.kind && d["units"] == f.units
    ensures d["rate"] == f.rate && d["amount"] == f.amount
  {
    map["candidate" := f.candidate, "work_order" := f.workOrder, "period" := f.period,
        "type" := f.kind, "units" := f.units, "rate" := f.rate, "amount" := f.amount]
  }

  // ------------------------------------------------------------------
  // BACKSTOP_RE: `^(?P<candidate>.+?)\s+(?P<work_order>\d{6,})\s+(?P<rest>.+?)$`

  /** The backstop pattern matches with the candidate ending at `cand` and
      the work order at [start, end). */
  predicate BackstopValid(line: string, cand: nat, start: nat, end: nat) {
    && 1 <= cand && Gap(line, cand, start)
    && start + 6 <= end && end + 1 < |line| && AllIn(line, start, end, Digit)
    && IsSpace(line[end])
  }

  /** The backstop pattern tried with the candidate ending at `cand`. */
  function BackstopAt(line: string, cand: nat): (r: Option<(nat, nat)>)
    ensures r.Some? ==> BackstopValid(line, cand, r.value.0, r.value.1)
  {
    if cand < 1 || cand >= |line| || !IsSpace(line[cand]) then
      None
    else
      var a := Skip(line, cand, Space);
      var b := Skip(line, a, Digit);
      if b < a + 6 || b + 1 >= |line| || !IsSpace(line[b]) then None else Some((a, b))
  }

  /** A candidate end fixes the backstop's work order. */
  lemma BackstopAtComplete(line: string, cand: nat, start: nat, end: nat)
    requires BackstopValid(line, cand, start, end)
    ensures BackstopAt(line, cand) == Some((start, end))
  {
    DigitIsNotSpace(line[start]);
    SkipUnique(line, cand, Space, start);
    SkipUnique(line, start, Digit, end);
  }

  /** The first candidate end from `from` on at which the backstop
      matches. */
  function FirstBackstop(line: string, from: nat): (r: Option<(nat, nat, nat)>)
    requires from <= |line|
    ensures r.Some? ==> from <= r.value.0 && BackstopAt(line, r.value.0) == Some((r.value.1, r.value.2))
    ensures r.Some? ==> forall k | from <= k < r.value.0 :: BackstopAt(line, k).None?
    ensures r.None? ==> forall k | from <= k < |line| :: BackstopAt(line, k).None?
    decreases |line| - from
  {
    if from == |line| then
      None
    else
      match BackstopAt(line, from)
      case Some((a, b)) => Some((from, a, b))
      case None => FirstBackstop(line, from + 1)
  }

  /** `BACKSTOP_RE.match(line)`: the candidate end and the work order. */
  function MatchBackstop(line: string): Option<(nat, nat, nat)> {
    if |line| == 0 then None else FirstBackstop(line, 1)
  }

  /** `BACKSTOP_RE.match` finds the match with the shortest candidate, and
      fails exactly when the pattern has no match. */
  lemma MatchBackstopIsLeast(line: string, cand: nat, start: nat, end: nat)
    requires BackstopValid(line, cand, start, end)
    ensures MatchBackstop(line).Some? && MatchBackstop(line).value.0 <= cand
  {
    BackstopAtComplete(line, cand, start, end);
  }

  /** Where the `rest` group starts: after the whitespace run, except that
      the run gives back its last character when nothing follows it. */
  function RestStart(line: string, end: nat): (c: nat)
    requires end + 1 < |line|
    ensures end < c < |line|
    ensures forall m | end <= m < c :: IsSpace(line[m]) || m == end
  {
    var c := Skip(line, end, Space);
    if c < |line| then (if c == end then end + 1 else c) else |line| - 1
  }

  /** The tokens of `rest` are the tokens after the work order. */
  lemma RestWords(line: string, end: nat)
    requires end + 1 < |line| && IsSpace(line[end])
    ensures Words(line[RestStart(line, end)..]) == Words(line[end..])
  {
    var c := RestStart(line, end);
    var x := line[end..c];
    assert line[end..] == x + line[c..];
    WordsLeadingSpace(x, line[c..]);
  }

  /** Re-splitting the joined front and appending the last four tokens
      gives back the tokens. */
  lemma LastFourSplit(ws: seq<string>)
    requires |ws| >= 5 && forall m | 0 <= m < |ws| :: IsWord(ws[m])
    ensures var n := |ws|;
      Words(Join(ws[..n - 4], " ")) + [ws[n - 4], ws[n - 3], ws[n - 2], ws[n - 1]] == ws
  {
    var n := |ws|;
    var front := ws[..n - 4];
    assert forall m | 0 <= m < |front| :: front[m] == ws[m];
    WordsJoin(front);
    assert ws == front + [ws[n - 4], ws[n - 3], ws[n - 2], ws[n - 1]];
  }

  /** The backstop's row: the last four tokens after the work order are
      the type, units, rate and amount, and all tokens before them,
      joined by single spaces, the period; fewer than five tokens give no
      row. */
  function BackstopRow(line: string, cand: nat, start: nat, end: nat): (r: Option<RowFields>)
    requires BackstopValid(line, cand, start, end)
    ensures r.Some? <==> |Words(line[end..])| >= 5
    ensures r.Some? ==> Words(r.value.period) + [r.value.kind, r.value.units, r.value.rate, r.value.amount]
                        == Words(line[end..])
    ensures r.Some? ==> var ws := Words(line[end..]); r.value.period == Join(ws[..|ws| - 4], " ")
    ensures r.Some? ==> IsClean(r.value.period)
    ensures r.Some? ==> r.value.candidate == Strip(line[..cand]) && r.value.workOrder == line[start..end]
    ensures r.Some? ==> |r.value.workOrder| >= 6 && AllDigits(r.value.workOrder)
  {
    var tail := Words(line[RestStart(line, end)..]);
    RestWords(line, end);
    if |tail| < 5 then
      None
    else
      var n := |tail|;
      var front := tail[..n - 4];
      LastFourSplit(tail);
      DigitRunUnstripped(line, start, end);
      JoinOfWordsIsClean(front);
      Some(RowFields(Strip(line[..cand]), Strip(line[start..end]), Join(front, " "),
                     tail[n - 4], tail[n - 3], tail[n - 2], tail[n - 1]))
  }

  // ------------------------------------------------------------------
  // extract_row_from_text

  predicate NoNewlines(lines: seq<string>) {
    forall m | 0 <= m < |lines| :: '\n' !in lines[m]
  }

  /** The index of the first header line at or after `from`. */
  function FindHeader(lines: seq<string>, from: nat): (r: Option<nat>)
    requires NoNewlines(lines) && from <= |lines|
    ensures r.Some? ==> from <= r.value < |lines| && IsHeaderLine(lines[r.value])
    ensures r.Some? ==> forall m | from <= m < r.value :: !IsHeaderLine(lines[m])
    ensures r.None? ==> forall m | from <= m < |lines| :: !IsHeaderLine(lines[m])
    decreases |lines| - from
  {
    if from == |lines| then None
    else if IsHeaderLine(lines[from]) then Some(from)
    else FindHeader(lines, from + 1)
  }

  /** The index of the first non-empty line in [from, to). */
  function FirstNonEmpty(lines: seq<string>, from: nat, to: nat): (r: Option<nat>)
    requires from <= to <= |lines|
    ensures r.Some? ==> from <= r.value < to && lines[r.value] != []
    ensures r.Some? ==> forall m | from <= m < r.value :: lines[m] == []
    ensures r.None? ==> (forall m | from <= m < to :: lines[m] == [])
    decreases |lines| - from
  {
    if from == to then None
    else if lines[from] != [] then Some(from)
    else FirstNonEmpty(lines, from + 1, to)
  }

  /** The row line: the first non-empty line among the five that follow
      the header line. */
  function RowLineIndex(lines: seq<string>, header: nat): (r: Option<nat>)
    requires header < |lines|
    ensures r.Some? ==> header < r.value <= header + 5 && r.value < |lines| && lines[r.value] != []
    ensures r.Some? ==> forall m | header < m < r.value :: lines[m] == []
    ensures r.None? ==> forall m | header < m <= header + 5 && m < |lines| :: lines[m] == []
  {
    var to := if header + 6 < |lines| then header + 6 else |lines|;
    FirstNonEmpty(lines, header + 1, to)
  }

  /** The row read from one line: the row pattern first, then the
      backstop. */
  function RowOfLine(line: string): (r: Option<RowFields>)
    ensures MatchRow(line).Some? ==>
      RowValid(line, MatchRow(line).value) && r == Some(RowGroups(line, MatchRow(line).value))
    ensures MatchRow(line).None? && MatchBackstop(line).Some? ==>
      var (c, a, b) := MatchBackstop(line).value;
      BackstopValid(line, c, a, b) && r == BackstopRow(line, c, a, b)
    ensures MatchRow(line).None? && MatchBackstop(line).None? ==> r.None?
  {
    match MatchRow(line)
    case Some(y) =>
      MatchRowSound(line);
      Some(RowGroups(line, y))
    case None =>
      match MatchBackstop(line)
      case Some((c, a, b)) => BackstopRow(line, c, a, b)
      case None => None
  }

  /** Line `h` is the first header line. */
  predicate FirstHeaderAt(lines: seq<string>, h: nat)
    requires NoNewlines(lines)
  {
    h < |lines| && IsHeaderLine(lines[h]) && forall m | 0 <= m < h :: !IsHeaderLine(lines[m])
  }

  /** Line `j` is the first non-empty line among the five below line `h`. */
  predicate RowLineAt(lines: seq<string>, h: nat, j: nat) {
    h < j <= h + 5 && j < |lines| && lines[j] != [] && forall m | h < m < j :: lines[m] == []
  }

  /** The five lines below line `h` (those that exist) are all empty. */
  predicate BlankWindow(lines: seq<string>, h: nat) {
    forall m | h < m <= h + 5 && m < |lines| :: lines[m] == []
  }

  /** The row read from normalised lines: the first header line, the first
      non-empty line of the five below it, and the row read from that line. */
  function ReadRow(lines: seq<string>): (r: Option<RowFields>)
    requires NoNewlines(lines)
    ensures r.Some? ==> exists h: nat, j: nat | FirstHeaderAt(lines, h) && RowLineAt(lines, h, j) :: r == RowOfLine(lines[j])
    ensures (forall m | 0 <= m < |lines| :: !IsHeaderLine(lines[m])) ==> r.None?
  {
    match FindHeader(lines, 0)
    case None => None
    case Some(h) =>
      match RowLineIndex(lines, h)
      case None => None
      case Some(j) =>
        assert FirstHeaderAt(lines, h) && RowLineAt(lines, h, j);
        RowOfLine(lines[j])
  }

  /** Only the first header line counts: the row is read from the first
      non-empty line of its window, and a blank window gives no row even
      when a later header line would have one. */
  lemma ReadRowOfFirstHeader(lines: seq<string>, h: nat)
    requires NoNewlines(lines) && FirstHeaderAt(lines, h)
    ensures forall j: nat | RowLineAt(lines, h, j) :: ReadRow(lines) == RowOfLine(lines[j])
    ensures BlankWindow(lines, h) ==> ReadRow(lines).None?
  {
    FirstHeaderUnique(lines, h);
    forall j: nat | RowLineAt(lines, h, j)
      ensures ReadRow(lines) == RowOfLine(lines[j])
    {
      RowLineUnique(lines, h, j);
    }
  }

  /** `extract_row_from_text` on the text's normalised lines. */
  function ExtractRow(text: string): (r: Option<RowFields>)
    ensures var lines := CleanedLines(text);
      r.Some? ==> exists h: nat, j: nat | FirstHeaderAt(lines, h) && RowLineAt(lines, h, j) :: r == RowOfLine(lines[j])
    ensures var lines := CleanedLines(text);
      (forall m | 0 <= m < |lines| :: !IsHeaderLine(lines[m])) ==> r.None?
  {
    ReadRow(CleanedLines(text))
  }

  /** The text form of `ReadRowOfFirstHeader`. */
  lemma ExtractRowOfFirstHeader(text: string, h: nat)
    requires FirstHeaderAt(CleanedLines(text), h)
    ensures var lines := CleanedLines(text);
      forall j: nat | RowLineAt(lines, h, j) :: ExtractRow(text) == RowOfLine(lines[j])
    ensures BlankWindow(CleanedLines(text), h) ==> ExtractRow(text).None?
  {
    ReadRowOfFirstHeader(CleanedLines(text), h);
  }

  /** The first header line is the one the header search finds. */
  lemma FirstHeaderUnique(lines: seq<string>, h: nat)
    requires NoNewlines(lines) && FirstHeaderAt(lines, h)
    ensures FindHeader(lines, 0) == Some(h)
  {
  }

  /** The row line of a header is the one the window search finds. */
  lemma RowLineUnique(lines: seq<string>, h: nat, j: nat)
    requires RowLineAt(lines, h, j)
    ensures RowLineIndex(lines, h) == Some(j)
  {
  }

  /** `extract_row_from_text` as the dictionary it returns. */
  function ExtractRowFromText(text: string): (r: Option<map<string, string>>)
    ensures r.Some? ==> r.value.Keys == RowKeys
    ensures r.None? <==> ExtractRow(text).None?
  {
    match ExtractRow(text)
    case Some(f) => Some(RowDict(f))
    case None => None
  }

  /** The extractor re-normalises the lines itself, so collapsing the
      text's spacing first changes nothing. */
  lemma ExtractRowIgnoresCollapse(text: string)
    ensures ExtractRowFromText(CollapseSpacesKeepNewlines(text)) == ExtractRowFromText(text)
  {
    CleanedLinesOfCollapsed(text);
  }
}

=== FILE: strings.dfy ===
/** Character classes and the Python `str` primitives the parsers lean on:
    `isspace`, `strip`, `split`, `sep.join` and the run-collapsing
    `re.sub(<class>+, " ", s)` calls. */
module Strings {

  /** The characters Python's `str.isspace()` accepts. A `\s` in a str
      pattern, `str.strip()` and `str.split()` all use this set. */
  predicate IsSpace(c: char) {
    || c == ' '
    || '\t' <= c <= '\r'
    || '\U{1C}' <= c <= '\U{1F}'
    || c == '\U{85}'
    || c == '\U{A0}'
    || c == '\U{1680}'
    || '\U{2000}' <= c <= '\U{200A}'
    || c == '\U{2028}'
    || c == '\U{2029}'
    || c == '\U{202F}'
    || c == '\U{205F}'
    || c == '\U{3000}'
  }

  /** `\d`, restricted to the ASCII digits. */
  predicate IsDigit(c: char) {
    '0' <= c <= '9'
  }

  predicate IsAsciiLetter(c: char) {
    'a' <= c <= 'z' || 'A' <= c <= 'Z'
  }

  /** `\w`, restricted to ASCII: the characters a `\b` boundary separates
      from everything else. */
  predicate IsWordChar(c: char) {
    IsDigit(c) || IsAsciiLetter(c) || c == '_'
  }

  function Lower(c: char): char {
    if 'A' <= c <= 'Z' then (c as int + 32) as char else c
  }

  function Upper(c: char): char {
    if 'a' <= c <= 'z' then (c as int - 32) as char else c
  }

  predicate AllDigits(s: string) {
    forall m | 0 <= m < |s| :: IsDigit(s[m])
  }

  /** The character classes a scan can run over. */
  datatype Class = Space | NonSpace | Blank | Digit

  predicate In(k: Class, c: char) {
    match k
    case Space => IsSpace(c)
    case NonSpace => !IsSpace(c)
    case Blank => c == ' ' || c == '\t'
    case Digit => IsDigit(c)
  }

  /** The end of the maximal run of class-`k` characters starting at `i`. */
  function Skip(s: string, i: nat, k: Class): (j: nat)
    requires i <= |s|
    ensures i <= j <= |s|
    ensures forall m | i <= m < j :: In(k, s[m])
    ensures j < |s| ==> !In(k, s[j])
    decreases |s| - i
  {
    if i < |s| && In(k, s[i]) then Skip(s, i + 1, k) else i
  }

  /** The start of the maximal run of class-`k` characters ending at `j`. */
  function SkipBack(s: string, j: nat, k: Class): (i: nat)
    requires j <= |s|
    ensures i <= j
    ensures forall m | i <= m < j :: In(k, s[m])
    ensures 0 < i ==> !In(k, s[i - 1])
  {
    if 0 < j && In(k, s[j - 1]) then SkipBack(s, j - 1, k) else j
  }

  /** No two neighbouring characters are both of class `k`. */
  predicate NoRun(s: string, k: Class) {
    forall m | 0 <= m < |s| - 1 :: !(In(k, s[m]) && In(k, s[m + 1]))
  }

  predicate Stripped(s: string) {
    |s| == 0 || (!IsSpace(s[0]) && !IsSpace(s[|s| - 1]))
  }

  /** Python `str.strip()`: leading and trailing whitespace removed. */
  function Strip(s: string): (r: string)
    ensures Stripped(r)
    ensures Stripped(s) ==> r == s
    ensures r == [] <==> forall m | 0 <= m < |s| :: IsSpace(s[m])
  {
    var i := Skip(s, 0, Space);
    var j := SkipBack(s, |s|, Space);
    if j <= i then [] else s[i..j]
  }

  /** `strip()` only removes characters, and removes no run of a class
      from the inside. */
  lemma StripKeeps(s: string)
    ensures forall c | c in Strip(s) :: c in s
    ensures forall k: Class :: NoRun(s, k) ==> NoRun(Strip(s), k)
  {
    var i := Skip(s, 0, Space);
    var j := SkipBack(s, |s|, Space);
    if i < j {
      assert forall m | 0 <= m < j - i :: s[i..j][m] == s[i + m];
    }
  }

  /** `strip()` keeps every character that is not whitespace. */
  lemma StripKeepsNonSpace(s: string, k: nat)
    requires k < |s| && !IsSpace(s[k])
    ensures s[k] in Strip(s)
  {
    var i := Skip(s, 0, Space);
    var j := SkipBack(s, |s|, Space);
    assert i <= k < j;
    assert s[i..j][k - i] == s[k];
  }

  /** `re.sub(<class k>+, " ", s)`: every maximal run of class-`k`
      characters is replaced by a single space; nothing else changes. */
  function Squeeze(s: string, k: Class): (r: string)
    ensures |s| > 0 ==> |r| > 0 && r[0] == (if In(k, s[0]) then ' ' else s[0])
    ensures NoRun(r, k)
    ensures forall c | c in r :: In(k, c) ==> c == ' '
    ensures forall c | c in r :: c == ' ' || c in s
    decreases |s|
  {
    if s == [] then
      []
    else if In(k, s[0]) then
      var rest := s[Skip(s, 0, k)..];
      [' '] + Squeeze(rest, k)
    else
      [s[0]] + Squeeze(s[1..], k)
  }

  /** A string whose class-`k` characters are lone spaces is its own squeeze. */
  lemma {:induction false} SqueezeFixed(s: string, k: Class)
    requires NoRun(s, k)
    requires forall c | c in s :: In(k, c) ==> c == ' '
    ensures Squeeze(s, k) == s
    decreases |s|
  {
    if s != [] {
      assert s[0] in s;
      if In(k, s[0]) {
        assert |s| > 1 ==> !In(k, s[1]);
        assert Skip(s, 0, k) == 1;
      }
      assert forall c | c in s[1..] :: c in s;
      SqueezeFixed(s[1..], k);
      assert s == [s[0]] + s[1..];
    }
  }

  /** A string of one or more characters, none of them whitespace. */
  predicate IsWord(w: string) {
    |w| > 0 && forall m | 0 <= m < |w| :: !IsSpace(w[m])
  }

  /** Python `str.split()` with no separator: the maximal runs of
      non-whitespace characters, left to right. */
  function Words(s: string): (r: seq<string>)
    ensures forall m | 0 <= m < |r| :: IsWord(r[m])
    decreases |s|
  {
    var i := Skip(s, 0, Space);
    if i == |s| then
      []
    else
      var j := Skip(s, i, NonSpace);
      [s[i..j]] + Words(s[j..])
  }

  /** Python `sep.join(parts)`. */
  function Join(parts: seq<string>, sep: string): string
    decreases |parts|
  {
    if |parts| == 0 then []
    else if |parts| == 1 then parts[0]
    else parts[0] + sep + Join(parts[1..], sep)
  }

  /** The number of occurrences of `c` in `s`. */
  function Count(s: string, c: char): nat
    decreases |s|
  {
    if |s| == 0 then 0 else (if s[0] == c then 1 else 0) + Count(s[1..], c)
  }

  /** Python `s.split(sep)` with a one-character separator: one piece more
      than there are separators, and joining them back gives `s`. */
  function Split(s: string, sep: char): (r: seq<string>)
    ensures |r| == Count(s, sep) + 1
    ensures forall m | 0 <= m < |r| :: sep !in r[m]
    ensures Join(r, [sep]) == s
    decreases |s|
  {
    if |s| == 0 then
      [[]]
    else
      var rest := Split(s[1..], sep);
      if s[0] == sep then
        assert ([[]] + rest)[1..] == rest;
        [[]] + rest
      else
        var r := [[s[0]] + rest[0]] + rest[1..];
        assert r[1..] == rest[1..];
        assert s == [s[0]] + s[1..];
        r
  }

  lemma {:induction false} CountConcat(a: string, b: string, c: char)
    ensures Count(a + b, c) == Count(a, c) + Count(b, c)
    decreases |a|
  {
    if |a| > 0 {
      assert (a + b)[1..] == a[1..] + b;
      CountConcat(a[1..], b, c);
    } else {
      assert a + b == b;
    }
  }

  lemma {:induction false} CountAbsent(s: string, c: char)
    requires c !in s
    ensures Count(s, c) == 0
    decreases |s|
  {
    if |s| > 0 {
      assert forall d | d in s[1..] :: d in s;
      CountAbsent(s[1..], c);
    }
  }

  /** Joining pieces that do not contain the separator adds exactly one
      separator between each neighbouring pair. */
  lemma {:induction false} CountJoin(parts: seq<string>, sep: char)
    requires |parts| >= 1
    requires forall m | 0 <= m < |parts| :: sep !in parts[m]
    ensures Count(Join(parts, [sep]), sep) == |parts| - 1
    decreases |parts|
  {
    CountAbsent(parts[0], sep);
    if |parts| > 1 {
      CountJoin(parts[1..], sep);
      CountConcat(parts[0], [sep], sep);
      CountConcat(parts[0] + [sep], Join(parts[1..], [sep]), sep);
    }
  }

  lemma {:induction false} SplitNoSep(a: string, sep: char)
    requires sep !in a
    ensures Split(a, sep) == [a]
    decreases |a|
  {
    if |a| > 0 {
      assert forall d | d in a[1..] :: d in a;
      SplitNoSep(a[1..], sep);
      assert a == [a[0]] + a[1..];
    }
  }

  lemma {:induction false} SplitAfterPiece(a: string, b: string, sep: char)
    requires sep !in a
    ensures Split(a + [sep] + b, sep) == [a] + Split(b, sep)
    decreases |a|
  {
    var s := a + [sep] + b;
    if |a| == 0 {
      assert s[1..] == b;
    } else {
      assert s[1..] == a[1..] + [sep] + b;
      assert forall d | d in a[1..] :: d in a;
      SplitAfterPiece(a[1..], b, sep);
      assert a == [a[0]] + a[1..];
    }
  }

  /** `split` undoes `join` when no piece contains the separator. */
  lemma {:induction false} SplitJoin(parts: seq<string>, sep: char)
    requires |parts| >= 1
    requires forall m | 0 <= m < |parts| :: sep !in parts[m]
    ensures Split(Join(parts, [sep]), sep) == parts
    decreases |parts|
  {
    if |parts| == 1 {
      SplitNoSep(parts[0], sep);
    } else {
      SplitJoin(parts[1..], sep);
      SplitAfterPiece(parts[0], Join(parts[1..], [sep]), sep);
      assert parts == [parts[0]] + parts[1..];
    }
  }

  // ------------------------------------------------------------------
  // How `split()` treats whitespace and concatenation

  /** A scan stops exactly at the first position outside the class. */
  lemma {:induction false} SkipUnique(s: string, i: nat, k: Class, j: nat)
    requires i <= j <= |s|
    requires forall m | i <= m < j :: In(k, s[m])
    requires j < |s| ==> !In(k, s[j])
    ensures Skip(s, i, k) == j
    decreases j - i
  {
    if i < j {
      SkipUnique(s, i + 1, k, j);
    }
  }

  /** A backward scan stops exactly after the last position outside the class. */
  lemma {:induction false} SkipBackUnique(s: string, j: nat, k: Class, i: nat)
    requires i <= j <= |s|
    requires forall m | i <= m < j :: In(k, s[m])
    requires 0 < i ==> !In(k, s[i - 1])
    ensures SkipBack(s, j, k) == i
    decreases j - i
  {
    if i < j {
      SkipBackUnique(s, j - 1, k, i);
    }
  }

  /** Scanning from inside the right operand of a concatenation is scanning
      that operand. */
  lemma SkipShift(x: string, b: string, i: nat, k: Class)
    requires |x| <= i <= |x| + |b|
    ensures Skip(x + b, i, k) == |x| + Skip(b, i - |x|, k)
  {
    SkipUnique(x + b, i, k, |x| + Skip(b, i - |x|, k));
  }

  /** Scanning a run that stops inside the left operand ignores the right one. */
  lemma SkipInLeft(a: string, b: string, i: nat, k: Class)
    requires i <= |a|
    requires Skip(a, i, k) < |a|
    ensures Skip(a + b, i, k) == Skip(a, i, k)
  {
    SkipUnique(a + b, i, k, Skip(a, i, k));
  }

  /** One step of `Words`: the first word runs from the first non-space
      position to the next space. */
  lemma WordsStep(s: string, i: nat, j: nat)
    requires i == Skip(s, 0, Space) && i < |s|
    requires j == Skip(s, i, NonSpace)
    ensures Words(s) == [s[i..j]] + Words(s[j..])
  {
  }

  /** A scan that reaches the end of the left operand stops there when the
      right operand starts outside the class. */
  lemma SkipToBoundary(a: string, b: string, i: nat, k: Class)
    requires i <= |a|
    requires |b| > 0 && !In(k, b[0])
    ensures Skip(a + b, i, k) == Skip(a, i, k)
  {
    if Skip(a, i, k) < |a| {
      SkipInLeft(a, b, i, k);
    } else {
      SkipUnique(a + b, i, k, |a|);
    }
  }

  /** Leading whitespace contributes no word. */
  lemma {:induction false} WordsLeadingSpace(x: string, b: string)
    requires forall m | 0 <= m < |x| :: IsSpace(x[m])
    ensures Words(x + b) == Words(b)
    decreases |x|
  {
    if |x| == 0 {
      assert x + b == b;
    } else {
      var s := x + b;
      assert s[1..] == x[1..] + b;
      WordsDropSpace(s);
      WordsLeadingSpace(x[1..], b);
    }
  }

  /** A leading whitespace character contributes no word. */
  lemma WordsDropSpace(s: string)
    requires |s| > 0 && IsSpace(s[0])
    ensures Words(s) == Words(s[1..])
  {
    var t := s[1..];
    var i := Skip(t, 0, Space);
    assert s == [s[0]] + t;
    SkipShift([s[0]], t, 1, Space);
    assert Skip(s, 0, Space) == 1 + i;
    if i < |t| {
      var j := Skip(t, i, NonSpace);
      SkipShift([s[0]], t, 1 + i, NonSpace);
      SliceOfDrop(s, 1, i, j);
      SuffixOfDrop(s, 1, j);
      WordsStep(s, 1 + i, 1 + j);
      WordsStep(t, i, j);
      SameHeadSameTail(Words(s), Words(t), t[i..j], Words(s[1 + j..]), Words(t[j..]));
    }
  }

  /** Two sequences with equal heads and equal tails are equal. */
  lemma SameHeadSameTail<T>(p: seq<T>, q: seq<T>, h: T, r1: seq<T>, r2: seq<T>)
    requires p == [h] + r1 && q == [h] + r2 && r1 == r2
    ensures p == q
  {
  }

  /** A slice of a suffix is a slice of the whole. */
  lemma SliceOfDrop<T>(s: seq<T>, d: nat, i: nat, j: nat)
    requires d <= |s| && i <= j <= |s| - d
    ensures s[d..][i..j] == s[d + i..d + j]
  {
  }

  /** A suffix of a suffix is a suffix of the whole. */
  lemma SuffixOfDrop<T>(s: seq<T>, d: nat, i: nat)
    requires d <= |s| && i <= |s| - d
    ensures s[d..][i..] == s[d + i..]
  {
  }

  lemma DropOfConcat<T>(a: seq<T>, b: seq<T>, n: nat)
    requires n <= |a|
    ensures (a + b)[n..] == a[n..] + b
  {
  }

  lemma SplitTwo<T>(s: seq<T>, j: nat)
    requires j <= |s|
    ensures s == s[..j] + s[j..]
  {
  }

  lemma DropOfTake<T>(s: seq<T>, i: nat, j: nat)
    requires i <= j <= |s|
    ensures s[..j][i..] == s[i..j]
  {
  }

  lemma SplitAround<T>(s: seq<T>, j: nat)
    requires j < |s|
    ensures s == s[..j] + ([s[j]] + s[j + 1..])
  {
  }

  lemma SplitThree<T>(s: seq<T>, i: nat, j: nat)
    requires i <= j <= |s|
    ensures s == s[..i] + (s[i..j] + s[j..])
  {
  }

  /** A non-empty sequence is its prefix followed by its last element. */
  lemma SnocLast<T>(s: seq<T>)
    requires |s| > 0
    ensures s[..|s| - 1] + [s[|s| - 1]] == s
  {
  }

  lemma AppendAssoc<T>(a: seq<T>, m: seq<T>, b: seq<T>)
    ensures a + m + b == a + (m + b)
  {
  }

  /** Slices inside the left operand of a three-way concatenation. */
  lemma SlicesOfLeft<T>(a: seq<T>, m: seq<T>, b: seq<T>, i: nat, j: nat)
    requires i <= j <= |a|
    ensures (a + m + b)[i..j] == a[i..j]
    ensures (a + m + b)[j..] == a[j..] + m + b
  {
  }

  /** A string of whitespace has no words. */
  lemma WordsAllSpace(x: string)
    requires forall m | 0 <= m < |x| :: IsSpace(x[m])
    ensures Words(x) == []
  {
    SkipUnique(x, 0, Space, |x|);
  }

  /** Splitting at a whitespace character splits the word list. */
  lemma {:induction false} WordsConcatSpace(a: string, c: char, b: string)
    requires IsSpace(c)
    ensures Words(a + [c] + b) == Words(a) + Words(b)
    decreases |a|
  {
    var s := a + [c] + b;
    var i := Skip(a, 0, Space);
    if i == |a| {
      WordsAllSpace(a);
      var ac := a + [c];
      assert s == ac + b;
      WordsLeadingSpace(ac, b);
    } else {
      var j := Skip(a, i, NonSpace);
      var w := a[i..j];
      var a' := a[j..];
      var r := [c] + b;
      AppendAssoc(a, [c], b);
      SkipInLeft(a, r, 0, Space);
      SkipToBoundary(a, r, i, NonSpace);
      WordsStep(s, i, j);
      WordsStep(a, i, j);
      SlicesOfLeft(a, [c], b, i, j);
      WordsConcatSpace(a', c, b);
      AppendAssoc([w], Words(a'), Words(b));
    }
  }

  /** Trailing whitespace contributes no word. */
  lemma WordsTrailingSpace(y: string, q: string)
    requires forall m | 0 <= m < |q| :: IsSpace(q[m])
    ensures Words(y + q) == Words(y)
  {
    if |q| > 0 {
      var q1 := q[1..];
      assert y + q == y + [q[0]] + q1;
      WordsConcatSpace(y, q[0], q1);
      WordsAllSpace(q1);
    } else {
      assert y + q == y;
    }
  }

  /** `strip()` does not change the words. */
  lemma WordsStrip(s: string)
    ensures Words(Strip(s)) == Words(s)
  {
    var i := Skip(s, 0, Space);
    var j := SkipBack(s, |s|, Space);
    if j <= i {
      WordsAllSpace(Strip(s));
      WordsAllSpace(s);
    } else {
      assert Strip(s) == s[i..j];
      WordsOfInner(s, i, j);
    }
  }

  /** Whitespace on both sides of a slice contributes no word. */
  lemma WordsOfInner(s: string, i: nat, j: nat)
    requires i <= j <= |s|
    requires forall m | 0 <= m < i :: IsSpace(s[m])
    requires forall m | j <= m < |s| :: IsSpace(s[m])
    ensures Words(s[i..j]) == Words(s)
  {
    SplitThree(s, i, j);
    WordsLeadingSpace(s[..i], s[i..j] + s[j..]);
    WordsTrailingSpace(s[i..j], s[j..]);
  }

  /** A word followed by nothing or by whitespace is the first word. */
  lemma WordsCons(w: string, y: string)
    requires IsWord(w)
    requires |y| == 0 || IsSpace(y[0])
    ensures Words(w + y) == [w] + Words(y)
  {
    var s := w + y;
    SkipUnique(s, 0, Space, 0);
    SkipUnique(s, 0, NonSpace, |w|);
    assert s[..|w|] == w;
    assert s[|w|..] == y;
  }

  /** A string that starts outside whitespace has at least one word. */
  lemma WordsStartingWord(s: string)
    requires |s| > 0 && !IsSpace(s[0])
    ensures |Words(s)| > 0
  {
    SkipUnique(s, 0, Space, 0);
  }

  /** `sep.join` of two or more parts puts `sep` after the first. */
  lemma JoinCons(w: string, parts: seq<string>, sep: string)
    requires |parts| > 0
    ensures Join([w] + parts, sep) == w + sep + Join(parts, sep)
  {
    assert ([w] + parts)[1..] == parts;
  }

  /** `split()` undoes `" ".join` of words. */
  lemma {:induction false} WordsJoin(ws: seq<string>)
    requires forall m | 0 <= m < |ws| :: IsWord(ws[m])
    ensures Words(Join(ws, " ")) == ws
    decreases |ws|
  {
    if |ws| > 0 {
      WordsCons(ws[0], []);
      assert ws[0] + [] == ws[0];
    }
    if |ws| > 1 {
      WordsJoin(ws[1..]);
      WordsConcatSpace(ws[0], ' ', Join(ws[1..], " "));
      assert ws[0] + " " + Join(ws[1..], " ") == ws[0] + [' '] + Join(ws[1..], " ");
      assert ws == [ws[0]] + ws[1..];
    }
  }

  /** Squeezing splits at a boundary whose left side ends outside the class. */
  lemma {:induction false} SqueezeConcat(a: string, b: string, k: Class)
    requires |a| == 0 || !In(k, a[|a| - 1])
    ensures Squeeze(a + b, k) == Squeeze(a, k) + Squeeze(b, k)
    decreases |a|
  {
    var s := a + b;
    if |a| == 0 {
      assert s == b;
    } else if In(k, a[0]) {
      var n := Skip(a, 0, k);
      SkipInLeft(a, b, 0, k);
      DropOfConcat(a, b, n);
      SqueezeConcat(a[n..], b, k);
      assert s[0] == a[0];
      assert Squeeze(s, k) == [' '] + Squeeze(a[n..] + b, k);
      assert Squeeze(a, k) == [' '] + Squeeze(a[n..], k);
      AppendAssoc([' '], Squeeze(a[n..], k), Squeeze(b, k));
    } else {
      DropOfConcat(a, b, 1);
      SqueezeConcat(a[1..], b, k);
      assert s[0] == a[0];
      assert Squeeze(s, k) == [a[0]] + Squeeze(a[1..] + b, k);
      AppendAssoc([a[0]], Squeeze(a[1..], k), Squeeze(b, k));
    }
  }

  /** A nonempty whitespace string squeezes to one space. */
  lemma SqueezeAllSpace(x: string)
    requires |x| > 0
    requires forall m | 0 <= m < |x| :: IsSpace(x[m])
    ensures Squeeze(x, Space) == " "
  {
    SkipUnique(x, 0, Space, |x|);
    assert x[|x|..] == [];
  }

  /** Squeezing a string that starts with its first word: the leading
      whitespace (if any) becomes one space and the word is kept. */
  lemma SqueezeFirstWord(s: string, i: nat, j: nat)
    requires i == Skip(s, 0, Space) < |s|
    requires j == Skip(s, i, NonSpace)
    ensures Squeeze(s, Space) == (if i > 0 then " " else []) + s[i..j] + Squeeze(s[j..], Space)
  {
    SplitTwo(s, j);
    SqueezeConcat(s[..j], s[j..], Space);
    SqueezeHead(s, i, j);
  }

  /** Squeezing the leading spaces and first word of `s`. */
  lemma SqueezeHead(s: string, i: nat, j: nat)
    requires i == Skip(s, 0, Space) < |s|
    requires j == Skip(s, i, NonSpace)
    ensures Squeeze(s[..j], Space) == (if i > 0 then " " else []) + s[i..j]
  {
    var head := s[..j];
    SqueezeFixed(s[i..j], Space);
    DropOfTake(s, i, j);
    if i > 0 {
      SkipUnique(head, 0, Space, i);
    }
  }

  /** Squeezing whitespace runs keeps the words. */
  lemma {:induction false} WordsSqueeze(s: string)
    ensures Words(Squeeze(s, Space)) == Words(s)
    decreases |s|
  {
    var i := Skip(s, 0, Space);
    if i == |s| {
      WordsAllSpace(s);
      if |s| > 0 {
        SqueezeAllSpace(s);
      }
    } else {
      var j := Skip(s, i, NonSpace);
      var word := s[i..j];
      var tail := s[j..];
      var pre: string := if i > 0 then " " else [];
      var rest := Squeeze(tail, Space);
      SqueezeFirstWord(s, i, j);
      AppendAssoc(pre, word, rest);
      WordsSqueeze(tail);
      WordsCons(word, rest);
      WordsLeadingSpace(pre, word + rest);
      WordsStep(s, i, j);
    }
  }

  /** Joining one more piece appends the separator and the piece. */
  lemma {:induction false} JoinSnoc(parts: seq<string>, sep: string, last: string)
    requires |parts| > 0
    ensures Join(parts + [last], sep) == Join(parts, sep) + sep + last
    decreases |parts|
  {
    if |parts| > 1 {
      JoinSnoc(parts[1..], sep, last);
      assert (parts + [last])[1..] == parts[1..] + [last];
    } else {
      assert (parts + [last])[1..] == [last];
    }
  }

  /** Joining non-empty stripped pieces with a space gives a stripped
      string. */
  lemma {:induction false} JoinStripped(parts: seq<string>)
    requires forall m | 0 <= m < |parts| :: |parts[m]| > 0 && Stripped(parts[m])
    ensures |parts| > 0 ==> |Join(parts, " ")| > 0
    ensures Stripped(Join(parts, " "))
    decreases |parts|
  {
    if |parts| > 1 {
      JoinStripped(parts[1..]);
      var y := Join(parts[1..], " ");
      assert (parts[0] + " " + y)[0] == parts[0][0];
      assert (parts[0] + " " + y)[|parts[0]| + 1 + |y| - 1] == y[|y| - 1];
    }
  }

  /** Stripping a single space followed by a stripped word leaves the
      word. */
  lemma StripSpaceThen(t: string)
    requires |t| > 0 && Stripped(t)
    ensures Strip(" " + t) == t
  {
    var s := " " + t;
    SkipUnique(s, 0, Space, 1);
    SkipBackUnique(s, |s|, Space, |s|);
    assert s[1..|s|] == t;
  }
}

=== FILE: text_utils.dfy ===
/** The normalisation primitives of `parsing/_text_utils.py`: whitespace
    cleaning, line-preserving collapsing, numeric coercion, display-name
    casing and the date and period wrappers. */
module TextUtils {
  import opened Wrappers
  import opened Strings

  // ------------------------------------------------------------------
  // clean_spaces

  /** What `clean_spaces` produces: every whitespace character is a plain
      space, no two spaces touch, and there is none at either end. */
  predicate IsClean(s: string) {
    && (forall c | c in s :: IsSpace(c) ==> c == ' ')
    && NoRun(s, Space)
    && Stripped(s)
  }

  lemma CleanSqueezeFixed(s: string)
    ensures IsClean(s) ==> Squeeze(s, Space) == s
  {
    if IsClean(s) {
      SqueezeFixed(s, Space);
    }
  }

  /** `clean_spaces`: every whitespace run becomes one space, then the
      ends are stripped. Its output is clean, and clean input comes back
      unchanged, so applying it twice is applying it once. */
  function CleanSpaces(s: string): (r: string)
    ensures IsClean(r)
    ensures IsClean(s) ==> r == s
  {
    CleanSqueezeFixed(s);
    StripKeeps(Squeeze(s, Space));
    Strip(Squeeze(s, Space))
  }

  /** A clean string is its words joined by single spaces. */
  lemma {:induction false} JoinWordsOfClean(s: string)
    requires IsClean(s)
    ensures Join(Words(s), " ") == s
    decreases |s|
  {
    if |s| > 0 {
      var j := Skip(s, 0, NonSpace);
      var w := s[..j];
      FirstWordOfClean(s, j);
      if j == |s| {
        WordsCons(s, []);
        assert s + [] == s;
      } else {
        var rest := s[j + 1..];
        CleanAfterWord(s, j);
        JoinWordsOfClean(rest);
        JoinWordsStep(w, rest);
      }
    }
  }

  /** Putting a word and a space in front of a string that starts with a
      word extends its joined words by that word. */
  lemma JoinWordsStep(w: string, rest: string)
    requires IsWord(w) && |rest| > 0 && !IsSpace(rest[0])
    requires Join(Words(rest), " ") == rest
    ensures Join(Words(w + (" " + rest)), " ") == w + (" " + rest)
  {
    WordsCons(w, " " + rest);
    WordsLeadingSpace(" ", rest);
    WordsStartingWord(rest);
    JoinCons(w, Words(rest), " ");
    AppendAssoc(w, " ", rest);
  }

  /** The first word of a non-empty clean string starts at its first character. */
  lemma FirstWordOfClean(s: string, j: nat)
    requires IsClean(s) && |s| > 0
    requires j == Skip(s, 0, NonSpace)
    ensures 0 < j && IsWord(s[..j])
    ensures j == |s| ==> s[..j] == s
  {
    assert !IsSpace(s[0]);
  }

  /** What follows the first word of a clean string, when anything does, is
      one space and then a clean string that starts with a word. */
  lemma CleanAfterWord(s: string, j: nat)
    requires IsClean(s) && |s| > 0
    requires j == Skip(s, 0, NonSpace) < |s|
    ensures j + 1 < |s|
    ensures s == s[..j] + (" " + s[j + 1..])
    ensures IsClean(s[j + 1..]) && !IsSpace(s[j + 1])
  {
    assert s[j] in s;
    assert s[j] == ' ';
    assert j + 1 < |s|;
    assert !IsSpace(s[j + 1]);
    SplitAround(s, j);
    CleanSuffix(s, j + 1);
  }

  /** A suffix of a clean string that starts outside whitespace is clean. */
  lemma CleanSuffix(s: string, d: nat)
    requires IsClean(s) && d < |s| && !IsSpace(s[d])
    ensures IsClean(s[d..])
  {
    var t := s[d..];
    assert forall m | 0 <= m < |t| :: t[m] == s[d + m];
    assert forall c | c in t :: c in s;
    assert NoRun(t, Space);
    assert Stripped(t);
  }

  /** `clean_spaces` is `" ".join(s.split())`: it keeps exactly the words
      of its input and separates them by single spaces. */
  lemma CleanSpacesIsJoinedWords(s: string)
    ensures Words(CleanSpaces(s)) == Words(s)
    ensures CleanSpaces(s) == Join(Words(s), " ")
  {
    WordsSqueeze(s);
    WordsStrip(Squeeze(s, Space));
    JoinWordsOfClean(CleanSpaces(s));
  }

  // ------------------------------------------------------------------
  // normalize_newlines

  /** The number of line breaks in `s`: a "\r\n" pair counts once, every
      other '\r' and '\n' once each. */
  function LineBreaks(s: string): nat
    decreases |s|
  {
    if |s| == 0 then 0
    else if |s| >= 2 && s[0] == '\r' && s[1] == '\n' then 1 + LineBreaks(s[2..])
    else if s[0] == '\r' || s[0] == '\n' then 1 + LineBreaks(s[1..])
    else LineBreaks(s[1..])
  }

  /** `s.replace("\r\n", "\n")`, scanning left to right. Every line break
      of `s` survives as exactly one '\r' or '\n'. */
  function ReplaceCrLf(s: string): (r: string)
    ensures Count(r, '\n') + Count(r, '\r') == LineBreaks(s)
    ensures '\r' !in s ==> r == s
    decreases |s|
  {
    if |s| == 0 then
      []
    else if |s| >= 2 && s[0] == '\r' && s[1] == '\n' then
      var rest := ReplaceCrLf(s[2..]);
      assert (['\n'] + rest)[1..] == rest;
      ['\n'] + rest
    else
      var rest := ReplaceCrLf(s[1..]);
      assert ([s[0]] + rest)[1..] == rest;
      assert '\r' !in s ==> '\r' !in s[1..] && s == [s[0]] + s[1..];
      [s[0]] + rest
  }

  /** `s.replace("\r", "\n")`. */
  function ReplaceCr(s: string): (r: string)
    ensures '\r' !in r
    ensures Count(r, '\n') == Count(s, '\n') + Count(s, '\r')
    ensures '\r' !in s ==> r == s
    decreases |s|
  {
    if |s| == 0 then
      []
    else
      var rest := ReplaceCr(s[1..]);
      var c := if s[0] == '\r' then '\n' else s[0];
      assert ([c] + rest)[1..] == rest;
      assert '\r' !in s ==> '\r' !in s[1..] && s == [s[0]] + s[1..];
      [c] + rest
  }

  /** `normalize_newlines`: every line break becomes one '\n'. */
  function NormalizeNewlines(s: string): (r: string)
    ensures '\r' !in r
    ensures Count(r, '\n') == LineBreaks(s)
    ensures '\r' !in s ==> r == s
  {
    ReplaceCr(ReplaceCrLf(s))
  }

  // ------------------------------------------------------------------
  // collapse_spaces_keep_newlines

  /** What the per-line cleaning produces: no tab, no two neighbouring
      spaces, no whitespace at either end. */
  predicate IsCleanLine(s: string) {
    && '\t' !in s
    && NoRun(s, Blank)
    && Stripped(s)
  }

  lemma CleanLineFixed(line: string)
    ensures IsCleanLine(line) ==> Squeeze(line, Blank) == line
  {
    if IsCleanLine(line) {
      SqueezeFixed(line, Blank);
    }
  }

  /** `re.sub(r"[ \t]+", " ", ln).strip()`: the cleaning applied to each
      line. A clean line is its own cleaning. */
  function CleanLine(line: string): (r: string)
    ensures IsCleanLine(r)
    ensures IsCleanLine(line) ==> r == line
    ensures forall c | c in r :: c == ' ' || c in line
  {
    CleanLineFixed(line);
    StripKeeps(Squeeze(line, Blank));
    Strip(Squeeze(line, Blank))
  }

  /** The lines of `s` after newline normalisation, each cleaned: one
      entry per line break plus one. This is also `_normalize_lines` of
      `parsing/_regex_rows.py`, which repeats the computation. */
  function CleanedLines(s: string): (r: seq<string>)
    ensures |r| == LineBreaks(s) + 1
    ensures forall m | 0 <= m < |r| :: IsCleanLine(r[m]) && '\n' !in r[m] && '\r' !in r[m]
  {
    var normalized := NormalizeNewlines(s);
    var pieces := Split(normalized, '\n');
    forall m | 0 <= m < |pieces|
      ensures '\r' !in pieces[m]
    {
      JoinPieceChars(pieces, "\n", m);
    }
    seq(|pieces|, m requires 0 <= m < |pieces| => CleanLine(pieces[m]))
  }

  /** Every character of a piece occurs in the joined string. */
  lemma {:induction false} JoinPieceChars(parts: seq<string>, sep: string, m: nat)
    requires m < |parts|
    ensures forall c | c in parts[m] :: c in Join(parts, sep)
    decreases |parts|
  {
    if |parts| > 1 && m > 0 {
      JoinPieceChars(parts[1..], sep, m - 1);
    }
  }

  /** Characters absent from every piece and from the separator are absent
      from the join. */
  lemma {:induction false} JoinAvoids(parts: seq<string>, sep: string, c: char)
    requires c !in sep
    requires forall m | 0 <= m < |parts| :: c !in parts[m]
    ensures c !in Join(parts, sep)
    decreases |parts|
  {
    if |parts| > 1 {
      JoinAvoids(parts[1..], sep, c);
    }
  }

  /** `collapse_spaces_keep_newlines`: the cleaned lines joined by '\n'.
      The output has exactly one '\n' per line break of the input, and
      splitting it at '\n' gives back the cleaned lines. */
  function CollapseSpacesKeepNewlines(s: string): (r: string)
    ensures Count(r, '\n') == LineBreaks(s)
    ensures Split(r, '\n') == CleanedLines(s)
  {
    var lines := CleanedLines(s);
    SplitJoin(lines, '\n');
    CountJoin(lines, '\n');
    Join(lines, "\n")
  }

  /** Cleaning the lines of already collapsed text changes nothing. */
  lemma CleanedLinesOfCollapsed(s: string)
    ensures CleanedLines(CollapseSpacesKeepNewlines(s)) == CleanedLines(s)
  {
    var lines := CleanedLines(s);
    var t := CollapseSpacesKeepNewlines(s);
    JoinAvoids(lines, "\n", '\r');
    assert NormalizeNewlines(t) == t;
    var again := CleanedLines(t);
    assert |again| == |lines|;
    forall m | 0 <= m < |lines|
      ensures again[m] == lines[m]
    {
      assert again[m] == CleanLine(lines[m]);
    }
  }

  /** Collapsing twice is collapsing once. */
  lemma CollapseIdempotent(s: string)
    ensures CollapseSpacesKeepNewlines(CollapseSpacesKeepNewlines(s)) == CollapseSpacesKeepNewlines(s)
  {
    CleanedLinesOfCollapsed(s);
  }

  // ------------------------------------------------------------------
  // num

  /** `s.replace(",", "").replace("$", "")`. */
  function DropCommasAndDollars(s: string): (r: string)
    ensures ',' !in r && '$' !in r
    ensures ',' !in s && '$' !in s ==> r == s
    decreases |s|
  {
    if |s| == 0 then
      []
    else
      var keep: string := if s[0] == ',' || s[0] == '$' then [] else [s[0]];
      assert ',' !in s && '$' !in s ==> s == [s[0]] + s[1..];
      keep + DropCommasAndDollars(s[1..])
  }

  /** Every character other than a comma or a dollar sign survives. */
  lemma {:induction false} DropKeeps(s: string, m: nat)
    requires m < |s| && s[m] != ',' && s[m] != '$'
    ensures s[m] in DropCommasAndDollars(s)
    decreases m
  {
    if m > 0 {
      assert s[1..][m - 1] == s[m];
      DropKeeps(s[1..], m - 1);
    }
  }

  lemma {:induction false} DropConcat(a: string, b: string)
    ensures DropCommasAndDollars(a + b) == DropCommasAndDollars(a) + DropCommasAndDollars(b)
    decreases |a|
  {
    if |a| == 0 {
      assert a + b == b;
    } else {
      assert (a + b)[1..] == a[1..] + b;
      DropConcat(a[1..], b);
    }
  }

  /** The value of a string of decimal digits. */
  function DigitsValue(d: string): nat
    requires AllDigits(d)
    decreases |d|
  {
    if |d| == 0 then 0 else DigitsValue(d[..|d| - 1]) * 10 + (d[|d| - 1] as int - '0' as int)
  }

  function Pow10(n: nat): (r: nat)
    ensures r > 0
  {
    if n == 0 then 1 else 10 * Pow10(n - 1)
  }

  /** The value of the decimal literal `whole.frac`. */
  function DecimalValue(whole: string, frac: string): real
    requires AllDigits(whole) && AllDigits(frac)
  {
    DigitsValue(whole) as real + DigitsValue(frac) as real / Pow10(|frac|) as real
  }

  /** Python `float(t)` on the decimal literals it accepts: an optional
      sign, then digits with an optional '.' and fractional digits, with at
      least one digit in all. Every other string is rejected. */
  function ParseDecimal(t: string): Option<real>
  {
    var signed := |t| > 0 && (t[0] == '+' || t[0] == '-');
    var body := if signed then t[1..] else t;
    var w := Skip(body, 0, Digit);
    var whole := body[..w];
    if w < |body| && body[w] != '.' then
      None
    else
      var frac := if w < |body| then body[w + 1..] else [];
      if !AllDigits(frac) || |whole| + |frac| == 0 then
        None
      else
        var v := DecimalValue(whole, frac);
        Some(if signed && t[0] == '-' then -v else v)
  }

  /** An accepted literal holds only digits, signs and points. */
  lemma ParseDecimalChars(t: string, m: nat)
    requires m < |t|
    requires ParseDecimal(t).Some?
    ensures IsDigit(t[m]) || t[m] == '+' || t[m] == '-' || t[m] == '.'
  {
    var signed := |t| > 0 && (t[0] == '+' || t[0] == '-');
    var body := if signed then t[1..] else t;
    var w := Skip(body, 0, Digit);
    if !(signed && m == 0) {
      var k := if signed then m - 1 else m;
      assert t[m] == body[k];
      if w < k {
        assert body[k] == body[w + 1..][k - w - 1];
      }
    }
  }

  /** The text `num` hands to `float`: commas and dollar signs removed,
      then stripped. */
  function NumberText(s: string): string {
    Strip(DropCommasAndDollars(s))
  }

  /** `num`: `None` is 0.0; a string has its commas and dollar signs
      removed and is stripped, then read as a decimal literal, and is 0.0
      when it is not one. It never fails. */
  function Num(x: Option<string>): (r: real)
    ensures x.None? ==> r == 0.0
  {
    match x
    case None => 0.0
    case Some(s) => ParseDecimal(NumberText(s)).GetOr(0.0)
  }

  /** Text that is empty once stripped reads as 0.0, as `float("")`
      fails. */
  lemma NumOfBlank(s: string)
    requires forall m | 0 <= m < |s| :: IsSpace(s[m])
    ensures Num(Some(s)) == 0.0
  {
    assert forall m | 0 <= m < |s| :: s[m] != ',' && s[m] != '$';
    assert NumberText(s) == [];
    assert ParseDecimal([]).None?;
  }

  /** Commas and dollar signs never change the value, wherever they are. */
  lemma NumIgnoresCommasAndDollars(a: string, c: char, b: string)
    requires c == ',' || c == '$'
    ensures Num(Some(a + [c] + b)) == Num(Some(a + b))
  {
    var x := a + [c] + b;
    var y := a + b;
    assert DropCommasAndDollars(x) == DropCommasAndDollars(a) + DropCommasAndDollars(b) by {
      DropConcat(a + [c], b);
      DropConcat(a, [c]);
      assert DropCommasAndDollars([c]) == [];
      assert DropCommasAndDollars(a) + [] == DropCommasAndDollars(a);
    }
    DropConcat(a, b);
    assert DropCommasAndDollars(x) == DropCommasAndDollars(y);
  }

  lemma LiteralNumberText(whole: string, frac: string)
    requires |whole| > 0 && AllDigits(whole) && AllDigits(frac)
    ensures NumberText(whole + "." + frac) == whole + "." + frac
  {
    var t := whole + "." + frac;
    assert t[0] == whole[0];
    assert ',' !in t && '$' !in t by {
      forall m | 0 <= m < |t|
        ensures t[m] != ',' && t[m] != '$'
      {
        if m < |whole| {
          assert t[m] == whole[m];
        } else if m > |whole| {
          assert t[m] == frac[m - |whole| - 1];
        }
      }
    }
    assert !IsSpace(t[|t| - 1]) by {
      if |frac| > 0 {
        assert t[|t| - 1] == frac[|frac| - 1];
      }
    }
  }

  lemma ParseLiteral(whole: string, frac: string)
    requires |whole| > 0 && AllDigits(whole) && AllDigits(frac)
    ensures ParseDecimal(whole + "." + frac) == Some(DecimalValue(whole, frac))
  {
    var t := whole + "." + frac;
    assert t[0] == whole[0];
    SkipUnique(t, 0, Digit, |whole|);
    assert t[..|whole|] == whole;
    assert t[|whole| + 1..] == frac;
  }

  lemma ParseWhole(whole: string)
    requires |whole| > 0 && AllDigits(whole)
    ensures NumberText(whole) == whole
    ensures ParseDecimal(whole) == Some(DecimalValue(whole, []))
  {
    assert whole[0] in whole;
    SkipUnique(whole, 0, Digit, |whole|);
    assert whole[..|whole|] == whole;
  }

  /** A plain decimal literal reads back as its value. */
  lemma NumOfDecimal(whole: string, frac: string)
    requires |whole| > 0 && AllDigits(whole) && AllDigits(frac)
    ensures Num(Some(whole + "." + frac)) == DecimalValue(whole, frac)
    ensures Num(Some(whole)) == DecimalValue(whole, [])
  {
    LiteralNumberText(whole, frac);
    ParseLiteral(whole, frac);
    ParseWhole(whole);
  }

  /** A character that no decimal literal, separator or whitespace can
      contain makes the value 0.0. */
  lemma NumRejectsForeign(s: string, m: nat)
    requires m < |s|
    requires !IsDigit(s[m]) && !IsSpace(s[m])
    requires s[m] !in "+-.,$"
    ensures Num(Some(s)) == 0.0
  {
    var d := DropCommasAndDollars(s);
    DropKeeps(s, m);
    var k :| 0 <= k < |d| && d[k] == s[m];
    StripKeepsNonSpace(d, k);
    var t := NumberText(s);
    if ParseDecimal(t).Some? {
      var n :| 0 <= n < |t| && t[n] == s[m];
      ParseDecimalChars(t, n);
    }
  }

  // ------------------------------------------------------------------
  // to_first_last

  /** The characters `to_first_last` splits a word at: `-`, `’` and `'`. */
  predicate IsNameSep(c: char) {
    c == '-' || c == '\U{2019}' || c == '\''
  }

  predicate NoNameSep(p: string) {
    forall m | 0 <= m < |p| :: !IsNameSep(p[m])
  }

  /** `re.split(r"([-’'])", w)`: the pieces between separators at the even
      positions and each separator, captured, at the odd position after
      the piece it ends. */
  function SplitAtNameSeps(w: string): (r: seq<string>)
    ensures |r| % 2 == 1
    ensures forall m | 0 <= m < |r| && m % 2 == 1 :: |r[m]| == 1 && IsNameSep(r[m][0])
    ensures forall m | 0 <= m < |r| && m % 2 == 0 :: NoNameSep(r[m])
    ensures Join(r, []) == w
    decreases |w|
  {
    if |w| == 0 then
      [[]]
    else
      var rest := SplitAtNameSeps(w[1..]);
      assert w == [w[0]] + w[1..];
      if IsNameSep(w[0]) then
        SepOpensPiece(w[0], rest, w[1..]);
        [[], [w[0]]] + rest
      else
        CharExtendsPiece(w[0], rest, w[1..]);
        [[w[0]] + rest[0]] + rest[1..]
  }

  /** The shape `SplitAtNameSeps` promises: pieces without separators at
      the even positions, one separator at each odd one, joining to `w`. */
  predicate SeparatedPieces(r: seq<string>, w: string) {
    && |r| % 2 == 1
    && (forall m | 0 <= m < |r| && m % 2 == 1 :: |r[m]| == 1 && IsNameSep(r[m][0]))
    && (forall m | 0 <= m < |r| && m % 2 == 0 :: NoNameSep(r[m]))
    && Join(r, []) == w
  }

  /** A leading separator closes an empty first piece. */
  lemma SepOpensPiece(c: char, rest: seq<string>, w: string)
    requires IsNameSep(c)
    requires SeparatedPieces(rest, w)
    ensures SeparatedPieces([[], [c]] + rest, [c] + w)
  {
    var r := [[], [c]] + rest;
    assert r[1..] == [[c]] + rest;
    assert r[2..] == rest;
    assert forall m | 2 <= m < |r| :: r[m] == rest[m - 2];
    JoinCons([c], rest, []);
    JoinCons([], [[c]] + rest, []);
  }

  /** Any other leading character extends the first piece. */
  lemma CharExtendsPiece(c: char, rest: seq<string>, w: string)
    requires !IsNameSep(c)
    requires SeparatedPieces(rest, w)
    ensures SeparatedPieces([[c] + rest[0]] + rest[1..], [c] + w)
  {
    var r := [[c] + rest[0]] + rest[1..];
    assert r[1..] == rest[1..];
    assert forall m | 1 <= m < |r| :: r[m] == rest[m];
    assert NoNameSep(r[0]) by {
      assert forall m | 1 <= m < |r[0]| :: r[0][m] == rest[0][m - 1];
    }
    if |rest| > 1 {
      JoinCons(r[0], rest[1..], []);
      JoinCons(rest[0], rest[1..], []);
      assert rest == [rest[0]] + rest[1..];
    }
  }

  function LowerAll(p: string): (r: string)
    ensures |r| == |p|
    ensures forall m | 0 <= m < |p| :: r[m] == Lower(p[m])
  {
    seq(|p|, m requires 0 <= m < |p| => Lower(p[m]))
  }

  /** Python `str.capitalize()`: first character upper-cased, the rest
      lower-cased. */
  function Capitalize(p: string): string {
    if |p| == 0 then [] else [Upper(p[0])] + LowerAll(p[1..])
  }

  /** The join in `to_first_last`: pieces at even positions capitalised,
      separators at odd positions kept, all concatenated. */
  function CapitalizePieces(parts: seq<string>): string
    decreases |parts|, 1
  {
    if |parts| == 0 then [] else Capitalize(parts[0]) + AfterFirstPiece(parts)
  }

  /** The part of `CapitalizePieces` that follows the first piece. */
  function AfterFirstPiece(parts: seq<string>): string
    decreases |parts|, 0
  {
    if |parts| >= 2 then parts[1] + CapitalizePieces(parts[2..]) else []
  }

  /** The same casing read one character at a time: a separator is kept, a
      character that opens a piece is upper-cased, any other lower-cased.
      `opening` says whether the first character opens a piece. */
  function CaseFrom(w: string, opening: bool): (r: string)
    ensures |r| == |w|
    ensures forall m | 0 <= m < |w| :: IsNameSep(w[m]) ==> r[m] == w[m]
    ensures forall m | 0 <= m < |w| :: !IsNameSep(w[m]) && (if m == 0 then opening else IsNameSep(w[m - 1])) ==> r[m] == Upper(w[m])
    ensures forall m | 0 <= m < |w| :: !IsNameSep(w[m]) && !(if m == 0 then opening else IsNameSep(w[m - 1])) ==> r[m] == Lower(w[m])
    decreases |w|
  {
    if |w| == 0 then
      []
    else
      var head := if IsNameSep(w[0]) then w[0] else if opening then Upper(w[0]) else Lower(w[0]);
      var rest := CaseFrom(w[1..], IsNameSep(w[0]));
      assert forall m | 1 <= m < |w| :: w[1..][m - 1] == w[m];
      [head] + rest
  }

  /** The piece-wise casing and the character-wise one agree. */
  lemma {:induction false} PiecesAgreeWithCaseFrom(w: string)
    ensures CapitalizePieces(SplitAtNameSeps(w)) == CaseFrom(w, true)
    ensures LowerAll(SplitAtNameSeps(w)[0]) + AfterFirstPiece(SplitAtNameSeps(w)) == CaseFrom(w, false)
    decreases |w|
  {
    if |w| > 0 {
      var rest := SplitAtNameSeps(w[1..]);
      PiecesAgreeWithCaseFrom(w[1..]);
      assert w == [w[0]] + w[1..];
      if IsNameSep(w[0]) {
        CaseFromSepStep(w[0], rest, w[1..]);
      } else {
        CaseFromCharStep(w[0], rest, w[1..]);
      }
    }
  }

  /** A leading separator is kept and opens the next piece. */
  lemma CaseFromSepStep(c: char, rest: seq<string>, v: string)
    requires IsNameSep(c) && |rest| % 2 == 1
    requires CapitalizePieces(rest) == CaseFrom(v, true)
    ensures CapitalizePieces([[], [c]] + rest) == CaseFrom([c] + v, true)
    ensures LowerAll([]) + AfterFirstPiece([[], [c]] + rest) == CaseFrom([c] + v, false)
  {
    var parts := [[], [c]] + rest;
    assert ([c] + v)[1..] == v;
    assert parts[2..] == rest;
    assert AfterFirstPiece(parts) == [c] + CapitalizePieces(rest);
    assert Capitalize(parts[0]) == [] && LowerAll(parts[0]) == [];
  }

  /** Any other leading character is cased by whether it opens the word. */
  lemma CaseFromCharStep(c: char, rest: seq<string>, v: string)
    requires !IsNameSep(c) && |rest| % 2 == 1
    requires LowerAll(rest[0]) + AfterFirstPiece(rest) == CaseFrom(v, false)
    ensures CapitalizePieces([[c] + rest[0]] + rest[1..]) == CaseFrom([c] + v, true)
    ensures LowerAll([c] + rest[0]) + AfterFirstPiece([[c] + rest[0]] + rest[1..]) == CaseFrom([c] + v, false)
  {
    AfterExtendedPiece(c, rest);
    CaseFromHead(c, v);
    CaseOfCons(c, rest[0]);
    AppendAssoc([Upper(c)], LowerAll(rest[0]), AfterFirstPiece(rest));
    AppendAssoc([Lower(c)], LowerAll(rest[0]), AfterFirstPiece(rest));
  }

  /** Capitalising and lower-casing a piece with a known first character. */
  lemma CaseOfCons(c: char, p: string)
    ensures Capitalize([c] + p) == [Upper(c)] + LowerAll(p)
    ensures LowerAll([c] + p) == [Lower(c)] + LowerAll(p)
  {
    assert ([c] + p)[0] == c;
    assert ([c] + p)[1..] == p;
    LowerAllCons(c, p);
  }

  lemma LowerAllCons(c: char, p: string)
    ensures LowerAll([c] + p) == [Lower(c)] + LowerAll(p)
  {
    var q := [c] + p;
    var l := LowerAll(q);
    var r := [Lower(c)] + LowerAll(p);
    assert |l| == |r|;
    forall m | 0 <= m < |l|
      ensures l[m] == r[m]
    {
      if m > 0 {
        assert q[m] == p[m - 1];
      }
    }
  }

  /** Extending the first piece leaves what follows it alone. */
  lemma AfterExtendedPiece(c: char, rest: seq<string>)
    requires |rest| > 0
    ensures AfterFirstPiece([[c] + rest[0]] + rest[1..]) == AfterFirstPiece(rest)
  {
    var parts := [[c] + rest[0]] + rest[1..];
    if |rest| >= 2 {
      assert parts[1] == rest[1];
      assert parts[2..] == rest[2..];
    }
  }

  /** `CaseFrom` on a leading non-separator. */
  lemma CaseFromHead(c: char, v: string)
    requires !IsNameSep(c)
    ensures CaseFrom([c] + v, true) == [Upper(c)] + CaseFrom(v, false)
    ensures CaseFrom([c] + v, false) == [Lower(c)] + CaseFrom(v, false)
  {
    assert ([c] + v)[1..] == v;
  }

  /** One word of `to_first_last`: every piece between the separators `-`,
      `’` and `'` is capitalised and the separators stay in place; nothing
      but letter case changes. */
  function CapitalizeWord(w: string): (r: string)
    ensures |r| == |w|
    ensures forall m | 0 <= m < |w| :: IsNameSep(w[m]) ==> r[m] == w[m]
    ensures forall m | 0 <= m < |w| :: !IsNameSep(w[m]) && (m == 0 || IsNameSep(w[m - 1])) ==> r[m] == Upper(w[m])
    ensures forall m | 0 <= m < |w| :: !IsNameSep(w[m]) && m > 0 && !IsNameSep(w[m - 1]) ==> r[m] == Lower(w[m])
  {
    PiecesAgreeWithCaseFrom(w);
    CapitalizePieces(SplitAtNameSeps(w))
  }

  /** The position of the first `c` in `s`. */
  function FirstIndex(s: string, c: char): (i: nat)
    requires c in s
    ensures i < |s| && s[i] == c && c !in s[..i]
  {
    if s[0] == c then 0 else FirstIndex(s[1..], c) + 1
  }

  /** The cleaned name in display order: with a comma, the stripped part
      after the first comma, a space, and the stripped part before it;
      without one, unchanged. */
  function Reorder(n: string): string {
    if ',' in n then
      var i := FirstIndex(n, ',');
      Strip(n[i + 1..]) + " " + Strip(n[..i])
    else
      n
  }

  /** The words `to_first_last` capitalises, in output order. */
  function NameWords(name: string): seq<string> {
    Words(Reorder(CleanSpaces(name)))
  }

  function CapitalizeAll(ws: seq<string>): (r: seq<string>)
    ensures |r| == |ws|
    ensures forall m | 0 <= m < |ws| :: r[m] == CapitalizeWord(ws[m])
  {
    seq(|ws|, m requires 0 <= m < |ws| => CapitalizeWord(ws[m]))
  }

  /** `to_first_last`: "Last, First" becomes "First Last", each piece of
      each word is capitalised, and the words are joined by single spaces. */
  function ToFirstLast(name: string): string {
    Join(CapitalizeAll(NameWords(name)), " ")
  }

  lemma CaseKeepsNonSpace(c: char)
    requires !IsSpace(c)
    ensures !IsSpace(Upper(c)) && !IsSpace(Lower(c))
  {
    if 'a' <= c <= 'z' {
      assert 'A' <= Upper(c) <= 'Z';
    }
    if 'A' <= c <= 'Z' {
      assert 'a' <= Lower(c) <= 'z';
    }
  }

  lemma CapitalizeKeepsWord(w: string)
    requires IsWord(w)
    ensures IsWord(CapitalizeWord(w))
  {
    var r := CapitalizeWord(w);
    forall m | 0 <= m < |r|
      ensures !IsSpace(r[m])
    {
      CaseKeepsNonSpace(w[m]);
      if IsNameSep(w[m]) {
        assert r[m] == w[m];
      } else if m == 0 || IsNameSep(w[m - 1]) {
        assert r[m] == Upper(w[m]);
      } else {
        assert r[m] == Lower(w[m]);
      }
    }
  }

  /** Words joined by single spaces form a clean string. */
  lemma {:induction false} JoinOfWordsIsClean(ws: seq<string>)
    requires forall m | 0 <= m < |ws| :: IsWord(ws[m])
    ensures IsClean(Join(ws, " "))
    decreases |ws|
  {
    if |ws| > 1 {
      JoinOfWordsIsClean(ws[1..]);
      var x := ws[0];
      var y := Join(ws[1..], " ");
      var s := x + " " + y;
      assert |y| > 0 by {
        JoinFirstPiece(ws[1..], " ");
      }
      forall m | 0 <= m < |s| - 1
        ensures !(IsSpace(s[m]) && IsSpace(s[m + 1]))
      {
        if m < |x| {
          assert s[m] == x[m];
        } else if m > |x| {
          assert s[m] == y[m - |x| - 1];
          assert s[m + 1] == y[m - |x|];
        } else {
          assert s[m + 1] == y[0];
        }
      }
      forall c | c in s
        ensures IsSpace(c) ==> c == ' '
      {
        var k :| 0 <= k < |s| && s[k] == c;
        if k < |x| {
          assert x[k] == c;
        } else if k > |x| {
          assert y[k - |x| - 1] == c;
        }
      }
      assert s[0] == x[0];
      assert s[|s| - 1] == y[|y| - 1];
    }
  }

  /** The first piece opens the join. */
  lemma {:induction false} JoinFirstPiece(ws: seq<string>, sep: string)
    requires |ws| > 0
    ensures |Join(ws, sep)| >= |ws[0]|
    ensures Join(ws, sep)[..|ws[0]|] == ws[0]
    decreases |ws|
  {
  }

  /** The output of `to_first_last` is its capitalised words separated by
      single spaces, with no other whitespace. */
  lemma ToFirstLastWords(name: string)
    ensures Words(ToFirstLast(name)) == CapitalizeAll(NameWords(name))
    ensures IsClean(ToFirstLast(name))
  {
    var caps := CapitalizeAll(NameWords(name));
    forall m | 0 <= m < |caps|
      ensures IsWord(caps[m])
    {
      CapitalizeKeepsWord(NameWords(name)[m]);
    }
    WordsJoin(caps);
    JoinOfWordsIsClean(caps);
  }

  /** With a comma, the words after the first comma come first, then the
      words before it; without one, the words keep their order. */
  lemma ToFirstLastOrder(name: string)
    ensures var n := CleanSpaces(name);
      NameWords(name) == if ',' in n then
        var i := FirstIndex(n, ',');
        Words(n[i + 1..]) + Words(n[..i])
      else
        Words(name)
  {
    var n := CleanSpaces(name);
    if ',' in n {
      var i := FirstIndex(n, ',');
      var after := Strip(n[i + 1..]);
      var before := Strip(n[..i]);
      assert Reorder(n) == after + [' '] + before;
      WordsConcatSpace(after, ' ', before);
      WordsStrip(n[i + 1..]);
      WordsStrip(n[..i]);
    } else {
      assert Reorder(n) == n;
      CleanSpacesIsJoinedWords(name);
    }
  }

  // ------------------------------------------------------------------
  // norm_date

  datatype DateParts = DateParts(year: nat, month: nat, day: nat)

  /** A calendar date within the range Python's `datetime.date` accepts;
      the day is bounded by 31 whatever the month. */
  type Date = d: DateParts | 1 <= d.year <= 9999 && 1 <= d.month <= 12 && 1 <= d.day <= 31
    witness DateParts(1, 1, 1)

  function DigitChar(k: nat): (c: char)
    requires k < 10
    ensures IsDigit(c) && c as int - '0' as int == k
  {
    ('0' as int + k) as char
  }

  /** The `w` decimal digits of `n`, zero-padded on the left. */
  function PadDigits(n: nat, w: nat): (r: string)
    requires n < Pow10(w)
    ensures |r| == w && AllDigits(r)
    ensures DigitsValue(r) == n
  {
    if w == 0 then
      []
    else
      var r := PadDigits(n / 10, w - 1) + [DigitChar(n % 10)];
      assert r[..|r| - 1] == PadDigits(n / 10, w - 1);
      r
  }

  lemma {:induction false} DigitsValueBound(s: string)
    requires AllDigits(s)
    ensures DigitsValue(s) < Pow10(|s|)
    decreases |s|
  {
    if |s| > 0 {
      DigitsValueBound(s[..|s| - 1]);
    }
  }

  /** A string of digits is the padded form of its own value. */
  lemma {:induction false} PadDigitsOfValue(s: string)
    requires AllDigits(s)
    ensures DigitsValue(s) < Pow10(|s|)
    ensures PadDigits(DigitsValue(s), |s|) == s
    decreases |s|
  {
    DigitsValueBound(s);
    if |s| > 0 {
      var init := s[..|s| - 1];
      PadDigitsOfValue(init);
      var v := DigitsValue(s);
      var c := s[|s| - 1] as int - '0' as int;
      assert v == DigitsValue(init) * 10 + c;
      assert v / 10 == DigitsValue(init) && v % 10 == c;
      assert s == init + [s[|s| - 1]];
    }
  }

  lemma Pow10Values()
    ensures Pow10(2) == 100 && Pow10(4) == 10000
  {
  }

  /** `date.isoformat()`: YYYY-MM-DD. */
  function IsoFormat(d: Date): (r: string)
    ensures |r| == 10 && r[4] == '-' && r[7] == '-'
  {
    Pow10Values();
    PadDigits(d.year, 4) + "-" + PadDigits(d.month, 2) + "-" + PadDigits(d.day, 2)
  }

  /** The reading of a YYYY-MM-DD string back into a date; anything else,
      or an out-of-range field, gives `None`. */
  function ParseIso(r: string): Option<Date> {
    if |r| == 10 && r[4] == '-' && r[7] == '-' && AllDigits(r[..4]) && AllDigits(r[5..7]) && AllDigits(r[8..]) then
      var dp := DateParts(DigitsValue(r[..4]), DigitsValue(r[5..7]), DigitsValue(r[8..]));
      if 1 <= dp.year <= 9999 && 1 <= dp.month <= 12 && 1 <= dp.day <= 31 then Some(dp) else None
    else
      None
  }

  /** Every date reads back from its ISO form. */
  lemma IsoRoundTrip(d: Date)
    ensures ParseIso(IsoFormat(d)) == Some(d)
  {
    Pow10Values();
    var y := PadDigits(d.year, 4);
    var m := PadDigits(d.month, 2);
    var dd := PadDigits(d.day, 2);
    var r := IsoFormat(d);
    assert r == y + "-" + m + "-" + dd;
    assert r[..4] == y;
    assert r[5..7] == m;
    assert r[8..] == dd;
  }

  /** Every string that reads as a date is that date's ISO form. */
  lemma IsoRoundTripBack(r: string)
    requires ParseIso(r).Some?
    ensures IsoFormat(ParseIso(r).value) == r
  {
    Pow10Values();
    var y := r[..4];
    var m := r[5..7];
    var dd := r[8..];
    PadDigitsOfValue(y);
    PadDigitsOfValue(m);
    PadDigitsOfValue(dd);
    assert r == y + "-" + m + "-" + dd;
  }

  /** `norm_date`: the whitespace-cleaned text, empty stays empty; what the
      date parser `parse` (dateutil's fuzzy month-first parser, which is
      not part of this model) reads as a date becomes its ISO form, and
      text it rejects is returned cleaned but otherwise unchanged. */
  function NormDate(parse: string -> Option<Date>, s: string): (r: string)
    ensures r == [] <==> CleanSpaces(s) == []
    ensures CleanSpaces(s) != [] && parse(CleanSpaces(s)).Some? ==> ParseIso(r) == parse(CleanSpaces(s))
    ensures CleanSpaces(s) != [] && parse(CleanSpaces(s)).None? ==> r == CleanSpaces(s)
  {
    var n := CleanSpaces(s);
    if n == [] then
      []
    else
      match parse(n)
      case Some(d) => IsoRoundTrip(d); IsoFormat(d)
      case None => n
  }

  // ------------------------------------------------------------------
  // norm_period

  /** The dashes `norm_period` rewrites to '-': en dash, em dash, minus. */
  predicate IsDashVariant(c: char) {
    c == '\U{2013}' || c == '\U{2014}' || c == '\U{2212}'
  }

  function UnifyDashes(s: string): (r: string)
    ensures |r| == |s|
    ensures forall m | 0 <= m < |s| :: r[m] == if IsDashVariant(s[m]) then '-' else s[m]
  {
    seq(|s|, m requires 0 <= m < |s| => if IsDashVariant(s[m]) then '-' else s[m])
  }

  /** The word "to", in any letter case, standing alone at `p`. */
  predicate ToAt(s: string, p: nat) {
    p + 2 <= |s| && Lower(s[p]) == 't' && Lower(s[p + 1]) == 'o'
    && (p == 0 || !IsWordChar(s[p - 1]))
    && (p + 2 == |s| || !IsWordChar(s[p + 2]))
  }

  /** A period separator starts at `p`: a hyphen or a standalone "to". */
  predicate SepAt(s: string, p: nat) {
    p < |s| && (s[p] == '-' || ToAt(s, p))
  }

  function SepLength(s: string, p: nat): (k: nat)
    requires SepAt(s, p)
    ensures p + k <= |s|
  {
    if s[p] == '-' then 1 else 2
  }

  /** The leftmost separator at or after `from`. */
  function FindSeparator(s: string, from: nat): (r: Option<nat>)
    requires from <= |s|
    ensures r.Some? ==> from <= r.value < |s| && SepAt(s, r.value)
    ensures r.Some? ==> forall q | from <= q < r.value :: !SepAt(s, q)
    ensures r.None? ==> forall q | from <= q < |s| :: !SepAt(s, q)
    decreases |s| - from
  {
    if from == |s| then None
    else if SepAt(s, from) then Some(from)
    else FindSeparator(s, from + 1)
  }

  /** `norm_period`: the cleaned text with its dashes unified; when it
      splits at its leftmost separator into two halves that both normalise
      to something non-empty, the two normalised dates joined by an en
      dash. */
  function NormPeriod(parse: string -> Option<Date>, s: string): (r: string)
    ensures r == [] <==> CleanSpaces(s) == []
  {
    var n := CleanSpaces(s);
    if n == [] then
      []
    else
      var d := UnifyDashes(n);
      match FindSeparator(d, 0)
      case None => d
      case Some(p) =>
        var a := NormDate(parse, Strip(d[..p]));
        var b := NormDate(parse, Strip(d[p + SepLength(d, p)..]));
        if a != [] && b != [] then a + "\U{2013}" + b else d
  }

  /** `p` is the leftmost separator of `d`. */
  predicate LeftmostSep(d: string, p: nat) {
    SepAt(d, p) && forall q | 0 <= q < p :: !SepAt(d, q)
  }

  /** The leftmost separator is the one found. */
  lemma FindLeftmost(d: string, p: nat)
    requires SepAt(d, p)
    requires forall q | 0 <= q < p :: !SepAt(d, q)
    ensures FindSeparator(d, 0) == Some(p)
  {
  }

  /** With a leftmost separator at `p` and two halves that normalise to
      non-empty text, the period is the two dates joined by an en dash. */
  lemma NormPeriodSplits(parse: string -> Option<Date>, s: string, p: nat)
    requires CleanSpaces(s) != []
    requires SepAt(UnifyDashes(CleanSpaces(s)), p)
    requires forall q | 0 <= q < p :: !SepAt(UnifyDashes(CleanSpaces(s)), q)
    requires var d := UnifyDashes(CleanSpaces(s));
      CleanSpaces(d[..p]) != [] && CleanSpaces(d[p + SepLength(d, p)..]) != []
    ensures var d := UnifyDashes(CleanSpaces(s));
      NormPeriod(parse, s) == NormDate(parse, d[..p]) + "\U{2013}" + NormDate(parse, d[p + SepLength(d, p)..])
  {
    var d := UnifyDashes(CleanSpaces(s));
    FindLeftmost(d, p);
    NormDateStrip(parse, d[..p]);
    NormDateStrip(parse, d[p + SepLength(d, p)..]);
  }

  /** Without a separator the period is the cleaned text with its dashes
      unified. */
  lemma NormPeriodNoSeparator(parse: string -> Option<Date>, s: string)
    requires forall q | 0 <= q < |UnifyDashes(CleanSpaces(s))| :: !SepAt(UnifyDashes(CleanSpaces(s)), q)
    ensures NormPeriod(parse, s) == UnifyDashes(CleanSpaces(s))
  {
    var d := UnifyDashes(CleanSpaces(s));
    var r := FindSeparator(d, 0);
    assert r.None? by {
      assert forall q: nat | q < |d| :: !SepAt(d, q);
    }
  }

  /** When a half around the leftmost separator is blank, the period is
      the cleaned text with its dashes unified. */
  lemma NormPeriodBlankHalf(parse: string -> Option<Date>, s: string, p: nat)
    requires SepAt(UnifyDashes(CleanSpaces(s)), p)
    requires forall q | 0 <= q < p :: !SepAt(UnifyDashes(CleanSpaces(s)), q)
    requires var d := UnifyDashes(CleanSpaces(s));
      CleanSpaces(d[..p]) == [] || CleanSpaces(d[p + SepLength(d, p)..]) == []
    ensures NormPeriod(parse, s) == UnifyDashes(CleanSpaces(s))
  {
    var d := UnifyDashes(CleanSpaces(s));
    FindLeftmost(d, p);
    NormDateStrip(parse, d[..p]);
    NormDateStrip(parse, d[p + SepLength(d, p)..]);
  }

  /** Stripping before normalising a date changes nothing. */
  lemma NormDateStrip(parse: string -> Option<Date>, s: string)
    ensures NormDate(parse, Strip(s)) == NormDate(parse, s)
  {
    WordsStrip(s);
    CleanSpacesIsJoinedWords(s);
    CleanSpacesIsJoinedWords(Strip(s));
  }

  /** Two clean non-empty strings joined by one space, or by one
      non-whitespace character, form a clean string. */
  lemma CleanJoin(x: string, c: char, y: string)
    requires IsClean(x) && IsClean(y) && x != [] && y != []
    ensures c == ' ' || !IsSpace(c) ==> IsClean(x + [c] + y)
  {
    if c == ' ' || !IsSpace(c) {
      var s := x + [c] + y;
      forall m | 0 <= m < |s| - 1
        ensures !(IsSpace(s[m]) && IsSpace(s[m + 1]))
      {
        if m < |x| - 1 {
          assert s[m] == x[m] && s[m + 1] == x[m + 1];
        } else if m == |x| - 1 {
          assert s[m] == x[|x| - 1];
        } else if m == |x| {
          assert s[m + 1] == y[0];
        } else {
          assert s[m] == y[m - |x| - 1] && s[m + 1] == y[m - |x|];
        }
      }
      forall d | d in s
        ensures IsSpace(d) ==> d == ' '
      {
        var k :| 0 <= k < |s| && s[k] == d;
        if k < |x| {
          assert x[k] == d;
        } else if k > |x| {
          assert y[k - |x| - 1] == d;
        }
      }
      assert s[0] == x[0];
      assert s[|s| - 1] == y[|y| - 1];
    }
  }

  /** A space on either side does not survive cleaning. */
  lemma CleanSpacesPadded(x: string)
    ensures CleanSpaces(x + " ") == CleanSpaces(x)
    ensures CleanSpaces(" " + x) == CleanSpaces(x)
  {
    WordsTrailingSpace(x, " ");
    WordsLeadingSpace(" ", x);
    CleanSpacesIsJoinedWords(x);
    CleanSpacesIsJoinedWords(x + " ");
    CleanSpacesIsJoinedWords(" " + x);
  }

  predicate NoDashVariant(s: string) {
    forall m | 0 <= m < |s| :: !IsDashVariant(s[m])
  }

  /** Text without dash variants is left alone by dash unification. */
  lemma UnifyPlain(s: string)
    requires NoDashVariant(s)
    ensures UnifyDashes(s) == s
  {
  }

  /** A separator inside `x` that is followed by `c` is a separator of `x`
      alone, when `c` is neither 'o', 'O' nor a word character. */
  lemma SepInPrefix(x: string, c: char, y: string, q: nat)
    requires Lower(c) != 'o' && !IsWordChar(c)
    requires q < |x|
    ensures SepAt(x + [c] + y, q) ==> SepAt(x, q)
  {
    var s := x + [c] + y;
    assert s[q] == x[q];
    if s[q] != '-' && ToAt(s, q) {
      assert s[q + 1] != c;
      assert q + 1 < |x|;
      assert s[q + 1] == x[q + 1];
      if q + 2 < |x| {
        assert s[q + 2] == x[q + 2];
      }
    }
  }

  /** In "A to B" the leftmost separator is the "to". */
  lemma ToIsLeftmost(a: string, b: string)
    requires IsClean(a) && IsClean(b) && a != [] && b != []
    requires NoDashVariant(a) && NoDashVariant(b)
    requires forall q | 0 <= q < |a| :: !SepAt(a, q)
    ensures var s1 := a + " to " + b;
      IsClean(s1) && NoDashVariant(s1) && LeftmostSep(s1, |a| + 1) && SepLength(s1, |a| + 1) == 2
      && s1[..|a| + 1] == a + " " && s1[|a| + 3..] == " " + b
  {
    var tb := "to" + [' '] + b;
    CleanJoin("to", ' ', b);
    CleanJoin(a, ' ', tb);
    var s1 := a + [' '] + tb;
    assert a + " to " + b == s1;
    var p1 := |a| + 1;
    assert s1[..p1] == a + " ";
    assert s1[p1 + 2..] == " " + b;
    assert s1[p1] == 't' && s1[p1 + 1] == 'o' && s1[p1 + 2] == ' ';
    NoSepBeforeSpace(a, tb);
  }

  /** No separator starts in `x` or at the space after it, when `x` has
      none of its own. */
  lemma NoSepBeforeSpace(x: string, y: string)
    requires forall q | 0 <= q < |x| :: !SepAt(x, q)
    ensures forall q | 0 <= q < |x| + 1 :: !SepAt(x + [' '] + y, q)
  {
    var s := x + [' '] + y;
    forall q | 0 <= q < |x| + 1
      ensures !SepAt(s, q)
    {
      if q < |x| {
        SepInPrefix(x, ' ', y, q);
      } else {
        assert s[q] == ' ';
      }
    }
  }

  /** A space on either side does not change a normalised date. */
  lemma NormDatePadded(parse: string -> Option<Date>, x: string)
    ensures NormDate(parse, x + " ") == NormDate(parse, x)
    ensures NormDate(parse, " " + x) == NormDate(parse, x)
  {
    CleanSpacesPadded(x);
  }

  /** The split of a clean period text without dash variants at its
      leftmost separator `p`. */
  lemma NormPeriodOfClean(parse: string -> Option<Date>, d: string, p: nat)
    requires IsClean(d) && d != [] && NoDashVariant(d)
    requires LeftmostSep(d, p)
    requires NormDate(parse, d[..p]) != [] && NormDate(parse, d[p + SepLength(d, p)..]) != []
    ensures NormPeriod(parse, d) == NormDate(parse, d[..p]) + "\U{2013}" + NormDate(parse, d[p + SepLength(d, p)..])
  {
    assert CleanSpaces(d) == d;
    UnifyPlain(d);
    NormPeriodSplits(parse, d, p);
  }

  /** "A to B" normalises as the two halves A and B. */
  lemma NormPeriodOfTo(parse: string -> Option<Date>, a: string, b: string)
    requires IsClean(a) && IsClean(b) && a != [] && b != []
    requires NoDashVariant(a) && NoDashVariant(b)
    requires forall q | 0 <= q < |a| :: !SepAt(a, q)
    ensures NormPeriod(parse, a + " to " + b) == NormDate(parse, a) + "\U{2013}" + NormDate(parse, b)
  {
    ToIsLeftmost(a, b);
    var s1 := a + " to " + b;
    var p1 := |a| + 1;
    assert s1[..p1] == a + " ";
    assert s1[p1 + SepLength(s1, p1)..] == " " + b;
    NormDatePadded(parse, a);
    NormDatePadded(parse, b);
    NormPeriodOfClean(parse, s1, p1);
  }

  /** "A-B" normalises as the two halves A and B. */
  lemma NormPeriodOfHyphen(parse: string -> Option<Date>, a: string, b: string)
    requires IsClean(a) && IsClean(b) && a != [] && b != []
    requires NoDashVariant(a) && NoDashVariant(b)
    requires forall q | 0 <= q < |a| :: !SepAt(a, q)
    ensures NormPeriod(parse, a + "-" + b) == NormDate(parse, a) + "\U{2013}" + NormDate(parse, b)
  {
    CleanJoin(a, '-', b);
    var s2 := a + ['-'] + b;
    assert a + "-" + b == s2;
    UnifyPlain(s2);
    var p2 := |a|;
    assert SepAt(s2, p2);
    forall q | 0 <= q < p2
      ensures !SepAt(s2, q)
    {
      SepInPrefix(a, '-', b, q);
    }
    assert s2[..p2] == a;
    assert s2[p2 + 1..] == b;
    NormPeriodSplits(parse, s2, p2);
  }

  /** "A to B" and "A-B" normalise to the same period, when A and B are
      clean, neither holds a dash variant and A holds no separator. */
  lemma NormPeriodToMatchesHyphen(parse: string -> Option<Date>, a: string, b: string)
    requires IsClean(a) && IsClean(b) && a != [] && b != []
    requires NoDashVariant(a) && NoDashVariant(b)
    requires forall q | 0 <= q < |a| :: !SepAt(a, q)
    ensures NormPeriod(parse, a + " to " + b) == NormPeriod(parse, a + "-" + b)
  {
    NormPeriodOfTo(parse, a, b);
    NormPeriodOfHyphen(parse, a, b);
  }
}

=== FILE: wrappers.dfy ===
/** Failure-carrying datatypes shared by the model: `Option` stands for a
    Python value that may be `None`, `Result` for a call that may raise. */
module Wrappers {

  datatype Option<+T> = None | Some(value: T) {

    /** The wrapped value, or `default` when there is none. */
    function GetOr(default: T): T {
      match this
      case Some(v) => v
      case None => default
    }
  }

  datatype Result<+R, +E> = Success(value: R) | Failure(error: E)
}

=== FILE: writer.dfy ===
/** The per-employee sheet writer: each employee has a sheet whose first
    row is the header row and whose later rows are invoices, one per
    invoice number. Workbooks are values held in a map from path to
    workbook; a save is a transition from one such map to the next. */
module Writer {
  import opened Wrappers
  import opened Strings
  import opened Models

  /** A cell value. */
  datatype Cell = Empty | Text(s: string) | Number(x: real)

  /** Row `k` of a sheet (counting from 1) is `rows[k - 1]`; row cells run
      from column A. */
  type Sheet = seq<seq<Cell>>

  /** Sheets by name. */
  type Workbook = map<string, Sheet>

  /** Workbooks by path; a path missing from the map has no file. */
  type Files = map<string, Workbook>

  const Headers: seq<string> :=
    ["Invoice #", "Period", "Hours Worked", "Rate", "Amount", "HST", "Date & Time Paid"]

  const NumericColumns: set<string> := {"Hours Worked", "Rate", "Amount", "HST"}

  /** A value of the row dictionary. */
  datatype Value = Str(s: string) | Float(x: real)

  /** `row_to_dict`: the record's values under the column headers, the
      payment column left empty. */
  function RowToDict(row: InvoiceRow): (d: map<string, Value>)
    ensures d.Keys == set h | h in Headers
    ensures d["Invoice #"] == Str(row.invoiceNo) && d["Date & Time Paid"] == Str("")
    ensures forall h | h in NumericColumns :: d[h].Float?
  {
    map["Invoice #" := Str(row.invoiceNo), "Period" := Str(row.period), "Hours Worked" := Float(row.hours),
        "Rate" := Float(row.rate), "Amount" := Float(row.amount), "HST" := Float(row.hst),
        "Date & Time Paid" := Str("")]
  }

  /** The header row as cells. */
  function HeaderRow(): (r: seq<Cell>)
    ensures |r| == |Headers|
    ensures forall k | 0 <= k < |Headers| :: r[k] == Text(Headers[k])
  {
    seq(|Headers|, k requires 0 <= k < |Headers| => Text(Headers[k]))
  }

  /** `_ensure_employee_sheet`: the workbook with a sheet of that name,
      created holding only the header row when it was missing. */
  function EnsureSheet(wb: Workbook, name: string): (r: Workbook)
    ensures name in r
    ensures name !in wb ==> r[name] == [HeaderRow()]
    ensures name in wb ==> r == wb
    ensures forall n | n in wb :: n in r && r[n] == wb[n]
    ensures r.Keys == wb.Keys + {name}
  {
    if name in wb then wb else wb[name := [HeaderRow()]]
  }

  /** The sheet's `max_row`: the last row, and 1 for a sheet with none. */
  function MaxRow(sheet: Sheet): (m: nat)
    ensures m >= 1 && m >= |sheet|
    ensures |sheet| >= 1 ==> m == |sheet|
  {
    if |sheet| == 0 then 1 else |sheet|
  }

  /** The value in column A of a row. */
  function ColumnA(row: seq<Cell>): Cell {
    if |row| == 0 then Empty else row[0]
  }

  /** `str(value).strip()` of a non-empty cell; `numText` stands for
      Python's `str` of a number. */
  function Key(c: Cell, numText: real -> string): (r: Option<string>)
    ensures r.None? <==> c.Empty?
    ensures r.Some? ==> Stripped(r.value)
  {
    match c
    case Empty => None
    case Text(s) => Some(Strip(s))
    case Number(x) => Some(Strip(numText(x)))
  }

  /** Row `k` (from 2, below the header) holds the invoice number `no`. */
  predicate HoldsInvoice(sheet: Sheet, k: nat, no: string, numText: real -> string)
    requires 2 <= k <= |sheet|
  {
    Key(ColumnA(sheet[k - 1]), numText) == Some(Strip(no))
  }

  /** The scan of `_invoice_exists` from row `k` to the last row. */
  function ExistsFrom(sheet: Sheet, k: nat, no: string, numText: real -> string): (b: bool)
    requires 2 <= k <= |sheet| + 1
    decreases |sheet| + 1 - k
  {
    if k > |sheet| then false
    else if HoldsInvoice(sheet, k, no, numText) then true
    else ExistsFrom(sheet, k + 1, no, numText)
  }

  /** `_invoice_exists`: whether column A of some row below the header
      holds the invoice number, both compared stripped. */
  function InvoiceExists(sheet: Sheet, no: string, numText: real -> string): bool {
    if MaxRow(sheet) < 2 then false else ExistsFrom(sheet, 2, no, numText)
  }

  lemma {:induction false} ExistsFromMeans(sheet: Sheet, k: nat, no: string, numText: real -> string)
    requires 2 <= k <= |sheet| + 1
    ensures ExistsFrom(sheet, k, no, numText) <==>
      exists j | k <= j <= |sheet| :: HoldsInvoice(sheet, j, no, numText)
    decreases |sheet| + 1 - k
  {
    if k <= |sheet| {
      if HoldsInvoice(sheet, k, no, numText) {
        assert ExistsFrom(sheet, k, no, numText);
      } else {
        ExistsFromMeans(sheet, k + 1, no, numText);
        assert ExistsFrom(sheet, k, no, numText) == ExistsFrom(sheet, k + 1, no, numText);
      }
    }
  }

  /** The scan finds an invoice number exactly when some row below the
      header holds it; the header row never counts. */
  lemma InvoiceExistsMeans(sheet: Sheet, no: string, numText: real -> string)
    ensures InvoiceExists(sheet, no, numText) <==>
      exists k | 2 <= k <= |sheet| :: HoldsInvoice(sheet, k, no, numText)
  {
    if |sheet| >= 2 {
      ExistsFromMeans(sheet, 2, no, numText);
    }
  }

  /** The cell a string is stored as once the workbook is saved: the file
      keeps no value for an empty string, which reads back as an empty
      cell. */
  function TextCell(s: string): (c: Cell)
    ensures c.Empty? <==> s == ""
    ensures c.Text? ==> c.s == s
    ensures !c.Number?
  {
    if s == "" then Empty else Text(s)
  }

  /** The cell a dictionary value is written as; numbers in numeric
      columns stay numbers. */
  function CellOf(v: Value): Cell {
    match v
    case Str(s) => TextCell(s)
    case Float(x) => Number(x)
  }

  /** The cells written for a record, in header order. */
  function RowCells(row: InvoiceRow): (r: seq<Cell>)
    ensures r == [TextCell(row.invoiceNo), TextCell(row.period), Number(row.hours), Number(row.rate),
                  Number(row.amount), Number(row.hst), Empty]
  {
    var d := RowToDict(row);
    seq(|Headers|, k requires 0 <= k < |Headers| => CellOf(d[Headers[k]]))
  }

  /** The key a later scan reads from a written record: none for an empty
      invoice number, so such a record never counts as a duplicate of a
      later one. */
  lemma WrittenKey(row: InvoiceRow, numText: real -> string)
    ensures row.invoiceNo == "" ==> Key(ColumnA(RowCells(row)), numText).None?
    ensures row.invoiceNo != "" ==> Key(ColumnA(RowCells(row)), numText) == Some(Strip(row.invoiceNo))
  {
  }

  /** The sheet with `cells` written at row `max_row + 1`; an empty sheet
      keeps an empty row 1. */
  function AppendRow(sheet: Sheet, cells: seq<Cell>): (r: Sheet)
    ensures |r| == MaxRow(sheet) + 1
    ensures r[MaxRow(sheet)] == cells
    ensures forall k | 0 <= k < |sheet| :: r[k] == sheet[k]
  {
    (if |sheet| == 0 then [[]] else sheet) + [cells]
  }

  datatype WriteError = FileNotFound(message: string) | Duplicate(message: string)

  /** `save_employee_row`: the record appended to its employee's sheet of
      the workbook at `path`, creating the sheet if need be. A missing
      workbook or an invoice number already in the sheet is an error and
      nothing is written. */
  function SaveEmployeeRow(files: Files, path: string, row: InvoiceRow, numText: real -> string): (r: Result<Files, WriteError>)
    ensures r.Failure? && r.error.FileNotFound? <==> path !in files
    ensures r.Failure? && r.error.FileNotFound? ==> r.error.message == "No workbook found at: " + path
    ensures r.Failure? && r.error.Duplicate? ==> r.error.message == "invoice has already been written to file"
  {
    SaveCells(files, path, row.employee, row.invoiceNo, RowCells(row), numText)
  }

  /** The save with the record's cells already laid out: `cells` go to the
      sheet `name`, `no` is the invoice number checked for duplicates. */
  function SaveCells(files: Files, path: string, name: string, no: string, cells: seq<Cell>,
                     numText: real -> string): (r: Result<Files, WriteError>)
    ensures r.Failure? && r.error.FileNotFound? <==> path !in files
    ensures r.Failure? && r.error.FileNotFound? ==> r.error.message == "No workbook found at: " + path
    ensures r.Failure? && r.error.Duplicate? ==> r.error.message == "invoice has already been written to file"
  {
    if path !in files then
      Failure(FileNotFound("No workbook found at: " + path))
    else
      var wb := EnsureSheet(files[path], name);
      var sheet := wb[name];
      if InvoiceExists(sheet, no, numText) then
        Failure(Duplicate("invoice has already been written to file"))
      else
        Success(files[path := wb[name := AppendRow(sheet, cells)]])
  }

  /** A duplicate is refused exactly when the employee's sheet already
      holds the invoice number below its header. */
  lemma SaveRefusesDuplicate(files: Files, path: string, row: InvoiceRow, numText: real -> string)
    requires path in files
    ensures var r := SaveEmployeeRow(files, path, row, numText);
      r.Failure? <==> (row.employee in files[path] &&
        exists k | 2 <= k <= |files[path][row.employee]| :: HoldsInvoice(files[path][row.employee], k, row.invoiceNo, numText))
  {
    var wb := files[path];
    if row.employee in wb {
      InvoiceExistsMeans(wb[row.employee], row.invoiceNo, numText);
    } else {
      InvoiceExistsMeans([HeaderRow()], row.invoiceNo, numText);
    }
  }

  /** A save adds exactly one row, at `max_row + 1`, holding the record's
      cells in header order; earlier rows, other sheets and other
      workbooks stay as they were. A new sheet starts with the header
      row. */
  lemma SaveAppendsOneRow(files: Files, path: string, row: InvoiceRow, numText: real -> string)
    requires SaveEmployeeRow(files, path, row, numText).Success?
    ensures var after := SaveEmployeeRow(files, path, row, numText).value;
      var name := row.employee;
      var before := if name in files[path] then files[path][name] else [HeaderRow()];
      && after.Keys == files.Keys
      && (forall p | p in files && p != path :: after[p] == files[p])
      && after[path].Keys == files[path].Keys + {name}
      && (forall n | n in files[path] && n != name :: after[path][n] == files[path][n])
      && |after[path][name]| == MaxRow(before) + 1
      && after[path][name][MaxRow(before)] == RowCells(row)
      && (forall k | 0 <= k < |before| :: after[path][name][k] == before[k])
  {
    SaveCellsAppends(files, path, row.employee, row.invoiceNo, RowCells(row), numText);
  }

  lemma SaveCellsAppends(files: Files, path: string, name: string, no: string, cells: seq<Cell>,
                         numText: real -> string)
    requires SaveCells(files, path, name, no, cells, numText).Success?
    ensures var after := SaveCells(files, path, name, no, cells, numText).value;
      var before := if name in files[path] then files[path][name] else [HeaderRow()];
      && after.Keys == files.Keys
      && (forall p | p in files && p != path :: after[p] == files[p])
      && after[path].Keys == files[path].Keys + {name}
      && (forall n | n in files[path] && n != name :: after[path][n] == files[path][n])
      && |after[path][name]| == MaxRow(before) + 1
      && after[path][name][MaxRow(before)] == cells
      && (forall k | 0 <= k < |before| :: after[path][name][k] == before[k])
  {
    var wb := EnsureSheet(files[path], name);
    var sheet := AppendRow(wb[name], cells);
    UpdateKeeps(files, path, wb[name := sheet]);
    UpdateKeeps(wb, name, sheet);
  }

  /** Updating a key already present keeps the key set and every other
      entry. */
  lemma UpdateKeeps<K, V>(m: map<K, V>, k: K, v: V)
    requires k in m
    ensures m[k := v].Keys == m.Keys && m[k := v][k] == v
    ensures forall j | j in m && j != k :: m[k := v][j] == m[j]
  {
  }

  /** The key in column A of the row at index `i` (row `i + 1`). */
  function KeyAt(sheet: Sheet, i: nat, numText: real -> string): Option<string>
    requires i < |sheet|
  {
    Key(ColumnA(sheet[i]), numText)
  }

  /** The invoice numbers below the header are pairwise distinct. */
  predicate UniqueInvoices(sheet: Sheet, numText: real -> string) {
    forall i, j | 1 <= i < j < |sheet| ::
      KeyAt(sheet, i, numText).Some? ==> KeyAt(sheet, i, numText) != KeyAt(sheet, j, numText)
  }

  /** Every sheet of every workbook has distinct invoice numbers. */
  predicate AllUnique(files: Files, numText: real -> string) {
    forall p, n | p in files && n in files[p] :: UniqueInvoices(files[p][n], numText)
  }

  /** Appending a row whose invoice number no row below the header holds
      keeps the sheet's invoice numbers distinct. */
  lemma AppendKeepsUnique(before: Sheet, no: string, cells: seq<Cell>, numText: real -> string)
    requires UniqueInvoices(before, numText)
    requires !exists k | 2 <= k <= |before| :: HoldsInvoice(before, k, no, numText)
    requires |cells| > 0 && cells[0] == TextCell(no)
    ensures UniqueInvoices(AppendRow(before, cells), numText)
  {
    var sheet := AppendRow(before, cells);
    var last := |sheet| - 1;
    assert no != "" ==> KeyAt(sheet, last, numText) == Some(Strip(no));
    forall i, j | 1 <= i < j < |sheet| && KeyAt(sheet, i, numText).Some?
      ensures KeyAt(sheet, i, numText) != KeyAt(sheet, j, numText)
    {
      assert sheet[i] == before[i];
      assert KeyAt(sheet, i, numText) == KeyAt(before, i, numText);
      if j < last {
        assert sheet[j] == before[j];
        assert KeyAt(sheet, j, numText) == KeyAt(before, j, numText);
      } else {
        assert !HoldsInvoice(before, i + 1, no, numText);
      }
    }
  }

  /** Saving keeps invoice numbers distinct in every sheet. */
  lemma SaveKeepsUnique(files: Files, path: string, row: InvoiceRow, numText: real -> string)
    requires AllUnique(files, numText)
    requires SaveEmployeeRow(files, path, row, numText).Success?
    ensures AllUnique(SaveEmployeeRow(files, path, row, numText).value, numText)
  {
    var cells := RowCells(row);
    assert cells[0] == TextCell(row.invoiceNo) by {
      assert Headers[0] == "Invoice #";
    }
    SaveCellsKeepsUnique(files, path, row.employee, row.invoiceNo, cells, numText);
  }

  lemma SaveCellsKeepsUnique(files: Files, path: string, name: string, no: string, cells: seq<Cell>,
                             numText: real -> string)
    requires AllUnique(files, numText)
    requires |cells| > 0 && cells[0] == TextCell(no)
    requires SaveCells(files, path, name, no, cells, numText).Success?
    ensures AllUnique(SaveCells(files, path, name, no, cells, numText).value, numText)
  {
    var after := SaveCells(files, path, name, no, cells, numText).value;
    var before := EnsureSheet(files[path], name)[name];
    assert !InvoiceExists(before, no, numText);
    InvoiceExistsMeans(before, no, numText);
    assert UniqueInvoices(before, numText) by {
      if name !in files[path] {
        assert before == [HeaderRow()];
      }
    }
    AppendKeepsUnique(before, no, cells, numText);
    SaveCellsAppends(files, path, name, no, cells, numText);
  }
}
